=== FILE: README.md ===
# School dashboard core, modelled in Dafny

This project models the logic of a school-administration dashboard. The
dashboard keeps students, grades, attendance, classes, assignments and
parent contacts. It has three layers, and the project models each one.

- **In-memory stores.** There are six service modules. Each keeps a list
  of records and offers `getById`, `create`, `update`, `delete` and
  foreign-key filters. Some services add operations of their own:
  - marking attendance, an upsert keyed on student, class and day;
  - adding and removing students and assignments on a class;
  - the parent-contact upsert and its communication log;
  - a student's GPA and attendance rate.

  Every operation is modelled as a pure function from a table
  (`seq<Row<F>>`) to the new table and the record returned.
- **Form validators and helpers.** These are:
  - the letter-grade and badge-colour step functions;
  - the phone formatter and the phone and e-mail checks of the
    parent-contact dialog;
  - the validators of the grade, assignment, student and class forms, and
    the error clearing on each keystroke.
- **Page-level list logic.** This covers:
  - the filters and name look-ups of the grades page;
  - the attendance grid;
  - the student table's search and sort;
  - the drag-and-drop calendar of assignments;
  - the dashboard's statistics and activity feed;
  - the way each page patches its own copy of a list after calling a
    service.

  The pages keep a local copy of each list. `LocalList.Mirrors` states
  that this copy holds the same records as the service table: the same
  multiset of rows, in any order. The lemmas show that every create,
  update, delete, mark, move and save keeps the copy in step with the
  table.

Shared modules:

- `Store` holds the id assignment and the generic find/update/delete.
- `Seqs` holds filters, first-match search and means.
- `Text` holds trimming, digit stripping, ASCII lower-casing, substring
  search and string order.
- `Sorting` is a stable insertion sort that stands for `Array.prototype.sort`.
- `Forms` holds the error-map helpers.
- `LocalList` holds the page-side list updates.

Dates and times are opaque strings passed in as `today` or `now`. Numbers
typed into forms are `NumText` values: empty, a number, or not a number.

## Model

| member | source | states |
|---|---|---|
| Store.NextId | src/services/api/studentService.js:19-21 | a new id is at least 1 and above every id in the table, and it is one more than some id of the table unless it is 1 |
| Store.IndexOf | src/services/api/studentService.js:32 | the position of the first record carrying the id, and none exactly when no record carries it |
| Store.IndexOfAgrees | src/services/api/studentService.js:32 | two tables with the same ids at every position give the same lookup answer |
| Store.Get | src/services/api/studentService.js:11-15 | a record of the table with that id, and none exactly when no record has it |
| Store.GetUnique | src/services/api/studentService.js:11-15 | when ids are distinct, looking up any record's id finds that very record |
| Store.Insert | src/services/api/studentService.js:17-28 | create appends exactly one record with the given data and an id above every existing id, and leaves the earlier records and their order untouched |
| Store.InsertKeepsUnique | src/services/api/studentService.js:19-21 | distinct ids stay distinct after a create |
| Store.InsertThenGet | src/services/api/studentService.js:17-28 | the record create returns is found again by its id |
| Store.Update | src/services/api/studentService.js:30-38 | on a missing id the table is unchanged and the answer is null; on a hit only the first record with the id is replaced by its merge, and the length is kept |
| Store.UpdateKeepsIds | src/services/api/studentService.js:30-38 | update never changes an id, so distinct ids stay distinct |
| Store.Delete | src/services/api/studentService.js:40-48 | on a missing id nothing changes and the answer is null; on a hit exactly the first matching record is spliced out and returned, and the rest keep their order |
| Store.DeleteIsFilter | src/services/api/studentService.js:40-48 | when ids are distinct, deleting an id is the same as filtering out the records with it |
| Store.DeleteThenGet | src/services/api/studentService.js:40-48 | after a delete the id is no longer found, and ids stay distinct |
| StudentService.MergeLaws | src/services/api/studentService.js:34 | a shallow merge applied twice equals once; an empty patch changes nothing; a form's patch sets the status but keeps the enrolment date |
| StudentService.GetById | src/services/api/studentService.js:11-15 | a stored student with the id, or null exactly when none has it |
| StudentService.Create | src/services/api/studentService.js:17-28 | the new student gets a fresh id, the caller's fields, status "Active" and today's enrolment date, and is appended at the end |
| StudentService.CreateThenGet | src/services/api/studentService.js:17-28 | the created student is found by its id, and distinct ids stay distinct |
| StudentService.Update | src/services/api/studentService.js:30-38 | on a miss the table and the answer are unchanged and null; on a hit only the first student with the id takes the patch |
| StudentService.Delete | src/services/api/studentService.js:40-48 | on a miss the answer is null; on a hit only the first student with the id is removed and returned |
| StudentService.DeleteThenGet | src/services/api/studentService.js:40-48 | after a delete the id is not found, and delete equals filtering out the id |
| StudentService.Search | src/services/api/studentService.js:50-57 | exactly the students the search test accepts, each taken from the table; an empty query returns everyone |
| StudentService.SearchHitIffMatches | src/services/api/studentService.js:52-56 | the search test accepts a student exactly when the lower-cased query occurs inside the lower-cased first name, last name or email |
| GradeService.Percentage | src/services/api/gradeService.js:64 | the result times the maximum is 100 times the score, so it is the score as a percentage of the maximum; a score within its positive maximum gives a percentage in [0, 100], and 100 only for a full score |
| GradeService.ByStudent | src/services/api/gradeService.js:17-20 | exactly the grades of the student, each taken from the table |
| GradeService.ByClass | src/services/api/gradeService.js:22-25 | exactly the grades of the class, each taken from the table |
| GradeService.DateOrToday | src/services/api/gradeService.js:33 | a supplied non-empty date is kept, and today's date is used when the date is missing or empty |
| GradeService.Create | src/services/api/gradeService.js:27-37 | the new grade gets a fresh id and the caller's fields, with the date defaulted to today when missing or empty, and is appended |
| GradeService.Update | src/services/api/gradeService.js:39-47 | on a miss the table is unchanged and the answer is null; on a hit only the first grade with the id is merged |
| GradeService.Delete | src/services/api/gradeService.js:49-57 | on a miss the answer is null; on a hit only the first grade with the id is removed and returned |
| GradeService.Percentages | src/services/api/gradeService.js:64 | one percentage per grade, in order, each `score/maxScore*100` of that grade |
| GradeService.Gpa | src/services/api/gradeService.js:59-66 | 0 for a student without grades; otherwise the GPA times the number of the student's grades is the sum of their percentages; within [0, 100] when each of the student's scores is within its maximum |
| GradeService.GpaIgnoresOthers | src/services/api/gradeService.js:61-65 | adding a grade for another student leaves a student's GPA unchanged |
| GradeService.GpaExample | src/services/api/gradeService.js:61-65 | the GPA is the mean of percentages, not total score over total maximum: 8/10 and 18/20 give 85 |
| AttendanceService.ByStudent | src/services/api/attendanceService.js:17-20 | exactly the records of the student, each from the table |
| AttendanceService.ByClass | src/services/api/attendanceService.js:22-25 | exactly the records of the class, each from the table |
| AttendanceService.ByDate | src/services/api/attendanceService.js:27-30 | exactly the records of the day, each from the table |
| AttendanceService.Create | src/services/api/attendanceService.js:32-42 | a fresh id, the caller's fields, the date defaulted to today when missing or empty, appended at the end |
| AttendanceService.Update | src/services/api/attendanceService.js:44-52 | on a miss the table is unchanged and the answer is null; on a hit only the first record with the id is merged |
| AttendanceService.Delete | src/services/api/attendanceService.js:54-62 | on a miss the answer is null; on a hit only the first record with the id is removed and returned |
| AttendanceService.SlotIndex | src/services/api/attendanceService.js:66-70 | the first record for the (student, class, day) slot, and none exactly when no record is in that slot |
| AttendanceService.SlotIndexAgrees | src/services/api/attendanceService.js:66-70 | tables whose records agree on slot membership position by position find the same slot |
| AttendanceService.Mark | src/services/api/attendanceService.js:64-89 | the record returned is in the new table, the table either keeps its length or grows by that one record at the end, and no existing id changes |
| AttendanceService.MarkHit | src/services/api/attendanceService.js:72-75 | when the slot is taken, only that record changes: it keeps its id and slot and takes the new status and notes |
| AttendanceService.MarkMiss | src/services/api/attendanceService.js:76-88 | when the slot is free, one record with a fresh id and the given fields is appended |
| AttendanceService.MarkKeepsUnique | src/services/api/attendanceService.js:64-89 | if each slot occurs at most once before a mark it still does afterwards, and ids stay distinct |
| AttendanceService.MarkIdempotent | src/services/api/attendanceService.js:64-89 | marking twice with the same arguments gives the same table and record as marking once |
| AttendanceService.Share | src/services/api/attendanceService.js:96-97 | the result times the total is 100 times the present count, so it is the present share as a percentage; it lies in [0, 100] and is 100 exactly when all are present |
| AttendanceService.Rate | src/services/api/attendanceService.js:91-98 | 100 for a student without records; otherwise the rate times the student's record count is 100 times the count of their records that say "Present"; always in [0, 100] |
| AttendanceService.RateFullIffAllPresent | src/services/api/attendanceService.js:96-97 | the rate is 100 exactly when every record of the student says "Present" |
| AttendanceService.RateExampleAbsent | src/services/api/attendanceService.js:96-97 | one "Present" and one "Absent" give a rate of 50 |
| AttendanceService.RateExampleLate | src/services/api/attendanceService.js:96-97 | "Late" does not count as present: one "Present" and one "Late" give 50 |
| ClassService.Without | src/services/api/classService.js:63 | the id is gone, and every other id of the list is still there |
| ClassService.WithoutAbsent | src/services/api/classService.js:63 | filtering out an absent id changes nothing, and filtering twice equals filtering once |
| ClassService.WithoutKeepsDistinct | src/services/api/classService.js:63 | filtering keeps a duplicate-free list duplicate-free |
| ClassService.GetById | src/services/api/classService.js:11-15 | a stored class with the id, or null exactly when none has it |
| ClassService.Create | src/services/api/classService.js:17-27 | a fresh id, the caller's fields, and an empty student list when none is supplied; appended at the end |
| ClassService.Update | src/services/api/classService.js:29-37 | on a miss the table is unchanged and the answer is null; on a hit only the first class with the id is merged |
| ClassService.Delete | src/services/api/classService.js:39-47 | on a miss the answer is null; on a hit only the first class with the id is removed |
| ClassService.AddStudent | src/services/api/classService.js:49-57 | null and nothing changes exactly when the class is missing or the student is already enrolled; otherwise the student is appended to that class alone |
| ClassService.RemoveStudent | src/services/api/classService.js:59-67 | null only when the class is missing; otherwise every occurrence of the student leaves that class alone |
| ClassService.AddThenRemove | src/services/api/classService.js:49-67 | removing after adding equals removing alone, and a successful add is undone by a remove |
| ClassService.RosterStaysDistinct | src/services/api/classService.js:49-67 | rosters without duplicates stay so after an add or a remove |
| ClassService.GetAssignments | src/services/api/classService.js:69-73 | the class's assignment list, or empty for an unknown class or a class without one |
| ClassService.Attach | src/services/api/classService.js:79-82 | the id is in the list afterwards, and nothing else is added |
| ClassService.AddAssignment | src/services/api/classService.js:75-86 | null only for a missing class; otherwise that class alone gets the id in its list, which is created when missing |
| ClassService.RemoveAssignment | src/services/api/classService.js:88-96 | null when the class or its list is missing; otherwise that id alone is filtered out of that class |
| ClassService.AssignmentRoundTrip | src/services/api/classService.js:69-96 | an added assignment is listed, adding it twice equals adding it once, and removing it unlists it |
| AssignmentService.GetById | src/services/api/assignmentService.js:11-15 | a stored assignment with the id, or null exactly when none has it |
| AssignmentService.ByClass | src/services/api/assignmentService.js:17-20 | exactly the assignments of the class, each from the table |
| AssignmentService.Create | src/services/api/assignmentService.js:22-32 | a fresh id, the caller's fields, and status "pending" unless one is supplied; appended |
| AssignmentService.Update | src/services/api/assignmentService.js:34-42 | on a miss the table is unchanged and the answer is null; on a hit only the first assignment with the id is merged |
| AssignmentService.Delete | src/services/api/assignmentService.js:44-52 | on a miss the answer is null; on a hit only the first assignment with the id is removed |
| AssignmentService.UpdateDueDate | src/services/api/assignmentService.js:54-62 | null and no change on a miss; otherwise only the due date of that one assignment changes |
| AssignmentService.UpdateDueDateIsUpdate | src/services/api/assignmentService.js:54-62 | moving a due date is an update with a due-date patch, and a second move overrides the first |
| ParentContactService.ContactIndex | src/services/api/parentContactService.js:14 | the first contact of the student, and none exactly when the student has no contact |
| ParentContactService.ContactIndexAgrees | src/services/api/parentContactService.js:14 | tables with the same students at each position find the same contact |
| ParentContactService.GetByStudent | src/services/api/parentContactService.js:6-10 | a stored contact of the student, or null exactly when there is none |
| ParentContactService.UpdateContact | src/services/api/parentContactService.js:12-37 | an existing contact takes the new phone, email and notes in place, keeping its id, log and creation time; otherwise a contact with a fresh id and an empty log is appended |
| ParentContactService.UpdateContactLaws | src/services/api/parentContactService.js:12-37 | one contact per student and distinct ids are preserved, and repeating the same update changes nothing more |
| ParentContactService.GetCommunications | src/services/api/parentContactService.js:101-105 | the student's log, or empty when the student has no contact |
| ParentContactService.AddCommunication | src/services/api/parentContactService.js:39-82 | an existing contact gets the entry first in its log with an id above every id in that log; a student without a contact gets a new blank contact whose only entry has id 1 |
| ParentContactService.AddCommunicationPrepends | src/services/api/parentContactService.js:43-57 | the student's log afterwards is the new entry followed by the old log, and its ids stay distinct |
| ParentContactService.DeleteCommunication | src/services/api/parentContactService.js:84-99 | null and no change exactly when the contact or the entry is missing; otherwise only that entry leaves that contact's log |
| ParentContactService.DeleteCommunicationIsDelete | src/services/api/parentContactService.js:84-99 | deleting from the log behaves as the generic delete on the log, and the entry is gone afterwards |
| ParentContactService.AddThenDeleteCommunication | src/services/api/parentContactService.js:39-99 | deleting the entry just added returns it and restores the student's log |
| GradeBadge.LetterGrade | src/components/molecules/GradeBadge.jsx:21-34 | the letter is the highest one whose cut-off the percentage reaches, and F exactly below 65 |
| GradeBadge.CutoffMonotone | src/components/molecules/GradeBadge.jsx:22-32 | higher letters have strictly higher cut-offs |
| GradeBadge.LetterGradeMonotone | src/components/molecules/GradeBadge.jsx:21-34 | a higher percentage never gives a lower letter |
| GradeBadge.VariantOf | src/components/molecules/GradeBadge.jsx:7-12 | success from 90, primary in [80, 90), error below 70, warning otherwise |
| GradeBadge.VariantMatchesBand | src/components/molecules/GradeBadge.jsx:7-34 | success is exactly the A band, primary the B band, warning the C band, error the D band and F |
| GradeBadge.Badge | src/components/molecules/GradeBadge.jsx:3-12 | the badge is the letter and the variant of the percentage score / maxScore * 100; a full score shows A+ in success colours, below 65% shows F in error colours, and success goes with the A band |
| Forms.BlankIffWhitespace | src/components/organisms/GradeEntryForm.jsx:51 | a field fails the `trim()` test exactly when it is all whitespace |
| Forms.Collect | src/components/organisms/GradeEntryForm.jsx:40-73 | the error map has exactly the fields with a message, each with its message, and is empty exactly when no field has one |
| Forms.Required | src/components/organisms/ParentContactModal.jsx:77-83 | a message exactly for a blank value |
| Forms.ClearOnEdit | src/components/organisms/GradeEntryForm.jsx:94-99 | only the edited field's error is blanked; no key is added or dropped |
| Forms.ClearOnEditIdempotent | src/components/organisms/GradeEntryForm.jsx:94-99 | clearing a field twice equals once, and clearing two fields commutes |
| Forms.HandleChange | src/components/organisms/GradeEntryForm.jsx:88-100 | the form takes the edit, and only the edited field's error is blanked |
| ParentContactModal.Layout | src/components/organisms/ParentContactModal.jsx:142 | ten digits laid out as "(ddd) ddd-dddd", with the three groups in place |
| ParentContactModal.NoDigits | src/components/organisms/ParentContactModal.jsx:139 | stripping non-digits from a text without digits leaves nothing |
| ParentContactModal.LayoutIsPhoneFormat | src/components/organisms/ParentContactModal.jsx:139-142 | the layout of ten digits passes the phone-format check |
| ParentContactModal.DigitsAroundSeparator | src/components/organisms/ParentContactModal.jsx:139 | stripping non-digits ignores a separator without digits |
| ParentContactModal.DigitsOfParts | src/components/organisms/ParentContactModal.jsx:139-142 | stripping non-digits from "(a) b-c" gives back the digits a, b, c |
| ParentContactModal.LayoutDigits | src/components/organisms/ParentContactModal.jsx:139-142 | the digits of the layout are the ten digits laid out |
| ParentContactModal.FormatPhone | src/components/organisms/ParentContactModal.jsx:138-145 | with exactly ten digits the result passes the phone check and keeps those digits; otherwise the input is returned unchanged |
| ParentContactModal.FormatPhoneIdempotent | src/components/organisms/ParentContactModal.jsx:138-145 | formatting twice equals formatting once |
| ParentContactModal.PhoneFormatIsFixed | src/components/organisms/ParentContactModal.jsx:138-145 | a number already in the phone format is left as it is |
| ParentContactModal.EmailFormatIffPattern | src/components/organisms/ParentContactModal.jsx:66 | the scanning e-mail check accepts exactly the strings the pattern matches: one '@' between non-empty parts without spaces or '@', and a '.' inside the domain |
| ParentContactModal.EmailFormatMatches | src/components/organisms/ParentContactModal.jsx:66 | every address the scanning check accepts has a split that the pattern matches |
| ParentContactModal.SplitPassesScan | src/components/organisms/ParentContactModal.jsx:66 | every split the pattern matches is accepted by the scanning check |
| ParentContactModal.ValidateContact | src/components/organisms/ParentContactModal.jsx:55-72 | only phone and email can fail; phone fails exactly when it is not in the phone format, email exactly when it fails the e-mail check |
| ParentContactModal.ValidateContactPasses | src/components/organisms/ParentContactModal.jsx:55-72 | email fails exactly when the pattern does not match, and the form passes exactly when both fields match their patterns |
| ParentContactModal.ValidatePhoneMessage | src/components/organisms/ParentContactModal.jsx:58-62 | a blank phone reads "required", any other failing phone reads the format message |
| ParentContactModal.ValidateEmailMessage | src/components/organisms/ParentContactModal.jsx:64-68 | a blank email reads "required", any other failing email reads "Please enter a valid email address" |
| ParentContactModal.BlankIsNotFormatted | src/components/organisms/ParentContactModal.jsx:58-68 | a blank phone or email never passes its format check, so the format test alone decides the error |
| ParentContactModal.ValidateCommunication | src/components/organisms/ParentContactModal.jsx:74-87 | only subject and notes are checked, each fails exactly when blank, and the form passes exactly when both are filled |
| ParentContactModal.FirstAddShownAsWritten | src/components/organisms/ParentContactModal.jsx:39-109 | the dialog's list after its first logged communication, with the loaded list being the contact's own log: the entry is on top, and the list is two longer than the old log for a student with a contact and equal to the service's log for one without |
| ParentContactModal.FirstAddShowsEntryTwice | src/services/api/parentContactService.js:6-57 | for a student with a contact, the first logged entry shows at positions 0 and 1, so the dialog's list differs from the service's log and its ids are not distinct |
| ParentContactModal.LocalAddTracksService | src/components/organisms/ParentContactModal.jsx:109 | for a dialog that keeps its own copy of the loaded log, prepending the added entry gives the service's log |
| ParentContactModal.LocalDeleteTracksService | src/components/organisms/ParentContactModal.jsx:131 | filtering the deleted entry out of the shown log gives the service's log |
| GradeEntryForm.Validate | src/components/organisms/GradeEntryForm.jsx:40-73 | each field fails exactly on its own condition, with its own message; a score above the maximum overrides the other score messages; the form passes exactly when it is acceptable |
| GradeEntryForm.Submit | src/components/organisms/GradeEntryForm.jsx:75-86 | a grade is sent exactly when validation passes, with the parsed ids and numbers, and its score lies in [0, maxScore] with a percentage in [0, 100] |
| GradeEntryForm.FromGrade | src/components/organisms/GradeEntryForm.jsx:27-38 | editing a grade fills the form with its ids, assignment name and numbers; its category is kept, and an empty one becomes "Assignment" |
| GradeEntryForm.EditRoundTrip | src/components/organisms/GradeEntryForm.jsx:27-86 | a valid grade opened for editing and submitted unchanged gives back its own fields |
| GradeEntryForm.InitialRejected | src/components/organisms/GradeEntryForm.jsx:16-73 | the empty form fails on student, class, name and score but not on the preset maximum |
| GradeEntryForm.HandleChange | src/components/organisms/GradeEntryForm.jsx:88-100 | the edited field takes the new value, and only its error is blanked |
| AssignmentForm.InitialForm | src/components/organisms/AssignmentForm.jsx:30-37 | a new form is blank, with the due date set to the clicked day or empty |
| AssignmentForm.FromAssignment | src/components/organisms/AssignmentForm.jsx:21-29 | editing fills the form from the assignment, with class 0 and points 0 read as empty |
| AssignmentForm.Validate | src/components/organisms/AssignmentForm.jsx:41-66 | each field fails exactly on its own condition, with its message; points fail when empty or negative but not at 0; the form passes exactly when no field fails |
| AssignmentForm.ZeroPoints | src/components/organisms/AssignmentForm.jsx:28-62 | 0 typed in is accepted, but a stored 0 reopens as an empty field and is rejected |
| AssignmentForm.EditValid | src/components/organisms/AssignmentForm.jsx:21-66 | a complete assignment opened for editing passes validation |
| AssignmentForm.InitialRejected | src/components/organisms/AssignmentForm.jsx:30-66 | a new form fails on title and points, and on the due date exactly when no day was clicked |
| StudentForm.FromStudent | src/components/organisms/StudentForm.jsx:20-31 | editing fills the form from the student, with grade 9 and "Active" as fallbacks |
| StudentForm.LooseEmailIffPattern | src/components/organisms/StudentForm.jsx:46 | the scanning check accepts exactly the strings holding, somewhere, non-space text, '@', non-space text, '.', non-space text |
| StudentForm.DoubledAtPassesLoose | src/components/organisms/StudentForm.jsx:46 | the student form accepts "a@@b.c", which the parent-contact dialog rejects |
| StudentForm.SurroundedPassesLoose | src/components/organisms/StudentForm.jsx:46 | the student form accepts an address with text around it, which the parent-contact dialog rejects |
| StudentForm.Validate | src/components/organisms/StudentForm.jsx:33-56 | names and phone fail exactly when blank, email exactly when the loose pattern does not match, each with its message; the form passes exactly when none fails |
| StudentForm.EmailCheck | src/components/organisms/StudentForm.jsx:44-48 | an error exactly when the loose pattern does not match, reading "required" for a blank email |
| StudentForm.BlankFailsLoose | src/components/organisms/StudentForm.jsx:44-48 | a blank email never matches the loose pattern |
| StudentForm.UncheckedFields | src/components/organisms/StudentForm.jsx:33-56 | grade level and status never affect validation |
| StudentForm.Submit | src/components/organisms/StudentForm.jsx:58-63 | the form is handed on exactly when validation passes, unchanged |
| StudentForm.EditRoundTrip | src/components/organisms/StudentForm.jsx:20-63 | a valid student opened and submitted unchanged merges back to itself |
| StudentForm.CreateDropsStatus | src/components/pages/Students.jsx:69 | a new student is stored as "Active" whatever status the form held |
| StudentForm.HandleChange | src/components/organisms/StudentForm.jsx:65-79 | the edited field takes the new value, the grade as an integer, and only its error is blanked |
| ClassesPage.FromClass | src/components/pages/Classes.jsx:53-61 | editing fills the form with the class's fields and roster |
| ClassesPage.EditRoundTrip | src/components/pages/Classes.jsx:53-61 | saving an unchanged form changes nothing, the class's assignments survive a save, and the saved class reopens as the form |
| ClassesPage.Validate | src/components/pages/Classes.jsx:103-124 | name, subject, period and room each fail exactly when blank, and the form passes exactly when none does |
| ClassesPage.ValidateMessages | src/components/pages/Classes.jsx:106-120 | each failing field carries its own message |
| ClassesPage.Toggle | src/components/pages/Classes.jsx:174-181 | the id is in the list afterwards exactly when it was not before, other ids are unaffected, and an absent id is appended |
| ClassesPage.ToggleTwice | src/components/pages/Classes.jsx:174-181 | toggling an absent id twice restores the list exactly |
| ClassesPage.ToggleKeepsDistinct | src/components/pages/Classes.jsx:174-181 | toggling keeps a duplicate-free roster duplicate-free |
| ClassesPage.Save | src/components/pages/Classes.jsx:126-152 | an invalid form changes nothing; an edit replaces that class in place in the table, keeping its assignments, and replaces the entry with that id in the page's list by the updated record; a create adds the new class to the table and in front of the page's list |
| ClassesPage.SaveIsServiceCall | src/components/pages/Classes.jsx:134-141 | the table afterwards is the class service's update or create |
| ClassesPage.SaveMirrors | src/components/pages/Classes.jsx:134-141 | after a save the page's list still holds the same records as the table |
| ClassesPage.Remove | src/components/pages/Classes.jsx:90-101 | without confirmation nothing changes; with it the table is the service's delete and the page's list is filtered on the id, keeping every other entry in order; the two stay in step |
| ClassesPage.HandleChange | src/components/pages/Classes.jsx:160-172 | the edited field takes the new value, the roster is kept, and only that field's error is blanked |
| GradesPage.Filtered | src/components/pages/Grades.jsx:53-57 | exactly the grades matching each filter that is set; with no filter, the grade list itself |
| GradesPage.FilteredIsServiceQuery | src/components/pages/Grades.jsx:53-57 | one filter is the grade service's query by class or by student, and both filters compose them |
| GradesPage.StudentName | src/components/pages/Grades.jsx:111-114 | the first matching student's full name, or "Unknown Student" |
| GradesPage.StudentNameAgrees | src/components/pages/Grades.jsx:111-114 | the name shown is that of the student the student service returns for the id |
| GradesPage.ClassName | src/components/pages/Grades.jsx:116-119 | the first matching class's name, or "Unknown Class" |
| GradesPage.ClassNameAgrees | src/components/pages/Grades.jsx:116-119 | the name shown is that of the class the class service returns for the id |
| GradesPage.Save | src/components/pages/Grades.jsx:82-104 | a create adds the grade to the table and in front of the page's list; an edit updates that grade in place from every form field, keeping its stored date, and replaces the entry with that id in the page's list by the updated record |
| GradesPage.SaveMirrors | src/components/pages/Grades.jsx:86-93 | after a save the page's list still holds the same records as the table |
| GradesPage.Remove | src/components/pages/Grades.jsx:69-80 | without confirmation nothing changes; with it the table is the service's delete and the page's list is filtered on the id, keeping every other entry in order; the two stay in step |
| LocalList.RemoveById | src/components/pages/Grades.jsx:73 | the list without the id, every other entry kept |
| LocalList.ReplaceById | src/components/pages/Grades.jsx:88 | entries with the id are replaced, all others stay in place |
| LocalList.MirrorUnique | src/components/pages/Grades.jsx:73-92 | a copy of a table with distinct ids has distinct ids |
| LocalList.PrependMirrorsCreate | src/components/pages/Grades.jsx:91-92 | prepending the created record keeps the page's copy in step with the table |
| LocalList.RemoveMirrorsDelete | src/components/pages/Grades.jsx:72-73 | filtering out the deleted id keeps the page's copy in step with the table |
| LocalList.ReplaceMirrorsUpdate | src/components/pages/Grades.jsx:87-88 | replacing the updated record by id keeps the page's copy in step with the table |
| LocalList.Save | src/components/pages/Students.jsx:60-72 | an edit updates the table and replaces that record in the list; a create appends to the table and prepends to the list |
| LocalList.SaveMirrors | src/components/pages/Students.jsx:64-72 | a save keeps the page's copy in step with the table, with distinct ids |
| LocalList.Remove | src/components/pages/Grades.jsx:72-73 | the list is filtered on the id and the table is the generic delete of the id; the id then leaves both, and they stay in step |
| AttendancePage.MarkLocal | src/components/pages/Attendance.jsx:39-66 | the service marks once; a record already in the slot is replaced at its index, otherwise the result is put first |
| AttendancePage.SlotRecordShared | src/components/pages/Attendance.jsx:51-55 | when the page's list is a copy of the table, both find the same record for the slot, or both find none |
| AttendancePage.MarkMirrors | src/components/pages/Attendance.jsx:39-66 | marking keeps the page's list a copy of the table, with ids and slots unique |
| AttendanceGrid.Shown | src/components/organisms/AttendanceGrid.jsx:25-30 | nobody without a chosen class; otherwise exactly the students of the list on that class's roster, and nobody when the class does not exist |
| AttendanceGrid.Status | src/components/organisms/AttendanceGrid.jsx:32-39 | the status of the first record in the slot, or "Not Marked" |
| AttendanceGrid.Click | src/components/organisms/AttendanceGrid.jsx:41-45 | nothing happens without a chosen class; otherwise the page marks the slot |
| AttendanceGrid.ClickShows | src/components/organisms/AttendanceGrid.jsx:32-45 | after a click the grid shows the chosen status, from the page's list and from the table |
| AttendanceGrid.Tally | src/components/organisms/AttendanceGrid.jsx:154-160 | a tally never exceeds the students shown; it equals their number exactly when every shown student has the status, and is 0 exactly when none has it |
| AttendanceGrid.ShownInOrder | src/components/organisms/AttendanceGrid.jsx:25-30 | the students shown are those at the roster positions of the student list, in increasing position order |
| AttendanceGrid.TalliesBounded | src/components/organisms/AttendanceGrid.jsx:154-161 | present, late and absent together never exceed the students shown |
| StudentTable.Filtered | src/components/organisms/StudentTable.jsx:24-27 | exactly the students whose full name or email holds the query, ignoring case; an empty query keeps the list itself |
| StudentTable.ServiceHitShows | src/components/organisms/StudentTable.jsx:24-27 | every student the service's search finds is also shown by the table's search |
| StudentTable.QueryAcrossNames | src/components/organisms/StudentTable.jsx:25 | a query spanning the space between the names is found by the table but not by the service |
| StudentTable.NoSpaceNoMatch | src/components/organisms/StudentTable.jsx:25 | a query with a space never matches a text without one |
| StudentTable.GreaterIsStrictWeakOrder | src/components/organisms/StudentTable.jsx:29-38 | the comparison on either column is asymmetric and transitive in the strict-weak-order sense |
| StudentTable.BeforeIsOrder | src/components/organisms/StudentTable.jsx:29-38 | each of the four table orders is total and transitive |
| StudentTable.View | src/components/organisms/StudentTable.jsx:24-38 | a permutation of the filtered students, ordered by the chosen column in the chosen direction |
| StudentTable.ViewStable | src/components/organisms/StudentTable.jsx:29-38 | sorting the shown table again changes nothing |
| StudentTable.HandleSort | src/components/organisms/StudentTable.jsx:40-47 | the clicked column becomes the sort column, ascending unless it was already the ascending sort column |
| StudentTable.HandleSortTwice | src/components/organisms/StudentTable.jsx:40-47 | two clicks on the sorted column restore the sort; another column and back gives ascending |
| AssignmentCalendar.ForDate | src/components/organisms/AssignmentCalendar.jsx:53-56 | exactly the assignments due on the day |
| AssignmentCalendar.DragStart | src/components/organisms/AssignmentCalendar.jsx:66-71 | the active id is recorded, with an assignment of that id from the list, or none exactly when the list has none |
| AssignmentCalendar.MoveLocal | src/components/organisms/AssignmentCalendar.jsx:88-94 | only the assignments with the id take the new due date |
| AssignmentCalendar.DragEnd | src/components/organisms/AssignmentCalendar.jsx:73-104 | a drop outside changes nothing and clears the drag; a drop on the current day makes no call; a drop elsewhere moves only that assignment, in the table and in the list; every completed drop clears the drag |
| AssignmentCalendar.MoveMirrors | src/components/organisms/AssignmentCalendar.jsx:87-94 | moving keeps the page's list a copy of the table |
| AssignmentCalendar.DropMovesCard | src/components/organisms/AssignmentCalendar.jsx:85-94 | after a drop the moved card shows only on the new day, and every other card on the same days as before |
| AssignmentCalendar.DragEndMirrors | src/components/organisms/AssignmentCalendar.jsx:73-104 | every drag end leaves the page's list a copy of the table |
| AssignmentCalendar.AddOn | src/components/organisms/AssignmentCalendar.jsx:106-110 | the form opens empty for the clicked day |
| AssignmentCalendar.EditOf | src/components/organisms/AssignmentCalendar.jsx:112-115 | the form opens on the assignment, and the clicked day is kept |
| AssignmentCalendar.FormSuccess | src/components/organisms/AssignmentCalendar.jsx:130-141 | an edit replaces by id, a create prepends, and the form closes |
| AssignmentCalendar.FormSuccessMirrors | src/components/organisms/AssignmentCalendar.jsx:130-141 | with the record from the service, the page's list stays a copy of the table |
| AssignmentCalendar.Remove | src/components/organisms/AssignmentCalendar.jsx:117-128 | without confirmation nothing changes; with it the table is the service's delete and the list is filtered on the id, keeping every other entry in order; the two stay in step |
| DashboardStats.Gpas | src/components/organisms/DashboardStats.jsx:33-35 | one GPA per student, in order, each the grade service's GPA |
| DashboardStats.AverageGpa | src/components/organisms/DashboardStats.jsx:36-38 | 0 without students; otherwise the average times the number of students is the sum of their GPAs; within [0, 100] when every grade is within its maximum |
| DashboardStats.AverageOfEqual | src/components/organisms/DashboardStats.jsx:36-38 | when all students share one GPA, that is the average |
| DashboardStats.OverallRate | src/components/organisms/DashboardStats.jsx:41-44 | 100 without records; otherwise the rate times the record count is 100 times the count of records that say "Present"; within [0, 100], and 100 exactly when every record says "Present" |
| DashboardStats.OverallIsStudentRate | src/components/organisms/DashboardStats.jsx:41-44 | for one student's records it equals the attendance service's rate |
| DashboardStats.Load | src/components/organisms/DashboardStats.jsx:46-51 | the totals are the list lengths, the GPA card is the average GPA and the attendance card is the overall rate, and both keep their bounds |
| Dashboard.TodayAttendance | src/components/pages/Dashboard.jsx:32-33 | exactly today's records |
| Dashboard.TodayIsByDate | src/components/pages/Dashboard.jsx:33 | today's records are the attendance service's query by date |
| Dashboard.NewerFirstIsOrder | src/components/pages/Dashboard.jsx:36 | "no older than" is total and transitive on dates |
| Dashboard.ByRecency | src/components/pages/Dashboard.jsx:36 | a permutation of the grades, newest date first |
| Dashboard.RecentGrades | src/components/pages/Dashboard.jsx:36-37 | at most five grades, all five when there are that many, taken from the list and newest first |
| Dashboard.RecentAreNewest | src/components/pages/Dashboard.jsx:36-37 | no grade left out is newer than any grade taken |
| Dashboard.StudentLabel | src/components/pages/Dashboard.jsx:41-45 | the full name of the student the student service returns, or "undefined undefined" |
| Dashboard.Activities | src/components/pages/Dashboard.jsx:39-63 | at most eight entries: today's attendance first, then the recent grades, each in order |
| Dashboard.MarkedBeforeGraded | src/components/pages/Dashboard.jsx:39-63 | no attendance entry comes after a grade entry |
| Dashboard.Load | src/components/pages/Dashboard.jsx:31-70 | the feed is the activities built from today's records and the recent grades; the counts are today's records, at most five grades and the constant 3, and the feed is no longer than eight |
| Seqs.FilterIsSelection | src/components/pages/Grades.jsx:53-57 | every filter result picks entries of its input at strictly increasing positions, so the filters above keep the input's order |
| Seqs.Mean | src/components/organisms/DashboardStats.jsx:36-38 | the mean of a non-empty list times its length is the list's sum, and an empty list has mean 0 |
| Sorting.Sort | src/components/organisms/StudentTable.jsx:29 | a permutation of the input, in order whenever the order is total and transitive |
| Sorting.SortKeepsSorted | src/components/organisms/StudentTable.jsx:29 | a list already in order is left as it is |

## Left out

- Time and I/O. Each service waits on `setTimeout` and resolves a
  promise. The model treats every call as an immediate, synchronous
  update of an explicit table. The fixture JSON loaded at start-up is not
  modelled: tables are parameters.
- Failures and toasts. A page's `try`/`catch` and its toasts are left
  out. The model follows the path on which the service call succeeds.
- Clocks. `new Date()`, `toISOString` and `toLocaleDateString` are
  replaced by `today` and `now` parameters. Where the source reads the
  clock several times in one call, the model uses one value.
- Rounding and formatting:
  - `toFixed` is not modelled: GPA, percentages and rates are exact reals;
  - message text with `toLowerCase` of a status, and the feed's
    formatted percentage, are not modelled;
  - the feed keeps score and maximum instead.
- Number parsing. `parseInt`, `parseFloat`, `isNaN` and `Number()` become
  the `NumText` datatype (empty, number, not a number). The model assumes
  that `isNaN` and `parseFloat` agree on every input. Text such as "12abc"
  is where they differ.
- Id coercion. Ids are numbers throughout; the `parseInt(id)` of a lookup
  is the identity.
- Case and collation. `toLowerCase` is modelled on ASCII letters only.
  String order is the order of character codes.
- Ties in sorts. Sorting is a stable insertion sort, so the model fixes an
  order for equal keys that the source leaves open: the student table's
  comparator never returns 0, and `Array.prototype.sort` makes no promise.
- Confirmation dialogs. `window.confirm` becomes a `confirmed` parameter.
- Calendar widgets. Drag sensors, the month grid and month navigation are
  left out. The drag handlers take the dragged id and the day dropped on,
  if any.
- Other screens and views: charts, the student overview, the search
  bar's debounce, and the presentational components are not modelled.
- Mutable sharing. A service can hand out its own record: `search` and
  `addStudentToClass` return or change arrays that callers can still hold.
  The model keeps values immutable. The one place where the sharing
  changes what a page shows is the parent-contact dialog's log, which is
  modelled as written and listed under "## Findings".
- Caller-supplied ids in `create`. A field named `Id` in the data would
  override the new id, because the spread comes after it. The input
  datatypes of the model have no `Id` field.
- Edits of records that are gone. When an update misses, a page writes
  `null` into its list. `LocalList.Save`, `ClassesPage.Save`,
  `GradesPage.Save` and `AssignmentCalendar.FormSuccessMirrors` require
  the edited id to be in the table.
- AssignmentForm submit. The form's submit handler, with its conversion
  of fields and its calls to the assignment service, is not modelled. The
  form's initial state and `validateForm` are modelled.
- GradeService.Gpa: requires every grade of the student to have a
  non-zero maximum, because division by zero gives `Infinity` or `NaN` in
  the source.
- GradeService.Percentage: requires a non-zero maximum, for the same
  reason.
- GradeBadge.Badge: requires a non-zero maximum, for the same reason.
- DashboardStats.AverageGpa: requires every listed student's GPA to be
  defined, as `GradeService.Gpa` does.
- DashboardStats.Load: the same requirement as `DashboardStats.AverageGpa`.
- Dashboard.RecentAreNewest: states "left out" as `!in` the taken grades.
  With two equal records in the list, one copy can be taken and one left,
  and the lemma then says nothing about the copy left out.
- Dashboard.ByRecency: the source compares `new Date(...)` values. The
  model compares the `yyyy-MM-dd` keys as strings, which give the same
  order for well-formed dates.
- StudentForm.HandleChange: the grade level arrives already parsed. A
  non-numeric entry, which `parseInt` turns into `NaN`, is not modelled.

## Observations

These are behaviours of the code as written that a reader may not expect.
Each is proved as a lemma.

- The GPA is the mean of the per-grade percentages. It is not total score
  over total maximum: 8/10 and 18/20 give 85, not 86.67
  (`GradeService.GpaExample`).
- The student form lets the user choose a status, but `create` always
  stores "Active" (`StudentForm.CreateDropsStatus`).
- An assignment stored with 0 points reopens with an empty points field,
  and that field is then rejected (`AssignmentForm.ZeroPoints`).
- The student form's e-mail check is looser than the parent-contact
  dialog's, and accepts "a@@b.c" (`StudentForm.DoubledAtPassesLoose`).
- The student table searches the joined "first last" name. It therefore
  finds queries that run across the space, which the service's search
  does not (`StudentTable.QueryAcrossNames`).

## Findings

| source | as written | input that shows it | evidently intended | confidence | as-written member | corrected member |
|---|---|---|---|---|---|---|
| src/components/organisms/ParentContactModal.jsx:46-109 | `getByStudentId` copies the contact but not its `communications` array (parentContactService.js:9). The dialog keeps that array as its list, `addCommunication` unshifts the new entry into it (parentContactService.js:54), and the dialog then prepends the returned entry again | a student whose contact has log `old`; open the dialog and log one communication `c`: the dialog shows `[c, c] + old` while the service holds `[c] + old` | the dialog shows the service's log, `[c] + old`, for example by copying the array when it loads it | high; not executed | ParentContactModal.FirstAddShowsEntryTwice | ParentContactModal.LocalAddTracksService |

=== FILE: assignment_calendar.dfy ===
/** The assignment calendar: the assignments shown on each day, moving an
    assignment to another day by drag and drop, the add/edit form panel,
    and deleting. The page keeps its own list of assignments and patches
    it after each call to the assignment service. */
module AssignmentCalendar {
  import opened Wrappers
  import Seqs
  import opened Store
  import AssignmentService
  import LocalList

  type AssignmentRow = Row<AssignmentService.Assignment>

  /** `getAssignmentsForDate`: the assignments due on the day's
      `yyyy-MM-dd` key, in list order. */
  function ForDate(local: seq<AssignmentRow>, day: string): (r: seq<AssignmentRow>)
    ensures forall x :: x in r <==> x in local && x.data.dueDate == day
    ensures |r| <= |local|
  {
    var p := (a: AssignmentRow) => a.data.dueDate == day;
    Seqs.FilterFullIff(local, p);
    Seqs.Filter(local, p)
  }

  /** The drag in progress: the dragged card's id and the assignment found
      for it. */
  datatype DragState = DragState(activeId: Option<int>, dragged: Option<AssignmentRow>)

  const NoDrag := DragState(None, None)

  /** `handleDragStart`: remember the card's id and the first assignment in
      the list with that id (none if it has gone). */
  function DragStart(local: seq<AssignmentRow>, activeId: int): (r: DragState)
    ensures r.activeId == Some(activeId)
    ensures r.dragged.Some? ==> r.dragged.value in local && r.dragged.value.Id == activeId
    ensures r.dragged.None? <==> forall i :: 0 <= i < |local| ==> local[i].Id != activeId
  {
    DragState(Some(activeId), Seqs.Find(local, (a: AssignmentRow) => a.Id == activeId))
  }

  /** The page's own move: every assignment in the list with the id gets
      the new due date, everything else stays. */
  function MoveLocal(local: seq<AssignmentRow>, id: int, dueDate: string): (r: seq<AssignmentRow>)
    ensures |r| == |local|
    ensures forall i :: 0 <= i < |local| ==>
              r[i] == if local[i].Id == id then Row(id, local[i].data.(dueDate := dueDate)) else local[i]
  {
    seq(|local|, i requires 0 <= i < |local| =>
      if local[i].Id == id then Row(id, local[i].data.(dueDate := dueDate)) else local[i])
  }

  /** `handleDragEnd` for the card `activeId` dropped over the day `over`
      (none when dropped outside the calendar). Outside: nothing moves and
      the drag is cleared. With no dragged assignment on record, reading
      its due date throws before anything happens, so nothing changes,
      not even the drag state. Dropped on the day it is already due: no
      service call, the drag is cleared. Otherwise the service moves the
      due date, the page moves it in its list, and the drag is cleared.
      The result is the page's list, the assignment table and the drag
      state afterwards. */
  function DragEnd(local: seq<AssignmentRow>, s: seq<AssignmentRow>, drag: DragState, activeId: int,
                   over: Option<string>): (r: (seq<AssignmentRow>, seq<AssignmentRow>, DragState))
    ensures over.None? ==> r == (local, s, NoDrag)
    ensures over.Some? && drag.dragged.None? ==> r == (local, s, drag)
    ensures over.Some? && drag.dragged.Some? ==> r.2 == NoDrag
    ensures over.Some? && drag.dragged.Some? && drag.dragged.value.data.dueDate == over.value ==>
              r.0 == local && r.1 == s
    ensures over.Some? && drag.dragged.Some? && drag.dragged.value.data.dueDate != over.value ==>
              && r.1 == AssignmentService.UpdateDueDate(s, activeId, over.value).0
              && |r.0| == |local|
              && forall i :: 0 <= i < |local| ==>
                   && r.0[i].Id == local[i].Id
                   && r.0[i].data == (if local[i].Id == activeId then local[i].data.(dueDate := over.value) else local[i].data)
  {
    match over
    case None => (local, s, NoDrag)
    case Some(day) =>
      match drag.dragged
      case None => (local, s, drag)
      case Some(a) =>
        if a.data.dueDate == day then (local, s, NoDrag)
        else (MoveLocal(local, activeId, day), AssignmentService.UpdateDueDate(s, activeId, day).0, NoDrag)
  }

  /** Moving an assignment keeps the page's list a copy of the assignment
      table: the service moves the one record with the id, and the list
      holds that same record. */
  lemma MoveMirrors(local: seq<AssignmentRow>, s: seq<AssignmentRow>, id: int, day: string)
    requires LocalList.Mirrors(local, s) && UniqueIds(s)
    ensures LocalList.Mirrors(MoveLocal(local, id, day), AssignmentService.UpdateDueDate(s, id, day).0)
    ensures UniqueIds(AssignmentService.UpdateDueDate(s, id, day).0)
  {
    var (t, res) := AssignmentService.UpdateDueDate(s, id, day);
    var l' := MoveLocal(local, id, day);
    LocalList.MirrorUnique(local, s);
    match IndexOf(s, id)
    case None =>
      forall i | 0 <= i < |local| ensures local[i].Id != id {
        assert local[i] in multiset(s);
      }
      assert l' == local;
    case Some(k) =>
      assert s[k] in multiset(local);
      var j :| 0 <= j < |local| && local[j] == s[k];
      var row := Row(id, s[k].data.(dueDate := day));
      assert t == s[k := row];
      assert l' == local[j := row];
      assert multiset(local[j := row]) == multiset(local) - multiset{local[j]} + multiset{row};
      assert multiset(s[k := row]) == multiset(s) - multiset{s[k]} + multiset{row};
      forall a, b | 0 <= a < b < |t| ensures t[a].Id != t[b].Id {
        assert t[a].Id == s[a].Id && t[b].Id == s[b].Id;
      }
  }

  /** After a drop on another day, every card of the moved assignment
      shows on that day and on no other, and every other assignment shows
      on the same days as before. */
  lemma DropMovesCard(local: seq<AssignmentRow>, id: int, day: string)
    ensures var l' := MoveLocal(local, id, day);
            && (forall x, d :: x in ForDate(l', d) && x.Id == id ==> d == day)
            && (forall i :: 0 <= i < |local| && local[i].Id == id ==> l'[i] in ForDate(l', day))
            && (forall x: AssignmentRow, d :: x.Id != id ==> (x in ForDate(l', d) <==> x in ForDate(local, d)))
  {
    var l' := MoveLocal(local, id, day);
    forall x: AssignmentRow, d | x.Id != id ensures x in ForDate(l', d) <==> x in ForDate(local, d) {
      if x in l' {
        var i :| 0 <= i < |l'| && l'[i] == x;
        assert local[i] == x;
      }
      if x in local {
        var i :| 0 <= i < |local| && local[i] == x;
        assert l'[i] == x;
      }
    }
    forall x, d | x in ForDate(l', d) && x.Id == id ensures d == day {
      var i :| 0 <= i < |l'| && l'[i] == x;
    }
  }

  /** The form panel: whether it is open, the assignment being edited, and
      the day that was clicked to add one. */
  datatype Panel = Panel(showForm: bool, editing: Option<AssignmentRow>, selectedDate: Option<string>)

  const Closed := Panel(false, None, None)

  /** `handleAddAssignment`: open the form for a new assignment on the day. */
  function AddOn(p: Panel, day: string): (r: Panel)
    ensures r.showForm && r.editing.None? && r.selectedDate == Some(day)
  {
    Panel(true, None, Some(day))
  }

  /** `handleEditAssignment`: open the form on the assignment; the clicked
      day is left as it was. */
  function EditOf(p: Panel, a: AssignmentRow): (r: Panel)
    ensures r.showForm && r.editing == Some(a) && r.selectedDate == p.selectedDate
  {
    p.(showForm := true, editing := Some(a))
  }

  /** `handleFormSuccess` with the assignment the form saved: replace it by
      id when editing, put it first when creating; then close the form. */
  function FormSuccess(local: seq<AssignmentRow>, p: Panel, saved: AssignmentRow): (r: (seq<AssignmentRow>, Panel))
    ensures r.1 == Closed
    ensures p.editing.None? ==> r.0 == [saved] + local
    ensures p.editing.Some? ==>
              && |r.0| == |local|
              && forall i :: 0 <= i < |local| ==> r.0[i] == if local[i].Id == saved.Id then saved else local[i]
  {
    if p.editing.Some? then (LocalList.ReplaceById(local, saved.Id, saved), Closed)
    else ([saved] + local, Closed)
  }

  /** With the record the form got back from the service, the page's list
      stays a copy of the assignment table: after `update` when editing,
      after `create` otherwise. */
  lemma FormSuccessMirrors(local: seq<AssignmentRow>, s: seq<AssignmentRow>, p: Panel,
                           patch: AssignmentService.AssignmentPatch, input: AssignmentService.AssignmentInput)
    requires LocalList.Mirrors(local, s) && UniqueIds(s)
    requires p.editing.Some? ==> IndexOf(s, p.editing.value.Id).Some?
    ensures p.editing.Some? ==>
              var (t, saved) := AssignmentService.Update(s, p.editing.value.Id, patch);
              LocalList.Mirrors(FormSuccess(local, p, saved.value).0, t)
    ensures p.editing.None? ==>
              var (t, saved) := AssignmentService.Create(s, input);
              LocalList.Mirrors(FormSuccess(local, p, saved).0, t)
  {
    if p.editing.Some? {
      var id := p.editing.value.Id;
      LocalList.ReplaceMirrorsUpdate(local, s, id, (a: AssignmentService.Assignment) => AssignmentService.Merge(a, patch));
    }
  }

  /** `handleDeleteAssignment`: when the user confirms, the assignment is
      deleted from the table and filtered out of the page's list. */
  function Remove(local: seq<AssignmentRow>, s: seq<AssignmentRow>, id: int, confirmed: bool)
    : (r: (seq<AssignmentRow>, seq<AssignmentRow>))
    ensures !confirmed ==> r == (local, s)
    ensures confirmed ==> r.1 == AssignmentService.Delete(s, id).0
    ensures confirmed ==> r.0 == LocalList.RemoveById(local, id)
    ensures confirmed ==> forall i :: 0 <= i < |r.0| ==> r.0[i].Id != id
    ensures UniqueIds(s) ==> LocalList.Mirrors(local, s) ==> LocalList.Mirrors(r.0, r.1)
  {
    if !confirmed then (local, s) else LocalList.Remove(local, s, id)
  }

  /** A drag that ends, whatever the outcome, leaves the page's list a copy
      of the assignment table. */
  lemma DragEndMirrors(local: seq<AssignmentRow>, s: seq<AssignmentRow>, drag: DragState, activeId: int,
                       over: Option<string>)
    requires LocalList.Mirrors(local, s) && UniqueIds(s)
    ensures var r := DragEnd(local, s, drag, activeId, over);
            LocalList.Mirrors(r.0, r.1) && UniqueIds(r.1)
  {
    if over.Some? && drag.dragged.Some? && drag.dragged.value.data.dueDate != over.value {
      MoveMirrors(local, s, activeId, over.value);
    }
  }
}

=== FILE: assignment_form.dfy ===
/** The assignment form: its initial state, the state filled in from an
    assignment being edited, and the validator. */
module AssignmentForm {
  import opened Wrappers
  import Text
  import opened Forms
  import AssignmentService

  /** The form state: the class select holds an id or nothing, points is a
      number input. */
  datatype AssignmentFormData = AssignmentFormData(
    title: string,
    description: string,
    dueDate: string,
    classId: Option<int>,
    points: NumText)

  /** A new assignment's form: empty but for the day that was clicked on
      the calendar, if any (`initialDate || ""`). */
  function InitialForm(initialDate: Option<string>): (r: AssignmentFormData)
    ensures r.title == "" && r.description == "" && r.classId.None? && r.points.Empty?
    ensures r.dueDate == if initialDate.Some? then initialDate.value else ""
  {
    AssignmentFormData("", "", initialDate.GetOr(""), None, Empty)
  }

  /** The form for an assignment being edited. `x || ""` turns a class id
      of 0 into no selection and 0 points into an empty field. */
  function FromAssignment(a: AssignmentService.Assignment): (r: AssignmentFormData)
    ensures r.title == a.title && r.description == a.description && r.dueDate == a.dueDate
    ensures r.classId == if a.classId == 0 then None else Some(a.classId)
    ensures r.points == if a.points == 0 then Empty else Num(a.points as real)
  {
    AssignmentFormData(a.title, a.description, a.dueDate,
                       if a.classId == 0 then None else Some(a.classId),
                       if a.points == 0 then Empty else Num(a.points as real))
  }

  /** `!points || points < 0`: empty, or a number below zero. Text that is
      not a number compares false and passes. */
  predicate BadPoints(p: NumText)
  {
    p.Empty? || (p.Num? && p.value < 0.0)
  }

  const Checked := {"title", "description", "dueDate", "classId", "points"}

  /** The message `validateForm` leaves for each field. */
  function Message(f: AssignmentFormData, field: string): Option<string>
  {
    if field == "title" then Required(f.title, "Title is required")
    else if field == "description" then Required(f.description, "Description is required")
    else if field == "dueDate" then
      if f.dueDate == "" then Some("Due date is required") else None
    else if field == "classId" then
      if f.classId.None? then Some("Class is required") else None
    else if field == "points" then
      if BadPoints(f.points) then Some("Points must be a positive number") else None
    else None
  }

  /** `validateForm`: title and description must be non-blank, a due date
      and a class chosen, and points present and not negative. */
  function Validate(f: AssignmentFormData): (r: Errors)
    ensures r.Keys <= Checked
    ensures "title" in r <==> Text.IsBlank(f.title)
    ensures "title" in r ==> r["title"] == "Title is required"
    ensures "description" in r <==> Text.IsBlank(f.description)
    ensures "description" in r ==> r["description"] == "Description is required"
    ensures "dueDate" in r <==> f.dueDate == ""
    ensures "dueDate" in r ==> r["dueDate"] == "Due date is required"
    ensures "classId" in r <==> f.classId.None?
    ensures "classId" in r ==> r["classId"] == "Class is required"
    ensures "points" in r <==> f.points.Empty? || (f.points.Num? && f.points.value < 0.0)
    ensures "points" in r ==> r["points"] == "Points must be a positive number"
    ensures NoErrors(r) <==>
              && !Text.IsBlank(f.title) && !Text.IsBlank(f.description)
              && f.dueDate != "" && f.classId.Some? && !BadPoints(f.points)
  {
    var r := Collect(Checked, (k: string) => Message(f, k));
    assert "title" in Checked && "description" in Checked && "dueDate" in Checked;
    assert "classId" in Checked && "points" in Checked;
    r
  }

  /** Zero typed into the points field is accepted, but an assignment
      stored with 0 points opens with an empty points field and is
      rejected until points are typed again. */
  lemma ZeroPoints(f: AssignmentFormData, a: AssignmentService.Assignment)
    ensures "points" !in Validate(f.(points := Num(0.0)))
    ensures a.points == 0 ==> "points" in Validate(FromAssignment(a))
  {
  }

  /** An assignment with a non-blank title and description, a due date, a
      class and a positive point count opens as a valid form. */
  lemma EditValid(a: AssignmentService.Assignment)
    requires !Text.IsBlank(a.title) && !Text.IsBlank(a.description)
    requires a.dueDate != "" && a.classId != 0 && a.points > 0
    ensures NoErrors(Validate(FromAssignment(a)))
  {
  }

  /** A new form is rejected at least for its blank title. */
  lemma InitialRejected(initialDate: Option<string>)
    ensures "title" in Validate(InitialForm(initialDate))
    ensures "points" in Validate(InitialForm(initialDate))
    ensures ("dueDate" in Validate(InitialForm(initialDate))) <==> initialDate.None? || initialDate.value == ""
  {
    assert Text.IsBlank("");
  }
}

=== FILE: assignment_service.dfy ===
/** The assignment table (`assignmentService`): the class filter, create
    with a status default, update, delete and the due-date move the
    calendar's drag and drop uses. */
module AssignmentService {
  import opened Wrappers
  import Seqs
  import opened Store

  datatype Assignment = Assignment(
    title: string,
    description: string,
    dueDate: string,
    classId: int,
    points: int,
    status: string)

  /** What a caller hands to `create`; a missing or empty status becomes
      "pending". */
  datatype AssignmentInput = AssignmentInput(
    title: string,
    description: string,
    dueDate: string,
    classId: int,
    points: int,
    status: Option<string>)

  datatype AssignmentPatch = AssignmentPatch(
    title: Option<string>,
    description: Option<string>,
    dueDate: Option<string>,
    classId: Option<int>,
    points: Option<int>,
    status: Option<string>)

  function Merge(a: Assignment, p: AssignmentPatch): Assignment
  {
    Assignment(
      p.title.GetOr(a.title),
      p.description.GetOr(a.description),
      p.dueDate.GetOr(a.dueDate),
      p.classId.GetOr(a.classId),
      p.points.GetOr(a.points),
      p.status.GetOr(a.status))
  }

  /** The patch that only moves the due date. */
  function DueDatePatch(dueDate: string): AssignmentPatch
  {
    AssignmentPatch(None, None, Some(dueDate), None, None, None)
  }

  /** `getById`. */
  function GetById(s: seq<Row<Assignment>>, id: int): (r: Option<Row<Assignment>>)
    ensures r.Some? ==> r.value in s && r.value.Id == id
    ensures r.None? <==> forall i :: 0 <= i < |s| ==> s[i].Id != id
  {
    Store.Get(s, id)
  }

  /** `getByClassId`: the class's assignments, in table order. */
  function ByClass(s: seq<Row<Assignment>>, classId: int): (r: seq<Row<Assignment>>)
    ensures forall i :: 0 <= i < |r| ==> r[i] in s && r[i].data.classId == classId
    ensures forall i :: 0 <= i < |s| && s[i].data.classId == classId ==> s[i] in r
  {
    Seqs.Filter(s, (a: Row<Assignment>) => a.data.classId == classId)
  }

  /** `create`: a fresh id, the caller's fields, and status "pending" unless
      a non-empty one was given; appended at the end. */
  function Create(s: seq<Row<Assignment>>, input: AssignmentInput): (r: (seq<Row<Assignment>>, Row<Assignment>))
    ensures r.0 == s + [r.1]
    ensures r.1.Id >= 1 && forall i :: 0 <= i < |s| ==> s[i].Id < r.1.Id
    ensures r.1.data.status == if input.status.Some? && input.status.value != "" then input.status.value else "pending"
    ensures && r.1.data.title == input.title && r.1.data.description == input.description
            && r.1.data.dueDate == input.dueDate && r.1.data.classId == input.classId
            && r.1.data.points == input.points
  {
    var status := if input.status.Some? && input.status.value != "" then input.status.value else "pending";
    Store.Insert(s, Assignment(input.title, input.description, input.dueDate, input.classId, input.points, status))
  }

  /** `update`: on a miss, none and no change; on a hit, the first
      assignment with this id gets the patch merged in. */
  function Update(s: seq<Row<Assignment>>, id: int, p: AssignmentPatch): (r: (seq<Row<Assignment>>, Option<Row<Assignment>>))
    ensures IndexOf(s, id).None? ==> r.0 == s && r.1 == None
    ensures IndexOf(s, id).Some? ==>
              var k := IndexOf(s, id).value;
              && r.0 == s[k := Row(id, Merge(s[k].data, p))]
              && r.1 == Some(r.0[k])
  {
    Store.Update(s, id, (a: Assignment) => Merge(a, p))
  }

  /** `delete`: on a miss, none and no change; on a hit, exactly that
      assignment is spliced out and returned. */
  function Delete(s: seq<Row<Assignment>>, id: int): (r: (seq<Row<Assignment>>, Option<Row<Assignment>>))
    ensures IndexOf(s, id).None? ==> r.0 == s && r.1 == None
    ensures IndexOf(s, id).Some? ==>
              var k := IndexOf(s, id).value;
              r.0 == s[..k] + s[k + 1..] && r.1 == Some(s[k])
  {
    Store.Delete(s, id)
  }

  /** `updateDueDate`: the first assignment with this id gets the new due
      date and keeps every other field; the rest of the table stays. A miss
      returns none and changes nothing. */
  function UpdateDueDate(s: seq<Row<Assignment>>, id: int, dueDate: string): (r: (seq<Row<Assignment>>, Option<Row<Assignment>>))
    ensures |r.0| == |s|
    ensures r.1.None? <==> IndexOf(s, id).None?
    ensures r.1.None? ==> r.0 == s
    ensures r.1.Some? ==>
              var k := IndexOf(s, id).value;
              && r.1 == Some(r.0[k])
              && r.0[k] == Row(id, s[k].data.(dueDate := dueDate))
              && forall j :: 0 <= j < |s| && j != k ==> r.0[j] == s[j]
  {
    Store.Update(s, id, (a: Assignment) => a.(dueDate := dueDate))
  }

  /** Moving the due date is the general update with a patch that only
      names the due date; moving twice keeps only the last move. */
  lemma UpdateDueDateIsUpdate(s: seq<Row<Assignment>>, id: int, d1: string, d2: string)
    ensures UpdateDueDate(s, id, d1) == Update(s, id, DueDatePatch(d1))
    ensures UpdateDueDate(UpdateDueDate(s, id, d1).0, id, d2) == UpdateDueDate(s, id, d2)
  {
    var t := UpdateDueDate(s, id, d1).0;
    Store.IndexOfAgrees(s, t, id);
    match IndexOf(s, id)
    case None =>
    case Some(k) =>
      var u := UpdateDueDate(t, id, d2).0;
      var v := UpdateDueDate(s, id, d2).0;
      assert u[k] == v[k];
      assert u == v;
  }
}

=== FILE: attendance_grid.dfy ===
/** The attendance grid: the students of the chosen class, the status
    shown for each on the chosen day, the status buttons, and the tallies
    under the grid. */
module AttendanceGrid {
  import opened Wrappers
  import Seqs
  import opened Store
  import StudentService
  import ClassService
  import AttendanceService
  import AttendancePage

  type StudentRow = Row<StudentService.Student>
  type ClassRow = Row<ClassService.ClassRec>
  type AttendanceRow = Row<AttendanceService.Attendance>

  /** The roster of the first class with the id, if there is one. */
  function Roster(classes: seq<ClassRow>, classId: int): Option<seq<int>>
  {
    match Seqs.Find(classes, (c: ClassRow) => c.Id == classId)
    case None => None
    case Some(c) => Some(c.data.studentIds)
  }

  /** `filteredStudents`: nobody until a class is chosen; then the
      students on that class's roster, in the order of the student list.
      A chosen class that does not exist shows nobody. */
  function Shown(students: seq<StudentRow>, classes: seq<ClassRow>, selected: Option<int>): (r: seq<StudentRow>)
    ensures selected.None? ==> r == []
    ensures forall i :: 0 <= i < |r| ==> r[i] in students
    ensures selected.Some? ==>
              forall i :: 0 <= i < |students| ==>
                (students[i] in r <==>
                   var c := ClassService.GetById(classes, selected.value);
                   c.Some? && students[i].Id in c.value.data.studentIds)
  {
    match selected
    case None => []
    case Some(classId) =>
      var roster := Roster(classes, classId);
      Seqs.FirstIndexAgrees(classes, (c: ClassRow) => c.Id == classId, classes, (c: ClassRow) => c.Id == classId);
      Seqs.Filter(students, (st: StudentRow) => roster.Some? && st.Id in roster.value)
  }

  /** The students shown keep the order of the student list: they are the
      students at the roster positions, in increasing position order. */
  lemma ShownInOrder(students: seq<StudentRow>, classes: seq<ClassRow>, classId: int)
    ensures var r := Shown(students, classes, Some(classId));
            var roster := Roster(classes, classId);
            var idx := Seqs.SelectedIndices(students, (st: StudentRow) => roster.Some? && st.Id in roster.value);
            && |r| == |idx|
            && forall k :: 0 <= k < |r| ==> r[k] == students[idx[k]]
  {
    var roster := Roster(classes, classId);
    Seqs.FilterIsSelection(students, (st: StudentRow) => roster.Some? && st.Id in roster.value);
  }

  /** `getAttendanceStatus`: the status of the first record for the
      student in the chosen class on the chosen day, or "Not Marked". */
  function Status(attendance: seq<AttendanceRow>, classId: int, date: string, studentId: int): (r: string)
    ensures AttendanceService.SlotIndex(attendance, studentId, classId, date).None? ==> r == "Not Marked"
    ensures AttendanceService.SlotIndex(attendance, studentId, classId, date).Some? ==>
              r == attendance[AttendanceService.SlotIndex(attendance, studentId, classId, date).value].data.status
  {
    var p := (a: AttendanceRow) => a.data.studentId == studentId && a.data.classId == classId && a.data.date == date;
    Seqs.FirstIndexAgrees(attendance, p, attendance,
                          (a: AttendanceRow) => AttendanceService.InSlot(a.data, studentId, classId, date));
    match Seqs.Find(attendance, p)
    case None => "Not Marked"
    case Some(a) => a.data.status
  }

  /** `handleStatusChange`: without a chosen class the button does
      nothing; otherwise the page marks the student for the chosen class
      and day, with empty notes. */
  function Click(local: seq<AttendanceRow>, s: seq<AttendanceRow>, selected: Option<int>, date: string,
                 studentId: int, status: string): (r: (seq<AttendanceRow>, seq<AttendanceRow>))
    ensures selected.None? ==> r == (local, s)
    ensures selected.Some? ==> r == AttendancePage.MarkLocal(local, s, studentId, selected.value, date, status, "")
  {
    match selected
    case None => (local, s)
    case Some(classId) => AttendancePage.MarkLocal(local, s, studentId, classId, date, status, "")
  }

  /** After a status button is pressed for a student of the chosen class,
      the grid shows that status for the student, both from the page's
      list and from the attendance table. */
  lemma ClickShows(local: seq<AttendanceRow>, s: seq<AttendanceRow>, classId: int, date: string,
                   studentId: int, status: string)
    requires UniqueIds(s)
    ensures var r := Click(local, s, Some(classId), date, studentId, status);
            && Status(r.0, classId, date, studentId) == status
            && Status(r.1, classId, date, studentId) == status
  {
    var (t, row) := AttendanceService.Mark(s, studentId, classId, date, status, "");
    if AttendanceService.SlotIndex(s, studentId, classId, date).Some? {
      AttendanceService.MarkHit(s, studentId, classId, date, status, "");
    } else {
      AttendanceService.MarkMiss(s, studentId, classId, date, status, "");
    }
    assert AttendanceService.InSlot(row.data, studentId, classId, date) && row.data.status == status;
    var l' := Click(local, s, Some(classId), date, studentId, status).0;
    match AttendanceService.SlotIndex(local, studentId, classId, date)
    case Some(k) =>
      assert l' == local[k := row];
      assert forall j :: 0 <= j < k ==> l'[j] == local[j];
      assert AttendanceService.InSlot(l'[k].data, studentId, classId, date);
      assert AttendanceService.SlotIndex(l', studentId, classId, date) == Some(k);
    case None =>
      assert l' == [row] + local;
      assert AttendanceService.SlotIndex(l', studentId, classId, date) == Some(0);
    var ts := AttendanceService.SlotIndex(t, studentId, classId, date);
    match AttendanceService.SlotIndex(s, studentId, classId, date)
    case Some(j) =>
      assert t == s[j := row];
      assert ts == Some(j);
    case None =>
      assert t == s + [row];
      assert ts == Some(|s|);
  }

  /** How many of the shown students have the given status on the day. */
  function Tally(shown: seq<StudentRow>, attendance: seq<AttendanceRow>, classId: int, date: string, status: string): (r: nat)
    ensures r <= |shown|
    ensures r == |shown| <==> forall i :: 0 <= i < |shown| ==> Status(attendance, classId, date, shown[i].Id) == status
    ensures r == 0 <==> forall i :: 0 <= i < |shown| ==> Status(attendance, classId, date, shown[i].Id) != status
  {
    var has := (st: StudentRow) => Status(attendance, classId, date, st.Id) == status;
    Seqs.FilterFullIff(shown, has);
    Seqs.FilterFullIff(shown, (st: StudentRow) => Status(attendance, classId, date, st.Id) != status);
    Seqs.FilterDisjointCount(shown, has, (st: StudentRow) => Status(attendance, classId, date, st.Id) != status,
                             (st: StudentRow) => true);
    Seqs.FilterFullIff(shown, (st: StudentRow) => true);
    |Seqs.Filter(shown, has)|
  }

  /** The present, late and absent tallies never add up to more than the
      students shown; the rest are not marked. */
  lemma TalliesBounded(shown: seq<StudentRow>, attendance: seq<AttendanceRow>, classId: int, date: string)
    ensures Tally(shown, attendance, classId, date, "Present") + Tally(shown, attendance, classId, date, "Late")
            + Tally(shown, attendance, classId, date, "Absent") <= |shown|
  {
    var present := (x: StudentRow) => Status(attendance, classId, date, x.Id) == "Present";
    var late := (x: StudentRow) => Status(attendance, classId, date, x.Id) == "Late";
    var absent := (x: StudentRow) => Status(attendance, classId, date, x.Id) == "Absent";
    var presentOrLate := (x: StudentRow) => present(x) || late(x);
    var any := (x: StudentRow) => presentOrLate(x) || absent(x);
    Seqs.FilterDisjointCount(shown, present, late, presentOrLate);
    Seqs.FilterDisjointCount(shown, presentOrLate, absent, any);
  }
}

=== FILE: attendance_page.dfy ===
/** The attendance page: marking a student for a class and day through the
    attendance service, then patching the page's own copy of the
    attendance records with the record the service returns. */
module AttendancePage {
  import opened Store
  import AttendanceService
  import LocalList

  type AttendanceRow = Row<AttendanceService.Attendance>

  /** `handleMarkAttendance`. The service marks the slot; in the page's
      list, the first record of the same student, class and day is
      replaced by the returned record, or, when there is none, the
      returned record is put first. The result is the page's list and the
      attendance table after the call. */
  function MarkLocal(local: seq<AttendanceRow>, s: seq<AttendanceRow>,
                     studentId: int, classId: int, date: string, status: string, notes: string)
    : (r: (seq<AttendanceRow>, seq<AttendanceRow>))
    ensures r.1 == AttendanceService.Mark(s, studentId, classId, date, status, notes).0
    ensures var row := AttendanceService.Mark(s, studentId, classId, date, status, notes).1;
            match AttendanceService.SlotIndex(local, studentId, classId, date)
            case Some(k) => r.0 == local[k := row]
            case None => r.0 == [row] + local
    ensures |r.0| == |local| || |r.0| == |local| + 1
  {
    var (t, row) := AttendanceService.Mark(s, studentId, classId, date, status, notes);
    match AttendanceService.SlotIndex(local, studentId, classId, date)
    case Some(k) => (local[k := row], t)
    case None => ([row] + local, t)
  }

  /** A slot record found in a mirror of a table with one record per slot
      is that table's slot record. */
  lemma SlotRecordShared(local: seq<AttendanceRow>, s: seq<AttendanceRow>,
                         studentId: int, classId: int, date: string)
    requires LocalList.Mirrors(local, s)
    requires AttendanceService.UniqueSlots(s)
    ensures AttendanceService.SlotIndex(local, studentId, classId, date).None? <==>
            AttendanceService.SlotIndex(s, studentId, classId, date).None?
    ensures AttendanceService.SlotIndex(local, studentId, classId, date).Some? ==>
              local[AttendanceService.SlotIndex(local, studentId, classId, date).value] ==
              s[AttendanceService.SlotIndex(s, studentId, classId, date).value]
  {
    var li := AttendanceService.SlotIndex(local, studentId, classId, date);
    var si := AttendanceService.SlotIndex(s, studentId, classId, date);
    if li.Some? {
      var k := li.value;
      assert local[k] in multiset(s);
      var a :| 0 <= a < |s| && s[a] == local[k];
      var j := si.value;
      assert j == a;
    }
    if si.Some? {
      var j := si.value;
      assert s[j] in multiset(local);
      var b :| 0 <= b < |local| && local[b] == s[j];
      assert AttendanceService.InSlot(local[b].data, studentId, classId, date);
    }
  }

  /** Marking keeps the page's list a copy of the attendance table, with
      distinct ids and at most one record per slot. */
  lemma MarkMirrors(local: seq<AttendanceRow>, s: seq<AttendanceRow>,
                    studentId: int, classId: int, date: string, status: string, notes: string)
    requires LocalList.Mirrors(local, s)
    requires UniqueIds(s) && AttendanceService.UniqueSlots(s)
    ensures var r := MarkLocal(local, s, studentId, classId, date, status, notes);
            && LocalList.Mirrors(r.0, r.1)
            && UniqueIds(r.1) && AttendanceService.UniqueSlots(r.1)
  {
    SlotRecordShared(local, s, studentId, classId, date);
    AttendanceService.MarkKeepsUnique(s, studentId, classId, date, status, notes);
    var (t, row) := AttendanceService.Mark(s, studentId, classId, date, status, notes);
    match AttendanceService.SlotIndex(local, studentId, classId, date)
    case Some(k) =>
      var j := AttendanceService.SlotIndex(s, studentId, classId, date).value;
      AttendanceService.MarkHit(s, studentId, classId, date, status, notes);
      assert t == s[j := row];
      assert multiset(local[k := row]) == multiset(local) - multiset{local[k]} + multiset{row};
      assert multiset(s[j := row]) == multiset(s) - multiset{s[j]} + multiset{row};
    case None =>
      AttendanceService.MarkMiss(s, studentId, classId, date, status, notes);
      LocalList.PrependMirrorsCreate(local, s, AttendanceService.Attendance(studentId, classId, date, status, notes));
  }
}

=== FILE: attendance_service.dfy ===
/** The attendance table (`attendanceService`): filters, create, update,
    delete, the `markAttendance` upsert keyed on (student, class, date) and
    the present-rate. */
module AttendanceService {
  import opened Wrappers
  import Seqs
  import opened Store

  datatype Attendance = Attendance(
    studentId: int,
    classId: int,
    date: string,
    status: string,
    notes: string)

  /** What a caller hands to `create`; `date` may be left out. */
  datatype AttendanceInput = AttendanceInput(
    studentId: int,
    classId: int,
    date: Option<string>,
    status: string,
    notes: string)

  datatype AttendancePatch = AttendancePatch(
    studentId: Option<int>,
    classId: Option<int>,
    date: Option<string>,
    status: Option<string>,
    notes: Option<string>)

  function Merge(a: Attendance, p: AttendancePatch): Attendance
  {
    Attendance(
      p.studentId.GetOr(a.studentId),
      p.classId.GetOr(a.classId),
      p.date.GetOr(a.date),
      p.status.GetOr(a.status),
      p.notes.GetOr(a.notes))
  }

  /** `getByStudentId`: the student's records, in table order. */
  function ByStudent(s: seq<Row<Attendance>>, studentId: int): (r: seq<Row<Attendance>>)
    ensures forall i :: 0 <= i < |r| ==> r[i] in s && r[i].data.studentId == studentId
    ensures forall i :: 0 <= i < |s| && s[i].data.studentId == studentId ==> s[i] in r
  {
    Seqs.Filter(s, (a: Row<Attendance>) => a.data.studentId == studentId)
  }

  /** `getByClassId`: the class's records, in table order. */
  function ByClass(s: seq<Row<Attendance>>, classId: int): (r: seq<Row<Attendance>>)
    ensures forall i :: 0 <= i < |r| ==> r[i] in s && r[i].data.classId == classId
    ensures forall i :: 0 <= i < |s| && s[i].data.classId == classId ==> s[i] in r
  {
    Seqs.Filter(s, (a: Row<Attendance>) => a.data.classId == classId)
  }

  /** `getByDate`: the records of one day, in table order. */
  function ByDate(s: seq<Row<Attendance>>, date: string): (r: seq<Row<Attendance>>)
    ensures forall i :: 0 <= i < |r| ==> r[i] in s && r[i].data.date == date
    ensures forall i :: 0 <= i < |s| && s[i].data.date == date ==> s[i] in r
  {
    Seqs.Filter(s, (a: Row<Attendance>) => a.data.date == date)
  }

  /** `create`: a fresh id, the caller's fields, and the supplied date or
      today's when it is missing or empty; appended at the end. */
  function Create(s: seq<Row<Attendance>>, input: AttendanceInput, today: string): (r: (seq<Row<Attendance>>, Row<Attendance>))
    ensures r.0 == s + [r.1]
    ensures r.1.Id >= 1 && forall i :: 0 <= i < |s| ==> s[i].Id < r.1.Id
    ensures r.1.data.date == if input.date.Some? && input.date.value != "" then input.date.value else today
    ensures && r.1.data.studentId == input.studentId && r.1.data.classId == input.classId
            && r.1.data.status == input.status && r.1.data.notes == input.notes
  {
    var date := if input.date.Some? && input.date.value != "" then input.date.value else today;
    Store.Insert(s, Attendance(input.studentId, input.classId, date, input.status, input.notes))
  }

  /** `update`: on a miss, none and no change; on a hit, only the first
      record with this id changes, by merging the patch. */
  function Update(s: seq<Row<Attendance>>, id: int, p: AttendancePatch): (r: (seq<Row<Attendance>>, Option<Row<Attendance>>))
    ensures IndexOf(s, id).None? ==> r.0 == s && r.1 == None
    ensures IndexOf(s, id).Some? ==>
              var k := IndexOf(s, id).value;
              && r.0 == s[k := Row(id, Merge(s[k].data, p))]
              && r.1 == Some(r.0[k])
  {
    Store.Update(s, id, (a: Attendance) => Merge(a, p))
  }

  /** `delete`: on a miss, none and no change; on a hit, exactly that
      record is spliced out and returned. */
  function Delete(s: seq<Row<Attendance>>, id: int): (r: (seq<Row<Attendance>>, Option<Row<Attendance>>))
    ensures IndexOf(s, id).None? ==> r.0 == s && r.1 == None
    ensures IndexOf(s, id).Some? ==>
              var k := IndexOf(s, id).value;
              r.0 == s[..k] + s[k + 1..] && r.1 == Some(s[k])
  {
    Store.Delete(s, id)
  }

  /** The record is for this student, class and day. */
  predicate InSlot(a: Attendance, studentId: int, classId: int, date: string)
  {
    a.studentId == studentId && a.classId == classId && a.date == date
  }

  /** At most one record per (student, class, day). */
  ghost predicate UniqueSlots(s: seq<Row<Attendance>>)
  {
    forall i, j :: 0 <= i < j < |s| ==>
      !InSlot(s[j].data, s[i].data.studentId, s[i].data.classId, s[i].data.date)
  }

  /** The position of the first record in the slot. */
  function SlotIndex(s: seq<Row<Attendance>>, studentId: int, classId: int, date: string): (r: Option<nat>)
    ensures r.Some? ==> r.value < |s| && InSlot(s[r.value].data, studentId, classId, date)
    ensures r.Some? ==> forall j :: 0 <= j < r.value ==> !InSlot(s[j].data, studentId, classId, date)
    ensures r.None? <==> forall j :: 0 <= j < |s| ==> !InSlot(s[j].data, studentId, classId, date)
  {
    Seqs.FirstIndex(s, (a: Row<Attendance>) => InSlot(a.data, studentId, classId, date))
  }

  /** `markAttendance`. When the slot already has a record, the code looks
      that record up again by its id and overwrites the status and notes of
      the first record carrying the id; otherwise it appends a new record
      with a fresh id. Returns the stored record. */
  function Mark(s: seq<Row<Attendance>>, studentId: int, classId: int, date: string, status: string, notes: string)
    : (r: (seq<Row<Attendance>>, Row<Attendance>))
    ensures r.1 in r.0
    ensures |r.0| == |s| || r.0 == s + [r.1]
    ensures forall i :: 0 <= i < |s| ==> r.0[i].Id == s[i].Id
  {
    match SlotIndex(s, studentId, classId, date)
    case Some(j) =>
      var k := IndexOf(s, s[j].Id).value;
      var row := Row(s[k].Id, s[k].data.(status := status, notes := notes));
      assert s[k := row][k] == row;
      (s[k := row], row)
    case None =>
      Store.Insert(s, Attendance(studentId, classId, date, status, notes))
  }

  /** A hit in a table with distinct ids: the slot's record keeps its id,
      student, class and day, takes the new status and notes, and nothing
      else changes. */
  lemma MarkHit(s: seq<Row<Attendance>>, studentId: int, classId: int, date: string, status: string, notes: string)
    requires UniqueIds(s)
    requires SlotIndex(s, studentId, classId, date).Some?
    ensures var j := SlotIndex(s, studentId, classId, date).value;
            var r := Mark(s, studentId, classId, date, status, notes);
            && r.1 == Row(s[j].Id, Attendance(studentId, classId, date, status, notes))
            && r.0 == s[j := r.1]
  {
    var j := SlotIndex(s, studentId, classId, date).value;
    assert IndexOf(s, s[j].Id).value == j;
  }

  /** A miss: one new record with a fresh id and exactly the given fields
      is appended. */
  lemma MarkMiss(s: seq<Row<Attendance>>, studentId: int, classId: int, date: string, status: string, notes: string)
    requires SlotIndex(s, studentId, classId, date).None?
    ensures var r := Mark(s, studentId, classId, date, status, notes);
            && r.1.data == Attendance(studentId, classId, date, status, notes)
            && r.1.Id >= 1 && (forall i :: 0 <= i < |s| ==> s[i].Id < r.1.Id)
            && r.0 == s + [r.1]
  {
  }

  /** Marking never creates a second record for a slot, and keeps ids
      distinct. */
  lemma MarkKeepsUnique(s: seq<Row<Attendance>>, studentId: int, classId: int, date: string, status: string, notes: string)
    ensures UniqueSlots(s) ==> UniqueSlots(Mark(s, studentId, classId, date, status, notes).0)
    ensures UniqueIds(s) ==> UniqueIds(Mark(s, studentId, classId, date, status, notes).0)
  {
    var t := Mark(s, studentId, classId, date, status, notes).0;
    match SlotIndex(s, studentId, classId, date)
    case Some(j) =>
      assert forall i :: 0 <= i < |s| ==>
        (t[i].data.studentId == s[i].data.studentId
         && t[i].data.classId == s[i].data.classId && t[i].data.date == s[i].data.date);
    case None =>
      assert t == s + [t[|s|]];
  }

  /** Tables that agree on every record's student, class and day agree on
      where a slot's first record is. */
  lemma SlotIndexAgrees(s: seq<Row<Attendance>>, t: seq<Row<Attendance>>, studentId: int, classId: int, date: string)
    requires |s| == |t|
    requires forall i :: 0 <= i < |s| ==>
               (InSlot(t[i].data, studentId, classId, date) <==> InSlot(s[i].data, studentId, classId, date))
    ensures SlotIndex(s, studentId, classId, date) == SlotIndex(t, studentId, classId, date)
  {
  }

  /** Marking the same slot twice with the same status and notes is the
      same as marking it once. */
  lemma {:induction false} MarkIdempotent(s: seq<Row<Attendance>>, studentId: int, classId: int, date: string, status: string, notes: string)
    ensures var r := Mark(s, studentId, classId, date, status, notes);
            Mark(r.0, studentId, classId, date, status, notes) == r
  {
    var r := Mark(s, studentId, classId, date, status, notes);
    var t := r.0;
    match SlotIndex(s, studentId, classId, date)
    case Some(j) =>
      var k := IndexOf(s, s[j].Id).value;
      assert t == s[k := r.1];
      forall i | 0 <= i < |s|
        ensures InSlot(t[i].data, studentId, classId, date) <==> InSlot(s[i].data, studentId, classId, date)
      {
        if i != k { assert t[i] == s[i]; }
      }
      SlotIndexAgrees(s, t, studentId, classId, date);
      Store.IndexOfAgrees(s, t, s[j].Id);
      assert t[j].Id == s[j].Id;
      assert t[k := r.1] == t;
    case None =>
      var n := |s|;
      assert t[n] == r.1;
      assert SlotIndex(t, studentId, classId, date) == Some(n);
      assert IndexOf(t, r.1.Id) == Some(n);
      assert t[n := r.1] == t;
  }

  /** The record's status is exactly "Present". */
  predicate IsPresent(a: Row<Attendance>)
  {
    a.data.status == "Present"
  }

  /** `r` is `part` as a percentage of `whole`. */
  predicate PercentOf(r: real, part: nat, whole: nat)
  {
    r * (whole as real) == 100.0 * (part as real)
  }

  /** `present / total * 100` for a non-empty total: 100 exactly when all
      are present. */
  function Share(present: nat, total: nat): (r: real)
    requires 0 < total && present <= total
    ensures 0.0 <= r <= 100.0
    ensures PercentOf(r, present, total)
    ensures r == 100.0 <==> present == total
  {
    var q := (present as real) / (total as real);
    assert q * (total as real) == present as real;
    assert q * 100.0 * (total as real) == 100.0 * (q * (total as real));
    q * 100.0
  }

  /** `calculateAttendanceRate`: the share of the student's records whose
      status is exactly "Present", as a percentage; 100 when there are no
      records. */
  function Rate(s: seq<Row<Attendance>>, studentId: int): (r: real)
    ensures 0.0 <= r <= 100.0
    ensures |ByStudent(s, studentId)| == 0 ==> r == 100.0
    ensures |ByStudent(s, studentId)| > 0 ==>
              PercentOf(r, |Seqs.Filter(ByStudent(s, studentId), IsPresent)|, |ByStudent(s, studentId)|)
  {
    var recs := ByStudent(s, studentId);
    if |recs| == 0 then 100.0
    else
      Share(|Seqs.Filter(recs, IsPresent)|, |recs|)
  }

  /** The rate is 100 exactly when every record of the student says
      "Present"; a "Late" or "Absent" record pulls it below 100. */
  lemma RateFullIffAllPresent(s: seq<Row<Attendance>>, studentId: int)
    ensures Rate(s, studentId) == 100.0 <==>
            forall i :: 0 <= i < |s| && s[i].data.studentId == studentId ==> IsPresent(s[i])
  {
    var recs := ByStudent(s, studentId);
    Seqs.FilterFullIff(recs, IsPresent);
    if forall i :: 0 <= i < |s| && s[i].data.studentId == studentId ==> IsPresent(s[i]) {
      forall i | 0 <= i < |recs| ensures IsPresent(recs[i]) {
        assert recs[i] in s;
      }
    }
    if Rate(s, studentId) == 100.0 {
      forall i | 0 <= i < |s| && s[i].data.studentId == studentId ensures IsPresent(s[i]) {
        assert s[i] in recs;
      }
    }
  }

  /** [Present, Absent] gives 50. */
  lemma RateExampleAbsent()
    ensures Rate([Row(1, Attendance(3, 1, "2024-01-15", "Present", "")),
                  Row(2, Attendance(3, 1, "2024-01-16", "Absent", ""))], 3) == 50.0
  {
    var a := [Row(1, Attendance(3, 1, "2024-01-15", "Present", "")),
              Row(2, Attendance(3, 1, "2024-01-16", "Absent", ""))];
    assert a[..1] == [a[0]];
    assert ByStudent(a, 3) == a;
    assert Seqs.Filter(a, IsPresent) == [a[0]];
  }

  /** A "Late" record does not count as present: [Present, Late] gives 50. */
  lemma RateExampleLate()
    ensures Rate([Row(1, Attendance(3, 1, "2024-01-15", "Present", "")),
                  Row(2, Attendance(3, 1, "2024-01-16", "Late", ""))], 3) == 50.0
  {
    var a := [Row(1, Attendance(3, 1, "2024-01-15", "Present", "")),
              Row(2, Attendance(3, 1, "2024-01-16", "Late", ""))];
    assert a[..1] == [a[0]];
    assert ByStudent(a, 3) == a;
    assert Seqs.Filter(a, IsPresent) == [a[0]];
  }
}

=== FILE: class_service.dfy ===
/** The class table (`classService`): create, update, delete and the
    roster and assignment lists each class carries. */
module ClassService {
  import opened Wrappers
  import Seqs
  import opened Store

  /** A class. `assignments` is absent until the first assignment is
      attached, so it is an option. */
  datatype ClassRec = ClassRec(
    name: string,
    subject: string,
    period: string,
    room: string,
    studentIds: seq<int>,
    assignments: Option<seq<int>>)

  /** What a caller hands to `create`; a missing roster becomes empty. */
  datatype ClassInput = ClassInput(
    name: string,
    subject: string,
    period: string,
    room: string,
    studentIds: Option<seq<int>>,
    assignments: Option<seq<int>>)

  datatype ClassPatch = ClassPatch(
    name: Option<string>,
    subject: Option<string>,
    period: Option<string>,
    room: Option<string>,
    studentIds: Option<seq<int>>,
    assignments: Option<seq<int>>)

  function Merge(c: ClassRec, p: ClassPatch): ClassRec
  {
    ClassRec(
      p.name.GetOr(c.name),
      p.subject.GetOr(c.subject),
      p.period.GetOr(c.period),
      p.room.GetOr(c.room),
      p.studentIds.GetOr(c.studentIds),
      if p.assignments.Some? then p.assignments else c.assignments)
  }

  /** No value occurs twice. */
  predicate Distinct(xs: seq<int>)
  {
    forall i, j :: 0 <= i < j < |xs| ==> xs[i] != xs[j]
  }

  /** `xs.filter(y => y !== x)`: every occurrence of `x` removed, the rest in
      order. */
  function Without(xs: seq<int>, x: int): (r: seq<int>)
    ensures x !in r
    ensures forall i :: 0 <= i < |r| ==> r[i] in xs
    ensures forall i :: 0 <= i < |xs| && xs[i] != x ==> xs[i] in r
  {
    Seqs.Filter(xs, (y: int) => y != x)
  }

  /** Removing a value that is not there changes nothing, and removing
      twice is removing once. */
  lemma WithoutAbsent(xs: seq<int>, x: int)
    ensures x !in xs ==> Without(xs, x) == xs
    ensures Without(Without(xs, x), x) == Without(xs, x)
  {
    Seqs.FilterFullIff(xs, (y: int) => y != x);
    Seqs.FilterFullIff(Without(xs, x), (y: int) => y != x);
  }

  /** Removing keeps a list free of repeats. */
  lemma {:induction false} WithoutKeepsDistinct(xs: seq<int>, x: int)
    requires Distinct(xs)
    ensures Distinct(Without(xs, x))
  {
    var p := (y: int) => y != x;
    if |xs| > 0 {
      var init := xs[..|xs| - 1];
      assert xs == init + [xs[|xs| - 1]];
      WithoutKeepsDistinct(init, x);
      Seqs.FilterAppend(init, [xs[|xs| - 1]], p);
      assert Without(xs, x) == Without(init, x) + (if xs[|xs| - 1] != x then [xs[|xs| - 1]] else []);
      var w := Without(init, x);
      assert forall i :: 0 <= i < |w| ==> w[i] in init;
    }
  }

  /** `getById`. */
  function GetById(s: seq<Row<ClassRec>>, id: int): (r: Option<Row<ClassRec>>)
    ensures r.Some? ==> r.value in s && r.value.Id == id
    ensures r.None? <==> forall i :: 0 <= i < |s| ==> s[i].Id != id
  {
    Store.Get(s, id)
  }

  /** `create`: a fresh id, the caller's fields, and an empty roster when
      none was given; appended at the end. */
  function Create(s: seq<Row<ClassRec>>, input: ClassInput): (r: (seq<Row<ClassRec>>, Row<ClassRec>))
    ensures r.0 == s + [r.1]
    ensures r.1.Id >= 1 && forall i :: 0 <= i < |s| ==> s[i].Id < r.1.Id
    ensures r.1.data.studentIds == if input.studentIds.Some? then input.studentIds.value else []
    ensures && r.1.data.name == input.name && r.1.data.subject == input.subject
            && r.1.data.period == input.period && r.1.data.room == input.room
            && r.1.data.assignments == input.assignments
  {
    Store.Insert(s, ClassRec(input.name, input.subject, input.period, input.room,
                             input.studentIds.GetOr([]), input.assignments))
  }

  /** `update`: on a miss, none and no change; on a hit, the first class
      with this id gets the patch merged in. */
  function Update(s: seq<Row<ClassRec>>, id: int, p: ClassPatch): (r: (seq<Row<ClassRec>>, Option<Row<ClassRec>>))
    ensures IndexOf(s, id).None? ==> r.0 == s && r.1 == None
    ensures IndexOf(s, id).Some? ==>
              var k := IndexOf(s, id).value;
              && r.0 == s[k := Row(id, Merge(s[k].data, p))]
              && r.1 == Some(r.0[k])
  {
    Store.Update(s, id, (c: ClassRec) => Merge(c, p))
  }

  /** `delete`: on a miss, none and no change; on a hit, exactly that class
      is spliced out and returned. */
  function Delete(s: seq<Row<ClassRec>>, id: int): (r: (seq<Row<ClassRec>>, Option<Row<ClassRec>>))
    ensures IndexOf(s, id).None? ==> r.0 == s && r.1 == None
    ensures IndexOf(s, id).Some? ==>
              var k := IndexOf(s, id).value;
              r.0 == s[..k] + s[k + 1..] && r.1 == Some(s[k])
  {
    Store.Delete(s, id)
  }

  /** `addStudentToClass`: appends the student to the roster of the first
      class with this id. Returns none, changing nothing, when there is no
      such class or the student is already on its roster. */
  function AddStudent(s: seq<Row<ClassRec>>, classId: int, studentId: int): (r: (seq<Row<ClassRec>>, Option<Row<ClassRec>>))
    ensures |r.0| == |s|
    ensures r.1.None? ==> r.0 == s
    ensures r.1.None? <==> IndexOf(s, classId).None? || studentId in s[IndexOf(s, classId).value].data.studentIds
    ensures r.1.Some? ==>
              var k := IndexOf(s, classId).value;
              && r.1 == Some(r.0[k])
              && r.0[k].Id == classId
              && r.0[k].data == s[k].data.(studentIds := s[k].data.studentIds + [studentId])
              && forall j :: 0 <= j < |s| && j != k ==> r.0[j] == s[j]
  {
    match IndexOf(s, classId)
    case None => (s, None)
    case Some(k) =>
      if studentId in s[k].data.studentIds then (s, None)
      else Store.Update(s, classId, (c: ClassRec) => c.(studentIds := c.studentIds + [studentId]))
  }

  /** `removeStudentFromClass`: drops every occurrence of the student from
      the roster of the first class with this id; none only when there is
      no such class. */
  function RemoveStudent(s: seq<Row<ClassRec>>, classId: int, studentId: int): (r: (seq<Row<ClassRec>>, Option<Row<ClassRec>>))
    ensures |r.0| == |s|
    ensures r.1.None? <==> IndexOf(s, classId).None?
    ensures r.1.None? ==> r.0 == s
    ensures r.1.Some? ==>
              var k := IndexOf(s, classId).value;
              && r.1 == Some(r.0[k])
              && r.0[k].Id == classId
              && r.0[k].data == s[k].data.(studentIds := Without(s[k].data.studentIds, studentId))
              && forall j :: 0 <= j < |s| && j != k ==> r.0[j] == s[j]
  {
    Store.Update(s, classId, (c: ClassRec) => c.(studentIds := Without(c.studentIds, studentId)))
  }

  /** Removing after adding is the same as removing, and when the add
      went through it restores the table exactly. */
  lemma AddThenRemove(s: seq<Row<ClassRec>>, classId: int, studentId: int)
    ensures RemoveStudent(AddStudent(s, classId, studentId).0, classId, studentId).0
            == RemoveStudent(s, classId, studentId).0
    ensures AddStudent(s, classId, studentId).1.Some? ==>
              RemoveStudent(AddStudent(s, classId, studentId).0, classId, studentId).0 == s
  {
    var a := AddStudent(s, classId, studentId);
    match IndexOf(s, classId)
    case None =>
    case Some(k) =>
      Store.IndexOfAgrees(s, a.0, classId);
      var xs := s[k].data.studentIds;
      if a.1.Some? {
        Seqs.FilterAppend(xs, [studentId], (y: int) => y != studentId);
        WithoutAbsent(xs, studentId);
        assert Without(xs + [studentId], studentId) == xs;
      }
  }

  /** Adding and removing keep every roster free of repeats. */
  lemma RosterStaysDistinct(s: seq<Row<ClassRec>>, classId: int, studentId: int)
    requires forall i :: 0 <= i < |s| ==> Distinct(s[i].data.studentIds)
    ensures var t := AddStudent(s, classId, studentId).0;
            forall i :: 0 <= i < |t| ==> Distinct(t[i].data.studentIds)
    ensures var t := RemoveStudent(s, classId, studentId).0;
            forall i :: 0 <= i < |t| ==> Distinct(t[i].data.studentIds)
  {
    match IndexOf(s, classId)
    case None =>
    case Some(k) =>
      WithoutKeepsDistinct(s[k].data.studentIds, studentId);
  }

  /** `getAssignmentsByClass`: the class's assignment list, or empty when
      the class or its list is missing. */
  function GetAssignments(s: seq<Row<ClassRec>>, classId: int): (r: seq<int>)
    ensures IndexOf(s, classId).None? ==> r == []
    ensures IndexOf(s, classId).Some? ==>
              var c := s[IndexOf(s, classId).value].data;
              r == if c.assignments.Some? then c.assignments.value else []
  {
    match Get(s, classId)
    case None => []
    case Some(row) => row.data.assignments.GetOr([])
  }

  /** The list after attaching `x`: created if missing, `x` appended only
      when absent. */
  function Attach(xs: Option<seq<int>>, x: int): (r: seq<int>)
    ensures x in r
    ensures forall y :: y in r <==> y == x || (xs.Some? && y in xs.value)
  {
    var l := xs.GetOr([]);
    if x in l then l else l + [x]
  }

  /** `addAssignmentToClass`: none, changing nothing, when there is no such
      class; otherwise the class's list (created if missing) holds the
      assignment, and the class is returned even when it already did. */
  function AddAssignment(s: seq<Row<ClassRec>>, classId: int, assignmentId: int): (r: (seq<Row<ClassRec>>, Option<Row<ClassRec>>))
    ensures |r.0| == |s|
    ensures r.1.None? <==> IndexOf(s, classId).None?
    ensures r.1.None? ==> r.0 == s
    ensures r.1.Some? ==>
              var k := IndexOf(s, classId).value;
              && r.1 == Some(r.0[k])
              && r.0[k].data == s[k].data.(assignments := Some(Attach(s[k].data.assignments, assignmentId)))
              && forall j :: 0 <= j < |s| && j != k ==> r.0[j] == s[j]
  {
    Store.Update(s, classId, (c: ClassRec) => c.(assignments := Some(Attach(c.assignments, assignmentId))))
  }

  /** `removeAssignmentFromClass`: none, changing nothing, when there is no
      such class or it has no list; otherwise every occurrence is dropped. */
  function RemoveAssignment(s: seq<Row<ClassRec>>, classId: int, assignmentId: int): (r: (seq<Row<ClassRec>>, Option<Row<ClassRec>>))
    ensures |r.0| == |s|
    ensures r.1.None? <==> IndexOf(s, classId).None? || s[IndexOf(s, classId).value].data.assignments.None?
    ensures r.1.None? ==> r.0 == s
    ensures r.1.Some? ==>
              var k := IndexOf(s, classId).value;
              && r.1 == Some(r.0[k])
              && r.0[k].data == s[k].data.(assignments := Some(Without(s[k].data.assignments.value, assignmentId)))
              && forall j :: 0 <= j < |s| && j != k ==> r.0[j] == s[j]
  {
    match IndexOf(s, classId)
    case None => (s, None)
    case Some(k) =>
      if s[k].data.assignments.None? then (s, None)
      else Store.Update(s, classId, (c: ClassRec) => c.(assignments := Some(Without(c.assignments.GetOr([]), assignmentId))))
  }

  /** After attaching, the class lists the assignment; attaching twice is
      attaching once; detaching then leaves it unlisted. */
  lemma AssignmentRoundTrip(s: seq<Row<ClassRec>>, classId: int, assignmentId: int)
    requires IndexOf(s, classId).Some?
    ensures assignmentId in GetAssignments(AddAssignment(s, classId, assignmentId).0, classId)
    ensures AddAssignment(AddAssignment(s, classId, assignmentId).0, classId, assignmentId).0
            == AddAssignment(s, classId, assignmentId).0
    ensures assignmentId !in GetAssignments(
              RemoveAssignment(AddAssignment(s, classId, assignmentId).0, classId, assignmentId).0, classId)
  {
    var k := IndexOf(s, classId).value;
    var t := AddAssignment(s, classId, assignmentId).0;
    Store.IndexOfAgrees(s, t, classId);
    var u := AddAssignment(t, classId, assignmentId).0;
    assert u[k] == t[k];
    assert u == t;
    var v := RemoveAssignment(t, classId, assignmentId).0;
    Store.IndexOfAgrees(t, v, classId);
  }
}

=== FILE: classes_page.dfy ===
/** The classes page: its class form (fields, validator, roster toggles)
    and the way it keeps its own list of classes in step with the class
    table when a class is saved or deleted. */
module ClassesPage {
  import opened Wrappers
  import Seqs
  import Text
  import opened Forms
  import opened Store
  import ClassService
  import LocalList

  /** The form state: four text fields and the chosen roster. */
  datatype ClassForm = ClassForm(
    name: string,
    subject: string,
    period: string,
    room: string,
    studentIds: seq<int>)

  /** The form for a new class. */
  const EmptyForm := ClassForm("", "", "", "", [])

  /** The form for a class being edited: its fields and roster. */
  function FromClass(c: ClassService.ClassRec): (r: ClassForm)
    ensures r.name == c.name && r.subject == c.subject && r.period == c.period && r.room == c.room
    ensures r.studentIds == c.studentIds
  {
    ClassForm(c.name, c.subject, c.period, c.room, c.studentIds)
  }

  /** What an edit sends to `update`: every form field, the class's
      assignment list untouched. */
  function PatchOf(f: ClassForm): ClassService.ClassPatch
  {
    ClassService.ClassPatch(Some(f.name), Some(f.subject), Some(f.period), Some(f.room),
                            Some(f.studentIds), None)
  }

  /** What a new class sends to `create`. */
  function InputOf(f: ClassForm): ClassService.ClassInput
  {
    ClassService.ClassInput(f.name, f.subject, f.period, f.room, Some(f.studentIds), None)
  }

  /** Saving a class's own form back changes nothing, and saving any form
      keeps the class's assignments. */
  lemma EditRoundTrip(c: ClassService.ClassRec, f: ClassForm)
    ensures ClassService.Merge(c, PatchOf(FromClass(c))) == c
    ensures ClassService.Merge(c, PatchOf(f)).assignments == c.assignments
    ensures FromClass(ClassService.Merge(c, PatchOf(f))) == f
  {
  }

  const Checked := {"name", "subject", "period", "room"}

  function Message(f: ClassForm, field: string): Option<string>
  {
    if field == "name" then Required(f.name, "Class name is required")
    else if field == "subject" then Required(f.subject, "Subject is required")
    else if field == "period" then Required(f.period, "Period is required")
    else if field == "room" then Required(f.room, "Room is required")
    else None
  }

  /** `validateForm`: the four text fields must be non-blank; the roster
      may be empty. */
  function Validate(f: ClassForm): (r: Errors)
    ensures r.Keys <= Checked
    ensures "name" in r <==> Text.IsBlank(f.name)
    ensures "subject" in r <==> Text.IsBlank(f.subject)
    ensures "period" in r <==> Text.IsBlank(f.period)
    ensures "room" in r <==> Text.IsBlank(f.room)
    ensures NoErrors(r) <==>
              !Text.IsBlank(f.name) && !Text.IsBlank(f.subject) && !Text.IsBlank(f.period) && !Text.IsBlank(f.room)
  {
    var r := Collect(Checked, (k: string) => Message(f, k));
    assert "name" in Checked && "subject" in Checked && "period" in Checked && "room" in Checked;
    r
  }

  /** The message shown for each flagged field. */
  lemma ValidateMessages(f: ClassForm)
    ensures var r := Validate(f);
            && ("name" in r ==> r["name"] == "Class name is required")
            && ("subject" in r ==> r["subject"] == "Subject is required")
            && ("period" in r ==> r["period"] == "Period is required")
            && ("room" in r ==> r["room"] == "Room is required")
  {
  }

  /** `handleStudentToggle`: a student on the roster is taken off (every
      occurrence), one not on it is added at the end. */
  function Toggle(ids: seq<int>, id: int): (r: seq<int>)
    ensures id in r <==> id !in ids
    ensures forall x :: x != id ==> (x in r <==> x in ids)
    ensures id !in ids ==> r == ids + [id]
  {
    if id in ids then ClassService.Without(ids, id) else ids + [id]
  }

  /** Toggling a student who is not on the roster twice gives the roster
      back exactly. */
  lemma ToggleTwice(ids: seq<int>, id: int)
    ensures id !in ids ==> Toggle(Toggle(ids, id), id) == ids
  {
    if id !in ids {
      ClassService.WithoutAbsent(ids, id);
      Seqs.FilterAppend(ids, [id], (y: int) => y != id);
      assert Seqs.Filter([id], (y: int) => y != id) == [];
    }
  }

  /** Toggling keeps a roster free of repeats. */
  lemma ToggleKeepsDistinct(ids: seq<int>, id: int)
    requires ClassService.Distinct(ids)
    ensures ClassService.Distinct(Toggle(ids, id))
  {
    if id in ids {
      ClassService.WithoutKeepsDistinct(ids, id);
    }
  }

  /** `handleSubmit`. An invalid form changes nothing. A valid one is sent
      to `update` when a class is being edited, and the page replaces that
      class in its list with the record returned; otherwise it goes to
      `create` and the new class is put first in the page's list. The
      result is the page's list and the class table after the call. */
  function Save(local: seq<Row<ClassService.ClassRec>>, s: seq<Row<ClassService.ClassRec>>,
                f: ClassForm, editing: Option<int>): (r: (seq<Row<ClassService.ClassRec>>, seq<Row<ClassService.ClassRec>>))
    requires editing.Some? ==> IndexOf(s, editing.value).Some?
    ensures !NoErrors(Validate(f)) ==> r == (local, s)
    ensures NoErrors(Validate(f)) && editing.None? ==>
              && |r.1| == |s| + 1 && r.1[..|s|] == s
              && |r.0| == |local| + 1 && r.0[1..] == local && r.0[0] == r.1[|s|]
              && FromClass(r.0[0].data) == f
    ensures NoErrors(Validate(f)) && editing.Some? ==>
              var k := IndexOf(s, editing.value).value;
              && |r.1| == |s| && r.1[k].Id == editing.value
              && FromClass(r.1[k].data) == f && r.1[k].data.assignments == s[k].data.assignments
              && (forall i :: 0 <= i < |s| && i != k ==> r.1[i] == s[i])
              && r.0 == LocalList.ReplaceById(local, editing.value, r.1[k])
  {
    if !NoErrors(Validate(f)) then (local, s)
    else
      LocalList.Save(local, s, editing, (c: ClassService.ClassRec) => ClassService.Merge(c, PatchOf(f)),
                     ClassService.ClassRec(f.name, f.subject, f.period, f.room, f.studentIds, None))
  }

  /** The record saved is what the class service's `update` or `create`
      would produce for the form. */
  lemma SaveIsServiceCall(local: seq<Row<ClassService.ClassRec>>, s: seq<Row<ClassService.ClassRec>>,
                          f: ClassForm, editing: Option<int>)
    requires editing.Some? ==> IndexOf(s, editing.value).Some?
    requires NoErrors(Validate(f))
    ensures editing.Some? ==> Save(local, s, f, editing).1 == ClassService.Update(s, editing.value, PatchOf(f)).0
    ensures editing.None? ==> Save(local, s, f, editing).1 == ClassService.Create(s, InputOf(f)).0
  {
  }

  /** Saving keeps the page's list a copy of the class table, and the
      table's ids distinct. */
  lemma SaveMirrors(local: seq<Row<ClassService.ClassRec>>, s: seq<Row<ClassService.ClassRec>>,
                    f: ClassForm, editing: Option<int>)
    requires editing.Some? ==> IndexOf(s, editing.value).Some?
    requires LocalList.Mirrors(local, s) && UniqueIds(s)
    ensures LocalList.Mirrors(Save(local, s, f, editing).0, Save(local, s, f, editing).1)
    ensures UniqueIds(Save(local, s, f, editing).1)
  {
    if NoErrors(Validate(f)) {
      LocalList.SaveMirrors(local, s, editing, (c: ClassService.ClassRec) => ClassService.Merge(c, PatchOf(f)),
                            ClassService.ClassRec(f.name, f.subject, f.period, f.room, f.studentIds, None));
    }
  }

  /** `handleDelete`: when the user confirms, the class is deleted from the
      table and filtered out of the page's list; otherwise nothing
      happens. */
  function Remove(local: seq<Row<ClassService.ClassRec>>, s: seq<Row<ClassService.ClassRec>>,
                  id: int, confirmed: bool): (r: (seq<Row<ClassService.ClassRec>>, seq<Row<ClassService.ClassRec>>))
    ensures !confirmed ==> r == (local, s)
    ensures confirmed ==> r.1 == ClassService.Delete(s, id).0
    ensures confirmed ==> r.0 == LocalList.RemoveById(local, id)
    ensures confirmed ==> forall i :: 0 <= i < |r.0| ==> r.0[i].Id != id
    ensures confirmed && UniqueIds(s) ==> forall i :: 0 <= i < |r.1| ==> r.1[i].Id != id
    ensures UniqueIds(s) ==> LocalList.Mirrors(local, s) ==> LocalList.Mirrors(r.0, r.1)
  {
    if !confirmed then (local, s) else LocalList.Remove(local, s, id)
  }

  /** A text field of the form. */
  datatype Edit =
    | SetName(name: string)
    | SetSubject(subject: string)
    | SetPeriod(period: string)
    | SetRoom(room: string)

  function FieldOf(e: Edit): string
  {
    match e
    case SetName(_) => "name"
    case SetSubject(_) => "subject"
    case SetPeriod(_) => "period"
    case SetRoom(_) => "room"
  }

  function Apply(f: ClassForm, e: Edit): ClassForm
  {
    match e
    case SetName(v) => f.(name := v)
    case SetSubject(v) => f.(subject := v)
    case SetPeriod(v) => f.(period := v)
    case SetRoom(v) => f.(room := v)
  }

  /** `handleChange`: the edited field takes the new value, the roster is
      kept, its error is cleared and no other error changes. */
  function HandleChange(f: ClassForm, errors: Errors, e: Edit): (r: (ClassForm, Errors))
    ensures r.0.studentIds == f.studentIds
    ensures r.1.Keys == errors.Keys
    ensures FieldOf(e) in r.1 ==> r.1[FieldOf(e)] == ""
    ensures forall k :: k in errors && k != FieldOf(e) ==> r.1[k] == errors[k]
    ensures e.SetName? ==> r.0 == f.(name := e.name)
    ensures e.SetSubject? ==> r.0 == f.(subject := e.subject)
    ensures e.SetPeriod? ==> r.0 == f.(period := e.period)
    ensures e.SetRoom? ==> r.0 == f.(room := e.room)
  {
    Forms.HandleChange(f, errors, FieldOf(e), (g: ClassForm) => Apply(g, e))
  }
}

=== FILE: dashboard.dfy ===
/** The dashboard page: today's attendance, the most recent grades, the
    activity feed built from both, and the quick counts. */
module Dashboard {
  import opened Wrappers
  import Seqs
  import Text
  import Sorting
  import opened Store
  import StudentService
  import GradeService
  import AttendanceService

  type StudentRow = Row<StudentService.Student>
  type GradeItem = Row<GradeService.Grade>
  type AttendanceRow = Row<AttendanceService.Attendance>

  /** `todayAttendance`: the records dated today, in list order. */
  function TodayAttendance(attendance: seq<AttendanceRow>, today: string): (r: seq<AttendanceRow>)
    ensures forall i :: 0 <= i < |r| ==> r[i] in attendance && r[i].data.date == today
    ensures forall i :: 0 <= i < |attendance| && attendance[i].data.date == today ==> attendance[i] in r
  {
    Seqs.Filter(attendance, (a: AttendanceRow) => a.data.date == today)
  }

  /** Today's attendance is the attendance service's query by date. */
  lemma TodayIsByDate(attendance: seq<AttendanceRow>, today: string)
    ensures TodayAttendance(attendance, today) == AttendanceService.ByDate(attendance, today)
  {
  }

  /** The grade sort's order: `a` may come before `b` when `a` is no older.
      Dates are `yyyy-MM-dd` keys, whose string order is their date order. */
  function NewerFirst(): (GradeItem, GradeItem) -> bool
  {
    (a: GradeItem, b: GradeItem) => !Text.Less(a.data.date, b.data.date)
  }

  lemma NewerFirstIsOrder()
    ensures Sorting.Total(NewerFirst())
    ensures Sorting.Transitive(NewerFirst())
  {
    var le := NewerFirst();
    forall a: GradeItem, b: GradeItem ensures le(a, b) || le(b, a) {
      Text.LessAsymmetric(a.data.date, b.data.date);
    }
    forall a: GradeItem, b: GradeItem, c: GradeItem | le(a, b) && le(b, c) ensures le(a, c) {
      if Text.Less(a.data.date, c.data.date) && a.data.date != b.data.date {
        Text.LessTotal(a.data.date, b.data.date);
        if Text.Less(b.data.date, a.data.date) {
          Text.LessTransitive(b.data.date, a.data.date, c.data.date);
        }
      }
    }
  }

  /** The grades ordered newest first. */
  function ByRecency(grades: seq<GradeItem>): (r: seq<GradeItem>)
    ensures multiset(r) == multiset(grades)
    ensures forall i, j :: 0 <= i < j < |r| ==> !Text.Less(r[i].data.date, r[j].data.date)
  {
    NewerFirstIsOrder();
    Sorting.Sort(grades, NewerFirst())
  }

  /** `recentGrades`: the first five grades newest first (fewer when there
      are fewer), each a grade of the list. */
  function RecentGrades(grades: seq<GradeItem>): (r: seq<GradeItem>)
    ensures |r| == if |grades| < 5 then |grades| else 5
    ensures multiset(r) <= multiset(grades)
    ensures forall i, j :: 0 <= i < j < |r| ==> !Text.Less(r[i].data.date, r[j].data.date)
  {
    var sorted := ByRecency(grades);
    var r := Seqs.Take(sorted, 5);
    assert sorted == r + sorted[|r|..];
    r
  }

  /** No grade left out of the recent ones is newer than any grade taken. */
  lemma RecentAreNewest(grades: seq<GradeItem>, x: GradeItem)
    requires x in grades && x !in RecentGrades(grades)
    ensures forall i :: 0 <= i < |RecentGrades(grades)| ==> !Text.Less(RecentGrades(grades)[i].data.date, x.data.date)
  {
    var sorted := ByRecency(grades);
    var r := RecentGrades(grades);
    assert x in multiset(sorted);
    var j :| 0 <= j < |sorted| && sorted[j] == x;
    assert r == sorted[..|r|];
    assert j >= |r|;
    forall i | 0 <= i < |r| ensures !Text.Less(r[i].data.date, x.data.date) {
      assert r[i] == sorted[i];
    }
  }

  /** The name an activity shows: "first last" of the first student with
      the id; with no such student each part reads "undefined". */
  function StudentLabel(students: seq<StudentRow>, studentId: int): (r: string)
    ensures StudentService.GetById(students, studentId).None? ==> r == "undefined undefined"
    ensures StudentService.GetById(students, studentId).Some? ==>
              var st := StudentService.GetById(students, studentId).value.data;
              r == st.firstName + " " + st.lastName
  {
    Seqs.FirstIndexAgrees(students, (st: StudentRow) => st.Id == studentId,
                          students, (x: StudentRow) => x.Id == studentId);
    match Seqs.Find(students, (st: StudentRow) => st.Id == studentId)
    case None => "undefined undefined"
    case Some(st) => st.data.firstName + " " + st.data.lastName
  }

  /** One line of the activity feed: a student marked today, or a grade
      recorded. */
  datatype Activity =
    | Marked(attendanceId: int, who: string, status: string)
    | Graded(gradeId: int, who: string, assignmentName: string, score: real, maxScore: real, date: string)

  function MarkedOf(students: seq<StudentRow>, a: AttendanceRow): Activity
  {
    Marked(a.Id, StudentLabel(students, a.data.studentId), a.data.status)
  }

  function GradedOf(students: seq<StudentRow>, g: GradeItem): Activity
  {
    Graded(g.Id, StudentLabel(students, g.data.studentId), g.data.assignmentName,
           g.data.score, g.data.maxScore, g.data.date)
  }

  /** The activity feed: today's attendance, then the recent grades, cut
      to eight entries. */
  function Activities(students: seq<StudentRow>, today: seq<AttendanceRow>, recent: seq<GradeItem>): (r: seq<Activity>)
    ensures |r| == if |today| + |recent| < 8 then |today| + |recent| else 8
    ensures forall i :: 0 <= i < |r| && i < |today| ==> r[i] == MarkedOf(students, today[i])
    ensures forall i :: |today| <= i < |r| ==> r[i] == GradedOf(students, recent[i - |today|])
  {
    var marked := seq(|today|, i requires 0 <= i < |today| => MarkedOf(students, today[i]));
    var graded := seq(|recent|, i requires 0 <= i < |recent| => GradedOf(students, recent[i]));
    Seqs.Take(marked + graded, 8)
  }

  /** Every attendance entry of the feed comes before every grade entry. */
  lemma MarkedBeforeGraded(students: seq<StudentRow>, today: seq<AttendanceRow>, recent: seq<GradeItem>)
    ensures var r := Activities(students, today, recent);
            forall i, j :: 0 <= i < j < |r| && r[j].Marked? ==> r[i].Marked?
  {
  }

  /** The quick counts shown beside the feed; the upcoming-task count is
      the constant 3. */
  datatype QuickStats = QuickStats(todayAttendance: nat, recentGrades: nat, upcomingTasks: nat)

  /** `loadRecentActivity`: the feed and the quick counts. */
  function Load(students: seq<StudentRow>, grades: seq<GradeItem>, attendance: seq<AttendanceRow>, today: string)
    : (r: (seq<Activity>, QuickStats))
    ensures r.1.todayAttendance == |AttendanceService.ByDate(attendance, today)|
    ensures r.1.recentGrades == if |grades| < 5 then |grades| else 5
    ensures r.1.upcomingTasks == 3
    ensures r.0 == Activities(students, AttendanceService.ByDate(attendance, today), RecentGrades(grades))
    ensures |r.0| == if r.1.todayAttendance + r.1.recentGrades < 8 then r.1.todayAttendance + r.1.recentGrades else 8
  {
    var todays := TodayAttendance(attendance, today);
    var recent := RecentGrades(grades);
    (Activities(students, todays, recent), QuickStats(|todays|, |recent|, 3))
  }
}

=== FILE: dashboard_stats.dfy ===
/** The statistics cards on the dashboard: how many students and classes
    there are, the average of the students' GPAs, and the share of all
    attendance records that say "Present". */
module DashboardStats {
  import Seqs
  import opened Store
  import StudentService
  import ClassService
  import GradeService
  import AttendanceService

  type StudentRow = Row<StudentService.Student>
  type GradeItem = Row<GradeService.Grade>
  type AttendanceRow = Row<AttendanceService.Attendance>

  /** What the cards show, before the display rounding. */
  datatype Stats = Stats(totalStudents: nat, totalClasses: nat, averageGpa: real, attendanceRate: real)

  /** The GPA is defined for every student listed: none of their grades
      has a zero maximum. */
  predicate AllScaled(students: seq<StudentRow>, grades: seq<GradeItem>)
  {
    forall i :: 0 <= i < |students| ==> GradeService.StudentScaled(grades, students[i].Id)
  }

  /** `calculateStudentGPA` for each student, in list order. */
  function Gpas(students: seq<StudentRow>, grades: seq<GradeItem>): (r: seq<real>)
    requires AllScaled(students, grades)
    ensures |r| == |students|
    ensures forall i :: 0 <= i < |students| ==> r[i] == GradeService.Gpa(grades, students[i].Id)
  {
    seq(|students|, i requires 0 <= i < |students| && AllScaled(students, grades) =>
      GradeService.Gpa(grades, students[i].Id))
  }

  /** The average GPA: the mean of the students' GPAs, 0 with no students.
      When every grade lies within its maximum, it lies in [0, 100]. */
  function AverageGpa(students: seq<StudentRow>, grades: seq<GradeItem>): (r: real)
    requires AllScaled(students, grades)
    ensures |students| == 0 ==> r == 0.0
    ensures |students| > 0 ==> Seqs.Averages(r, Gpas(students, grades))
    ensures GradeService.InRange(grades) ==> 0.0 <= r <= 100.0
  {
    var gpas := Gpas(students, grades);
    if GradeService.InRange(grades) then
      assert forall i :: 0 <= i < |gpas| ==> 0.0 <= gpas[i] <= 100.0 by {
        forall i | 0 <= i < |students| ensures 0.0 <= gpas[i] <= 100.0 {
          var mine := GradeService.ByStudent(grades, students[i].Id);
          assert GradeService.InRange(mine) by {
            forall j | 0 <= j < |mine| ensures mine[j] in grades {}
          }
        }
      }
      Seqs.MeanBounds(gpas, 0.0, 100.0);
      Seqs.Mean(gpas)
    else
      Seqs.Mean(gpas)
  }

  /** When every student has the same GPA, that is the average. */
  lemma AverageOfEqual(students: seq<StudentRow>, grades: seq<GradeItem>, g: real)
    requires AllScaled(students, grades)
    requires |students| > 0
    requires forall i :: 0 <= i < |students| ==> GradeService.Gpa(grades, students[i].Id) == g
    ensures AverageGpa(students, grades) == g
  {
    Seqs.MeanBounds(Gpas(students, grades), g, g);
  }

  /** The attendance card: the share of all records whose status is
      exactly "Present", as a percentage; 100 when there are no records. */
  function OverallRate(attendance: seq<AttendanceRow>): (r: real)
    ensures |attendance| == 0 ==> r == 100.0
    ensures |attendance| > 0 ==>
              AttendanceService.PercentOf(r, |Seqs.Filter(attendance, AttendanceService.IsPresent)|, |attendance|)
    ensures 0.0 <= r <= 100.0
    ensures r == 100.0 <==> forall i :: 0 <= i < |attendance| ==> AttendanceService.IsPresent(attendance[i])
  {
    Seqs.FilterFullIff(attendance, AttendanceService.IsPresent);
    if |attendance| == 0 then 100.0
    else
      AttendanceService.Share(|Seqs.Filter(attendance, AttendanceService.IsPresent)|, |attendance|)
  }

  /** When all the records belong to one student, the dashboard's rate is
      that student's attendance rate from the attendance service. */
  lemma OverallIsStudentRate(attendance: seq<AttendanceRow>, studentId: int)
    requires forall i :: 0 <= i < |attendance| ==> attendance[i].data.studentId == studentId
    ensures OverallRate(attendance) == AttendanceService.Rate(attendance, studentId)
  {
    Seqs.FilterFullIff(attendance, (a: AttendanceRow) => a.data.studentId == studentId);
  }

  /** `loadStats`: the counts of the fetched lists and the two averages. */
  function Load(students: seq<StudentRow>, classes: seq<Row<ClassService.ClassRec>>,
                grades: seq<GradeItem>, attendance: seq<AttendanceRow>): (r: Stats)
    requires AllScaled(students, grades)
    ensures r.totalStudents == |students| && r.totalClasses == |classes|
    ensures r.averageGpa == AverageGpa(students, grades) && r.attendanceRate == OverallRate(attendance)
    ensures |students| == 0 ==> r.averageGpa == 0.0
    ensures GradeService.InRange(grades) ==> 0.0 <= r.averageGpa <= 100.0
    ensures 0.0 <= r.attendanceRate <= 100.0
    ensures |attendance| == 0 ==> r.attendanceRate == 100.0
  {
    Stats(|students|, |classes|, AverageGpa(students, grades), OverallRate(attendance))
  }
}

=== FILE: forms.dfy ===
/** What the form components share: the error object keyed by field name,
    the "clear the edited field's error" rule, the `!value.trim()` blank
    test, and the value of a number input. */
module Forms {
  import Text
  import opened Wrappers

  /** A validation result: field name to message. A field is flagged when
      its key is present; an empty message shows nothing. */
  type Errors = map<string, string>

  /** `Object.keys(newErrors).length === 0`. */
  predicate NoErrors(e: Errors)
  {
    |e| == 0
  }

  /** `!value.trim()`. */
  predicate Blank(s: string)
  {
    Text.Trim(s) == ""
  }

  /** The blank test is "nothing but whitespace". */
  lemma BlankIffWhitespace(s: string)
    ensures Blank(s) <==> Text.IsBlank(s)
  {
    Text.TrimEmptyIffBlank(s);
  }

  /** The error object a validator leaves behind: every checked field whose
      message is set, with that message. A validator assigns each field's
      entry in turn, a later assignment replacing an earlier one, so `msg`
      gives the last message assigned to the field, or none. */
  function Collect(fields: set<string>, msg: string -> Option<string>): (r: Errors)
    ensures forall k :: k in r <==> k in fields && msg(k).Some?
    ensures forall k :: k in r ==> r[k] == msg(k).value
    ensures NoErrors(r) <==> forall k :: k in fields ==> msg(k).None?
  {
    var r := map k | k in fields && msg(k).Some? :: msg(k).value;
    assert forall k :: k in r ==> |r| > 0 by {
      forall k | k in r ensures |r| > 0 {
        assert k in r.Keys;
      }
    }
    r
  }

  /** `if (!value.trim()) newErrors[key] = msg`, the test written as
      "only whitespace" (see `BlankIffWhitespace`). */
  function Required(value: string, msg: string): (r: Option<string>)
    ensures r.Some? <==> Text.IsBlank(value)
    ensures r.Some? ==> r.value == msg
  {
    if Text.IsBlank(value) then Some(msg) else None
  }

  /** `if (errors[field]) setErrors(prev => ({ ...prev, [field]: "" }))`:
      the edited field's message is blanked when it shows one; every other
      entry, and the set of keys, stays. */
  function ClearOnEdit(e: Errors, field: string): (r: Errors)
    ensures r.Keys == e.Keys
    ensures field in r ==> r[field] == ""
    ensures forall k :: k in e && k != field ==> r[k] == e[k]
  {
    if field in e && e[field] != "" then e[field := ""] else e
  }

  /** Clearing twice is clearing once, and clearing one field leaves the
      message of every other field as it was. */
  lemma ClearOnEditIdempotent(e: Errors, f: string, g: string)
    ensures ClearOnEdit(ClearOnEdit(e, f), f) == ClearOnEdit(e, f)
    ensures f != g ==> ClearOnEdit(ClearOnEdit(e, f), g) == ClearOnEdit(ClearOnEdit(e, g), f)
  {
  }

  /** `handleChange(field)`: the form takes the new value (`update`) and
      the field's error is cleared, the other errors kept. */
  function HandleChange<F>(form: F, errors: Errors, field: string, update: F -> F): (r: (F, Errors))
    ensures r.0 == update(form)
    ensures r.1.Keys == errors.Keys
    ensures field in r.1 ==> r.1[field] == ""
    ensures forall k :: k in errors && k != field ==> r.1[k] == errors[k]
  {
    (update(form), ClearOnEdit(errors, field))
  }

  /** The value of an `<input type="number">` as the validators see it:
      empty, a number, or text that is not a number (`isNaN` holds). The
      model takes `Number(text)` and `parseFloat(text)` to agree. */
  datatype NumText = Empty | Num(value: real) | NaN
}

=== FILE: grade_badge.dfy ===
/** The grade badge: the percentage of a score, its letter grade and the
    colour variant of the badge. */
module GradeBadge {
  import GradeService

  datatype Letter = APlus | A | AMinus | BPlus | B | BMinus | CPlus | C | CMinus | DPlus | D | F

  datatype Variant = Success | Primary | Warning | Error

  /** The label the badge prints. */
  function Label(l: Letter): string
  {
    match l
    case APlus => "A+"   case A => "A"   case AMinus => "A-"
    case BPlus => "B+"   case B => "B"   case BMinus => "B-"
    case CPlus => "C+"   case C => "C"   case CMinus => "C-"
    case DPlus => "D+"   case D => "D"   case F => "F"
  }

  /** The order of the letters, F lowest. */
  function Rank(l: Letter): nat
  {
    match l
    case F => 0      case D => 1      case DPlus => 2
    case CMinus => 3 case C => 4      case CPlus => 5
    case BMinus => 6 case B => 7      case BPlus => 8
    case AMinus => 9 case A => 10     case APlus => 11
  }

  /** The lowest percentage that earns each letter (F has none; 0 stands
      in for it). */
  function Cutoff(l: Letter): real
  {
    match l
    case APlus => 97.0  case A => 93.0      case AMinus => 90.0
    case BPlus => 87.0  case B => 83.0      case BMinus => 80.0
    case CPlus => 77.0  case C => 73.0      case CMinus => 70.0
    case DPlus => 67.0  case D => 65.0      case F => 0.0
  }

  /** `getLetterGrade`: the first cutoff, from the top, that the percentage
      reaches; below 65 is F. The contract is the reference meaning: the
      letter's cutoff is reached and no higher letter's is. */
  function LetterGrade(percentage: real): (r: Letter)
    ensures r != F ==> Cutoff(r) <= percentage
    ensures r == F <==> percentage < 65.0
    ensures forall l :: Rank(l) > Rank(r) ==> percentage < Cutoff(l)
  {
    if percentage >= 97.0 then APlus
    else if percentage >= 93.0 then A
    else if percentage >= 90.0 then AMinus
    else if percentage >= 87.0 then BPlus
    else if percentage >= 83.0 then B
    else if percentage >= 80.0 then BMinus
    else if percentage >= 77.0 then CPlus
    else if percentage >= 73.0 then C
    else if percentage >= 70.0 then CMinus
    else if percentage >= 67.0 then DPlus
    else if percentage >= 65.0 then D
    else F
  }

  /** Cutoffs rise with the letters. */
  lemma CutoffMonotone(l: Letter, m: Letter)
    requires m != F
    requires Rank(l) < Rank(m)
    ensures Cutoff(l) < Cutoff(m)
  {
  }

  /** A higher percentage never earns a lower letter. */
  lemma LetterGradeMonotone(p: real, q: real)
    requires p <= q
    ensures Rank(LetterGrade(p)) <= Rank(LetterGrade(q))
  {
    var lp := LetterGrade(p);
    if lp != F {
      assert Cutoff(lp) <= q;
    }
  }

  /** `getVariant`: success from 90, primary from 80, warning from 70,
      otherwise error. */
  function VariantOf(percentage: real): (r: Variant)
    ensures r == Success <==> percentage >= 90.0
    ensures r == Error <==> percentage < 70.0
    ensures r == Primary <==> 80.0 <= percentage < 90.0
  {
    if percentage >= 90.0 then Success
    else if percentage >= 80.0 then Primary
    else if percentage >= 70.0 then Warning
    else Error
  }

  /** The colour follows the letter's band: success exactly for the A
      band, primary for B, warning for C, error for D and F. */
  lemma VariantMatchesBand(percentage: real)
    ensures VariantOf(percentage) == Success <==> LetterGrade(percentage) in {APlus, A, AMinus}
    ensures VariantOf(percentage) == Primary <==> LetterGrade(percentage) in {BPlus, B, BMinus}
    ensures VariantOf(percentage) == Warning <==> LetterGrade(percentage) in {CPlus, C, CMinus}
    ensures VariantOf(percentage) == Error <==> LetterGrade(percentage) in {DPlus, D, F}
  {
  }

  /** What the badge shows for a score: the letter and the variant of
      `score / maxScore * 100`. */
  function Badge(score: real, maxScore: real): (r: (Letter, Variant))
    requires maxScore != 0.0
    ensures r == (LetterGrade(GradeService.Percentage(score, maxScore)),
                  VariantOf(GradeService.Percentage(score, maxScore)))
    ensures r.1 == Success <==> r.0 in {APlus, A, AMinus}
    ensures maxScore > 0.0 && score == maxScore ==> r == (APlus, Success)
    ensures maxScore > 0.0 && 0.0 <= score < 0.65 * maxScore ==> r == (F, Error)
  {
    var p := GradeService.Percentage(score, maxScore);
    VariantMatchesBand(p);
    assert maxScore > 0.0 ==> p * maxScore == score * 100.0;
    assert maxScore > 0.0 && score < 0.65 * maxScore ==> p < 65.0 by {
      if maxScore > 0.0 && score < 0.65 * maxScore {
        PercentageBelow(score, maxScore, 65.0);
      }
    }
    (LetterGrade(p), VariantOf(p))
  }

  /** A score below a fraction of a positive maximum has a percentage below
      that fraction times 100. */
  lemma PercentageBelow(score: real, maxScore: real, cut: real)
    requires maxScore > 0.0 && score * 100.0 < cut * maxScore
    ensures GradeService.Percentage(score, maxScore) < cut
  {
    var q := score / maxScore;
    assert q * maxScore == score;
    assert q * 100.0 * maxScore < cut * maxScore;
  }
}

=== FILE: grade_entry_form.dfy ===
/** The grade entry form: its fields, the validator, the coercion done on
    submit, and the form filled in from an existing grade. */
module GradeEntryForm {
  import opened Wrappers
  import Text
  import opened Forms
  import GradeService

  /** The form state. The two selects hold an id or nothing; the score
      fields are number inputs. */
  datatype GradeForm = GradeForm(
    studentId: Option<int>,
    classId: Option<int>,
    assignmentName: string,
    score: NumText,
    maxScore: NumText,
    category: string)

  /** The empty form: max score 100, category "Assignment". */
  const Initial := GradeForm(None, None, "", Empty, Num(100.0), "Assignment")

  /** `parseFloat(score) > parseFloat(maxScore)`: false unless both are
      numbers. */
  predicate Exceeds(f: GradeForm)
  {
    f.score.Num? && f.maxScore.Num? && f.score.value > f.maxScore.value
  }

  /** What an accepted form satisfies. */
  predicate Acceptable(f: GradeForm)
  {
    && f.studentId.Some? && f.classId.Some?
    && !Text.IsBlank(f.assignmentName)
    && f.score.Num? && f.maxScore.Num?
    && 0.0 <= f.score.value <= f.maxScore.value
    && f.maxScore.value > 0.0
  }

  /** The fields `validateForm` checks. */
  const Checked := {"studentId", "classId", "assignmentName", "score", "maxScore"}

  /** The message `validateForm` leaves for each field. The score check
      runs twice: first presence and sign, then, last, the comparison with
      the max score, whose message replaces the first. */
  function Message(f: GradeForm, field: string): Option<string>
  {
    if field == "studentId" then
      if f.studentId.None? then Some("Please select a student") else None
    else if field == "classId" then
      if f.classId.None? then Some("Please select a class") else None
    else if field == "assignmentName" then
      Required(f.assignmentName, "Assignment name is required")
    else if field == "score" then
      if Exceeds(f) then Some("Score cannot exceed max score")
      else if f.score.Empty? then Some("Score is required")
      else if f.score.NaN? || f.score.value < 0.0 then Some("Score must be a valid number")
      else None
    else if field == "maxScore" then
      if f.maxScore.Empty? then Some("Max score is required")
      else if f.maxScore.NaN? || f.maxScore.value <= 0.0 then Some("Max score must be a positive number")
      else None
    else None
  }

  /** `validateForm`. Each field has its own message; a score above the
      max score replaces whatever the score check said. */
  function Validate(f: GradeForm): (r: Errors)
    ensures r.Keys <= Checked
    ensures "studentId" in r <==> f.studentId.None?
    ensures "classId" in r <==> f.classId.None?
    ensures "assignmentName" in r <==> Text.IsBlank(f.assignmentName)
    ensures "score" in r <==> !(f.score.Num? && f.score.value >= 0.0) || Exceeds(f)
    ensures "score" in r ==> r["score"] == if Exceeds(f) then "Score cannot exceed max score"
                                          else if f.score.Empty? then "Score is required"
                                          else "Score must be a valid number"
    ensures "maxScore" in r <==> !(f.maxScore.Num? && f.maxScore.value > 0.0)
    ensures "maxScore" in r ==> r["maxScore"] == if f.maxScore.Empty? then "Max score is required"
                                                else "Max score must be a positive number"
    ensures "studentId" in r ==> r["studentId"] == "Please select a student"
    ensures "classId" in r ==> r["classId"] == "Please select a class"
    ensures "assignmentName" in r ==> r["assignmentName"] == "Assignment name is required"
    ensures NoErrors(r) <==> Acceptable(f)
  {
    var r := Collect(Checked, (k: string) => Message(f, k));
    assert "studentId" in Checked && "classId" in Checked && "assignmentName" in Checked;
    assert "score" in Checked && "maxScore" in Checked;
    r
  }

  /** `handleSubmit`: when the form validates, the grade handed to the
      page, ids and scores as numbers; otherwise nothing is submitted. */
  function Submit(f: GradeForm): (r: Option<GradeService.GradeInput>)
    ensures r.Some? <==> NoErrors(Validate(f))
    ensures r.Some? ==>
              && r.value.studentId == f.studentId.value && r.value.classId == f.classId.value
              && r.value.assignmentName == f.assignmentName && r.value.category == f.category
              && r.value.score == f.score.value && r.value.maxScore == f.maxScore.value
              && r.value.date.None?
    ensures r.Some? ==> 0.0 <= r.value.score <= r.value.maxScore && r.value.maxScore > 0.0
    ensures r.Some? ==> 0.0 <= GradeService.Percentage(r.value.score, r.value.maxScore) <= 100.0
  {
    if NoErrors(Validate(f)) then
      Some(GradeService.GradeInput(f.studentId.value, f.classId.value, f.assignmentName, f.category,
                                   f.score.value, f.maxScore.value, None))
    else None
  }

  /** The form filled in from a grade being edited; an empty category
      falls back to "Assignment". */
  function FromGrade(g: GradeService.Grade): (r: GradeForm)
    ensures r.studentId == Some(g.studentId) && r.classId == Some(g.classId)
    ensures r.score == Num(g.score) && r.maxScore == Num(g.maxScore)
    ensures r.assignmentName == g.assignmentName
    ensures g.category != "" ==> r.category == g.category
    ensures g.category == "" ==> r.category == "Assignment"
    ensures r.category != ""
  {
    GradeForm(Some(g.studentId), Some(g.classId), g.assignmentName, Num(g.score), Num(g.maxScore),
              if g.category == "" then "Assignment" else g.category)
  }

  /** Opening a valid grade for editing and submitting it unchanged hands
      back the same grade (without its date, which the form does not
      carry). */
  lemma EditRoundTrip(g: GradeService.Grade)
    requires !Text.IsBlank(g.assignmentName) && g.category != ""
    requires 0.0 <= g.score <= g.maxScore && g.maxScore > 0.0
    ensures Submit(FromGrade(g)) ==
            Some(GradeService.GradeInput(g.studentId, g.classId, g.assignmentName, g.category,
                                         g.score, g.maxScore, None))
  {
  }

  /** The empty form is rejected for the missing selections, name and
      score, and only for those. */
  lemma InitialRejected()
    ensures Validate(Initial).Keys == {"studentId", "classId", "assignmentName", "score"}
  {
    assert Text.IsBlank(Initial.assignmentName);
    var r := Validate(Initial);
    assert "maxScore" !in r;
  }

  /** A field the form can be edited through. */
  datatype Edit =
    | SetStudent(studentId: Option<int>)
    | SetClass(classId: Option<int>)
    | SetAssignmentName(name: string)
    | SetScore(score: NumText)
    | SetMaxScore(maxScore: NumText)
    | SetCategory(category: string)

  /** The error key of the edited field. */
  function FieldOf(e: Edit): string
  {
    match e
    case SetStudent(_) => "studentId"
    case SetClass(_) => "classId"
    case SetAssignmentName(_) => "assignmentName"
    case SetScore(_) => "score"
    case SetMaxScore(_) => "maxScore"
    case SetCategory(_) => "category"
  }

  function Apply(f: GradeForm, e: Edit): GradeForm
  {
    match e
    case SetStudent(v) => f.(studentId := v)
    case SetClass(v) => f.(classId := v)
    case SetAssignmentName(v) => f.(assignmentName := v)
    case SetScore(v) => f.(score := v)
    case SetMaxScore(v) => f.(maxScore := v)
    case SetCategory(v) => f.(category := v)
  }

  /** `handleChange`: the edited field takes the new value, its error is
      cleared, and no other error changes. */
  function HandleChange(f: GradeForm, errors: Errors, e: Edit): (r: (GradeForm, Errors))
    ensures r.1.Keys == errors.Keys
    ensures FieldOf(e) in r.1 ==> r.1[FieldOf(e)] == ""
    ensures forall k :: k in errors && k != FieldOf(e) ==> r.1[k] == errors[k]
    ensures e.SetStudent? ==> r.0 == f.(studentId := e.studentId)
    ensures e.SetClass? ==> r.0 == f.(classId := e.classId)
    ensures e.SetAssignmentName? ==> r.0 == f.(assignmentName := e.name)
    ensures e.SetScore? ==> r.0 == f.(score := e.score)
    ensures e.SetMaxScore? ==> r.0 == f.(maxScore := e.maxScore)
    ensures e.SetCategory? ==> r.0 == f.(category := e.category)
  {
    Forms.HandleChange(f, errors, FieldOf(e), (g: GradeForm) => Apply(g, e))
  }
}

=== FILE: grade_service.dfy ===
/** The grade table (`gradeService`): foreign-key filters, create with a
    date default, update, delete and the mean-percentage GPA. */
module GradeService {
  import opened Wrappers
  import Seqs
  import opened Store

  datatype Grade = Grade(
    studentId: int,
    classId: int,
    assignmentName: string,
    category: string,
    score: real,
    maxScore: real,
    date: string)

  /** What a caller hands to `create`; `date` may be left out. */
  datatype GradeInput = GradeInput(
    studentId: int,
    classId: int,
    assignmentName: string,
    category: string,
    score: real,
    maxScore: real,
    date: Option<string>)

  datatype GradePatch = GradePatch(
    studentId: Option<int>,
    classId: Option<int>,
    assignmentName: Option<string>,
    category: Option<string>,
    score: Option<real>,
    maxScore: Option<real>,
    date: Option<string>)

  function Merge(g: Grade, p: GradePatch): Grade
  {
    Grade(
      p.studentId.GetOr(g.studentId),
      p.classId.GetOr(g.classId),
      p.assignmentName.GetOr(g.assignmentName),
      p.category.GetOr(g.category),
      p.score.GetOr(g.score),
      p.maxScore.GetOr(g.maxScore),
      p.date.GetOr(g.date))
  }

  /** `r` is `score` as a percentage of `maxScore`. */
  predicate PercentOf(r: real, score: real, maxScore: real)
  {
    r * maxScore == score * 100.0
  }

  /** `score / maxScore * 100`; JavaScript yields a non-finite number for a
      zero `maxScore`, which has no real counterpart. */
  function Percentage(score: real, maxScore: real): (r: real)
    requires maxScore != 0.0
    ensures PercentOf(r, score, maxScore)
    ensures 0.0 <= score <= maxScore ==> 0.0 <= r <= 100.0
    ensures maxScore > 0.0 ==> (r == 100.0 <==> score == maxScore)
  {
    score / maxScore * 100.0
  }

  /** `getByStudentId`: the grades of one student, in table order. */
  function ByStudent(s: seq<Row<Grade>>, studentId: int): (r: seq<Row<Grade>>)
    ensures forall i :: 0 <= i < |r| ==> r[i] in s && r[i].data.studentId == studentId
    ensures forall i :: 0 <= i < |s| && s[i].data.studentId == studentId ==> s[i] in r
  {
    Seqs.Filter(s, (g: Row<Grade>) => g.data.studentId == studentId)
  }

  /** `getByClassId`: the grades of one class, in table order. */
  function ByClass(s: seq<Row<Grade>>, classId: int): (r: seq<Row<Grade>>)
    ensures forall i :: 0 <= i < |r| ==> r[i] in s && r[i].data.classId == classId
    ensures forall i :: 0 <= i < |s| && s[i].data.classId == classId ==> s[i] in r
  {
    Seqs.Filter(s, (g: Row<Grade>) => g.data.classId == classId)
  }

  /** The stored date: the supplied one unless it is missing or empty
      (`gradeData.date || today`). */
  function DateOrToday(date: Option<string>, today: string): (r: string)
    ensures date.Some? && date.value != "" ==> r == date.value
    ensures date.None? || date.value == "" ==> r == today
  {
    if date.Some? && date.value != "" then date.value else today
  }

  /** `create`: a fresh id, the caller's fields, and the supplied date or
      today's; appended at the end. */
  function Create(s: seq<Row<Grade>>, input: GradeInput, today: string): (r: (seq<Row<Grade>>, Row<Grade>))
    ensures r.0 == s + [r.1]
    ensures r.1.Id >= 1 && forall i :: 0 <= i < |s| ==> s[i].Id < r.1.Id
    ensures r.1.data.date == if input.date.Some? && input.date.value != "" then input.date.value else today
    ensures && r.1.data.studentId == input.studentId && r.1.data.classId == input.classId
            && r.1.data.score == input.score && r.1.data.maxScore == input.maxScore
            && r.1.data.assignmentName == input.assignmentName && r.1.data.category == input.category
  {
    Store.Insert(s, Grade(input.studentId, input.classId, input.assignmentName, input.category,
                          input.score, input.maxScore, DateOrToday(input.date, today)))
  }

  /** `update`: on a miss, none and no change; on a hit, only the first
      grade with this id changes, by merging the patch. */
  function Update(s: seq<Row<Grade>>, id: int, p: GradePatch): (r: (seq<Row<Grade>>, Option<Row<Grade>>))
    ensures IndexOf(s, id).None? ==> r.0 == s && r.1 == None
    ensures IndexOf(s, id).Some? ==>
              var k := IndexOf(s, id).value;
              && r.0 == s[k := Row(id, Merge(s[k].data, p))]
              && r.1 == Some(r.0[k])
  {
    Store.Update(s, id, (g: Grade) => Merge(g, p))
  }

  /** `delete`: on a miss, none and no change; on a hit, exactly that grade
      is spliced out and returned. */
  function Delete(s: seq<Row<Grade>>, id: int): (r: (seq<Row<Grade>>, Option<Row<Grade>>))
    ensures IndexOf(s, id).None? ==> r.0 == s && r.1 == None
    ensures IndexOf(s, id).Some? ==>
              var k := IndexOf(s, id).value;
              r.0 == s[..k] + s[k + 1..] && r.1 == Some(s[k])
  {
    Store.Delete(s, id)
  }

  /** Every grade of the sequence has a non-zero maximum. */
  predicate Scaled(gs: seq<Row<Grade>>)
  {
    forall i :: 0 <= i < |gs| ==> gs[i].data.maxScore != 0.0
  }

  /** Every grade of the sequence has `0 <= score <= maxScore`, `maxScore > 0`,
      which is what the grade form admits. */
  predicate InRange(gs: seq<Row<Grade>>)
  {
    forall i :: 0 <= i < |gs| ==> 0.0 <= gs[i].data.score <= gs[i].data.maxScore && gs[i].data.maxScore > 0.0
  }

  /** The percentage of each grade, in order. */
  function Percentages(gs: seq<Row<Grade>>): (r: seq<real>)
    requires Scaled(gs)
    ensures |r| == |gs|
    ensures forall i :: 0 <= i < |gs| ==> r[i] == Percentage(gs[i].data.score, gs[i].data.maxScore)
  {
    seq(|gs|, i requires 0 <= i < |gs| => Percentage(gs[i].data.score, gs[i].data.maxScore))
  }

  /** The precondition of the GPA: the student's grades have a non-zero
      maximum. */
  predicate StudentScaled(s: seq<Row<Grade>>, studentId: int)
  {
    forall i :: 0 <= i < |s| && s[i].data.studentId == studentId ==> s[i].data.maxScore != 0.0
  }

  /** `calculateStudentGPA`: the mean percentage over the student's grades,
      0 when there are none. */
  function Gpa(s: seq<Row<Grade>>, studentId: int): (r: real)
    requires StudentScaled(s, studentId)
    ensures |ByStudent(s, studentId)| == 0 ==> r == 0.0
    ensures InRange(ByStudent(s, studentId)) ==> 0.0 <= r <= 100.0
    ensures |ByStudent(s, studentId)| > 0 ==>
              Seqs.Averages(r, Percentages(ByStudent(s, studentId)))
  {
    var gs := ByStudent(s, studentId);
    var ps := Percentages(gs);
    if InRange(gs) then Seqs.MeanBounds(ps, 0.0, 100.0); Seqs.Mean(ps)
    else Seqs.Mean(ps)
  }

  /** Grades of other students do not move a student's GPA: creating one
      leaves it as it was. */
  lemma GpaIgnoresOthers(s: seq<Row<Grade>>, input: GradeInput, today: string, studentId: int)
    requires StudentScaled(s, studentId)
    requires input.studentId != studentId
    ensures StudentScaled(Create(s, input, today).0, studentId)
    ensures Gpa(Create(s, input, today).0, studentId) == Gpa(s, studentId)
  {
    var t := Create(s, input, today).0;
    assert t[..|t| - 1] == s;
    assert ByStudent(t, studentId) == ByStudent(s, studentId);
  }

  /** Two grades worth 8/10 (80%) and 18/20 (90%) give a GPA of 85. */
  lemma GpaExample()
    ensures Gpa([Row(1, Grade(7, 1, "Quiz", "Quiz", 8.0, 10.0, "2024-01-10")),
                 Row(2, Grade(7, 1, "Test", "Test", 18.0, 20.0, "2024-01-12"))], 7) == 85.0
  {
    var s := [Row(1, Grade(7, 1, "Quiz", "Quiz", 8.0, 10.0, "2024-01-10")),
              Row(2, Grade(7, 1, "Test", "Test", 18.0, 20.0, "2024-01-12"))];
    assert s[..1] == [s[0]];
    assert ByStudent(s, 7) == s;
    var ps := Percentages(s);
    assert ps == [80.0, 90.0];
    SumOfTwo(80.0, 90.0);
  }

  lemma SumOfTwo(a: real, b: real)
    ensures Seqs.Sum([a, b]) == a + b
  {
    assert [a, b][..1] == [a];
    assert [a][..0] == [];
    assert Seqs.Sum([a]) == Seqs.Sum([]) + a;
    assert Seqs.Sum([a, b]) == Seqs.Sum([a]) + b;
  }
}

=== FILE: grades_page.dfy ===
/** The grades page: the class and student filters over the grade list,
    the names shown for each grade, and saving and deleting grades while
    keeping the page's own list in step with the grade table. */
module GradesPage {
  import opened Wrappers
  import Seqs
  import opened Store
  import GradeService
  import StudentService
  import ClassService
  import LocalList

  type GradeItem = Row<GradeService.Grade>

  /** Whether a grade passes the filters; an unset filter (the select's
      empty value) lets everything through. */
  predicate Shown(g: GradeItem, filterClass: Option<int>, filterStudent: Option<int>)
  {
    && (filterClass.None? || g.data.classId == filterClass.value)
    && (filterStudent.None? || g.data.studentId == filterStudent.value)
  }

  /** `filteredGrades`: the grades passing both filters, in list order. */
  function Filtered(gs: seq<GradeItem>, filterClass: Option<int>, filterStudent: Option<int>): (r: seq<GradeItem>)
    ensures forall i :: 0 <= i < |r| ==> r[i] in gs && Shown(r[i], filterClass, filterStudent)
    ensures forall i :: 0 <= i < |gs| && Shown(gs[i], filterClass, filterStudent) ==> gs[i] in r
    ensures filterClass.None? && filterStudent.None? ==> r == gs
  {
    var p := (g: GradeItem) => Shown(g, filterClass, filterStudent);
    Seqs.FilterFullIff(gs, p);
    Seqs.Filter(gs, p)
  }

  /** The page's filters select exactly what the grade service's queries
      select: by class, by student, and by both one after the other. */
  lemma FilteredIsServiceQuery(gs: seq<GradeItem>, classId: int, studentId: int)
    ensures Filtered(gs, Some(classId), None) == GradeService.ByClass(gs, classId)
    ensures Filtered(gs, None, Some(studentId)) == GradeService.ByStudent(gs, studentId)
    ensures Filtered(gs, Some(classId), Some(studentId)) ==
            GradeService.ByClass(GradeService.ByStudent(gs, studentId), classId)
  {
    var byClass := (g: GradeItem) => g.data.classId == classId;
    var byStudent := (g: GradeItem) => g.data.studentId == studentId;
    var all := (g: GradeItem) => true;
    Seqs.FilterCompose(gs, all, byClass, (g: GradeItem) => Shown(g, Some(classId), None));
    Seqs.FilterCompose(gs, all, byStudent, (g: GradeItem) => Shown(g, None, Some(studentId)));
    Seqs.FilterFullIff(gs, all);
    Seqs.FilterCompose(gs, byStudent, byClass, (g: GradeItem) => Shown(g, Some(classId), Some(studentId)));
  }

  /** `getStudentName`: "first last" of the first student with the id, or
      "Unknown Student". */
  function StudentName(students: seq<Row<StudentService.Student>>, studentId: int): (r: string)
    ensures (forall i :: 0 <= i < |students| ==> students[i].Id != studentId) ==> r == "Unknown Student"
    ensures forall i :: 0 <= i < |students| && students[i].Id == studentId &&
                        (forall j :: 0 <= j < i ==> students[j].Id != studentId) ==>
              r == students[i].data.firstName + " " + students[i].data.lastName
  {
    match Seqs.Find(students, (st: Row<StudentService.Student>) => st.Id == studentId)
    case None => "Unknown Student"
    case Some(st) => st.data.firstName + " " + st.data.lastName
  }

  /** The name shown is that of the student the student service returns
      for the id. */
  lemma StudentNameAgrees(students: seq<Row<StudentService.Student>>, studentId: int)
    ensures StudentService.GetById(students, studentId).None? ==> StudentName(students, studentId) == "Unknown Student"
    ensures StudentService.GetById(students, studentId).Some? ==>
              var st := StudentService.GetById(students, studentId).value.data;
              StudentName(students, studentId) == st.firstName + " " + st.lastName
  {
    var p := (st: Row<StudentService.Student>) => st.Id == studentId;
    Seqs.FirstIndexAgrees(students, p, students, (x: Row<StudentService.Student>) => x.Id == studentId);
  }

  /** `getClassName`: the name of the first class with the id, or
      "Unknown Class". */
  function ClassName(classes: seq<Row<ClassService.ClassRec>>, classId: int): (r: string)
    ensures (forall i :: 0 <= i < |classes| ==> classes[i].Id != classId) ==> r == "Unknown Class"
    ensures forall i :: 0 <= i < |classes| && classes[i].Id == classId &&
                        (forall j :: 0 <= j < i ==> classes[j].Id != classId) ==>
              r == classes[i].data.name
  {
    match Seqs.Find(classes, (c: Row<ClassService.ClassRec>) => c.Id == classId)
    case None => "Unknown Class"
    case Some(c) => c.data.name
  }

  /** The class name shown is that of the class the class service returns
      for the id. */
  lemma ClassNameAgrees(classes: seq<Row<ClassService.ClassRec>>, classId: int)
    ensures ClassService.GetById(classes, classId).None? ==> ClassName(classes, classId) == "Unknown Class"
    ensures ClassService.GetById(classes, classId).Some? ==>
              ClassName(classes, classId) == ClassService.GetById(classes, classId).value.data.name
  {
    var p := (c: Row<ClassService.ClassRec>) => c.Id == classId;
    Seqs.FirstIndexAgrees(classes, p, classes, (x: Row<ClassService.ClassRec>) => x.Id == classId);
  }

  /** What an edit sends to `update`: every field of the form, the stored
      date kept. */
  function PatchOf(input: GradeService.GradeInput): GradeService.GradePatch
  {
    GradeService.GradePatch(Some(input.studentId), Some(input.classId), Some(input.assignmentName),
                            Some(input.category), Some(input.score), Some(input.maxScore), None)
  }

  /** `handleSubmit` for the grade the form hands over: `update` and
      replace when a grade is being edited, otherwise `create` (dated
      today when the form gives no date) and put first. The result is the
      page's list and the grade table after the call. */
  function Save(local: seq<GradeItem>, s: seq<GradeItem>, input: GradeService.GradeInput,
                editing: Option<int>, today: string): (r: (seq<GradeItem>, seq<GradeItem>))
    requires editing.Some? ==> IndexOf(s, editing.value).Some?
    ensures editing.None? ==>
              && r.1 == GradeService.Create(s, input, today).0
              && r.0 == [r.1[|s|]] + local
    ensures editing.Some? ==>
              var k := IndexOf(s, editing.value).value;
              && r.1 == GradeService.Update(s, editing.value, PatchOf(input)).0
              && r.1[k].data.date == s[k].data.date
              && r.1[k].data.score == input.score && r.1[k].data.maxScore == input.maxScore
              && r.1[k].data.studentId == input.studentId && r.1[k].data.classId == input.classId
              && r.1[k].data.assignmentName == input.assignmentName && r.1[k].data.category == input.category
              && r.0 == LocalList.ReplaceById(local, editing.value, r.1[k])
  {
    LocalList.Save(local, s, editing, (g: GradeService.Grade) => GradeService.Merge(g, PatchOf(input)),
                   GradeService.Grade(input.studentId, input.classId, input.assignmentName, input.category,
                                      input.score, input.maxScore, GradeService.DateOrToday(input.date, today)))
  }

  /** Saving keeps the page's list a copy of the grade table. */
  lemma SaveMirrors(local: seq<GradeItem>, s: seq<GradeItem>, input: GradeService.GradeInput,
                    editing: Option<int>, today: string)
    requires editing.Some? ==> IndexOf(s, editing.value).Some?
    requires LocalList.Mirrors(local, s) && UniqueIds(s)
    ensures LocalList.Mirrors(Save(local, s, input, editing, today).0, Save(local, s, input, editing, today).1)
    ensures UniqueIds(Save(local, s, input, editing, today).1)
  {
    LocalList.SaveMirrors(local, s, editing, (g: GradeService.Grade) => GradeService.Merge(g, PatchOf(input)),
                          GradeService.Grade(input.studentId, input.classId, input.assignmentName, input.category,
                                             input.score, input.maxScore, GradeService.DateOrToday(input.date, today)));
  }

  /** `handleDelete`: when the user confirms, the grade leaves the table
      and the page's list; otherwise nothing happens. */
  function Remove(local: seq<GradeItem>, s: seq<GradeItem>, id: int, confirmed: bool): (r: (seq<GradeItem>, seq<GradeItem>))
    ensures !confirmed ==> r == (local, s)
    ensures confirmed ==> r.1 == GradeService.Delete(s, id).0
    ensures confirmed ==> r.0 == LocalList.RemoveById(local, id)
    ensures confirmed ==> forall i :: 0 <= i < |r.0| ==> r.0[i].Id != id
    ensures UniqueIds(s) ==> LocalList.Mirrors(local, s) ==> LocalList.Mirrors(r.0, r.1)
  {
    if !confirmed then (local, s) else LocalList.Remove(local, s, id)
  }
}

=== FILE: local_list.dfy ===
/** The pages keep their own copy of a table in component state and patch
    it after each service call instead of reloading: a created record is
    put first, an updated one replaces the record with its id, a deleted
    one is filtered out. The local list is therefore ordered differently
    from the service's table but holds the same records: a permutation,
    stated here as equal multisets, and kept by all three patches. */
module LocalList {
  import Seqs
  import opened Wrappers
  import opened Store

  /** `prev.filter(x => x.Id !== id)`. */
  function RemoveById<F>(l: seq<Row<F>>, id: int): (r: seq<Row<F>>)
    ensures forall i :: 0 <= i < |r| ==> r[i] in l && r[i].Id != id
    ensures forall i :: 0 <= i < |l| && l[i].Id != id ==> l[i] in r
  {
    Seqs.Filter(l, (x: Row<F>) => x.Id != id)
  }

  /** `prev.map(x => x.Id === id ? row : x)`. */
  function ReplaceById<F>(l: seq<Row<F>>, id: int, row: Row<F>): (r: seq<Row<F>>)
    ensures |r| == |l|
    ensures forall i :: 0 <= i < |l| && l[i].Id != id ==> r[i] == l[i]
    ensures forall i :: 0 <= i < |l| && l[i].Id == id ==> r[i] == row
  {
    seq(|l|, i requires 0 <= i < |l| => if l[i].Id == id then row else l[i])
  }

  /** The local list holds the same records as the table, in any order. */
  ghost predicate Mirrors<F>(l: seq<Row<F>>, s: seq<Row<F>>)
  {
    multiset(l) == multiset(s)
  }

  /** A mirror of a table with distinct ids has distinct ids. */
  lemma MirrorUnique<F>(l: seq<Row<F>>, s: seq<Row<F>>)
    requires Mirrors(l, s)
    requires UniqueIds(s)
    ensures UniqueIds(l)
  {
    forall i, j | 0 <= i < j < |l| ensures l[i].Id != l[j].Id {
      if l[i].Id == l[j].Id {
        assert l[i] in multiset(s) && l[j] in multiset(s);
        var a :| 0 <= a < |s| && s[a] == l[i];
        var b :| 0 <= b < |s| && s[b] == l[j];
        assert a == b;
        Seqs.TwoCopies(l, i, j);
        OneCopy(s, a);
        assert false;
      }
    }
  }

  /** Prepending the created record mirrors the service's append. */
  lemma PrependMirrorsCreate<F>(l: seq<Row<F>>, s: seq<Row<F>>, data: F)
    requires Mirrors(l, s)
    ensures var (t, row) := Insert(s, data); Mirrors([row] + l, t)
  {
  }

  /** Filtering out the deleted id mirrors the service's splice. */
  lemma RemoveMirrorsDelete<F>(l: seq<Row<F>>, s: seq<Row<F>>, id: int)
    requires Mirrors(l, s)
    requires UniqueIds(s)
    ensures Mirrors(RemoveById(l, id), Delete(s, id).0)
  {
    var p := (x: Row<F>) => x.Id != id;
    DeleteIsFilter(s, id);
    Seqs.FilterMultiset(l, p);
    Seqs.FilterMultiset(s, p);
    assert multiset(RemoveById(l, id)) == multiset(Seqs.Filter(s, p));
  }

  /** Replacing by id with the record the service returns mirrors the
      service's in-place update. */
  lemma ReplaceMirrorsUpdate<F>(l: seq<Row<F>>, s: seq<Row<F>>, id: int, merge: F -> F)
    requires Mirrors(l, s)
    requires UniqueIds(s)
    requires IndexOf(s, id).Some?
    ensures var (t, row) := Update(s, id, merge); Mirrors(ReplaceById(l, id, row.value), t)
  {
    var k := IndexOf(s, id).value;
    var (t, row) := Update(s, id, merge);
    assert t == s[k := row.value];
    MirrorUnique(l, s);
    assert s[k] in multiset(l);
    var j :| 0 <= j < |l| && l[j] == s[k];
    assert ReplaceById(l, id, row.value) == l[j := row.value];
  }

  /** A page's save: with a record being edited, `update` and then replace
      that record in the list by the one returned; otherwise `create` and
      put the new record first. The result is the list and the table
      after the call. */
  function Save<F>(l: seq<Row<F>>, s: seq<Row<F>>, editing: Option<int>, merge: F -> F, created: F): (r: (seq<Row<F>>, seq<Row<F>>))
    requires editing.Some? ==> IndexOf(s, editing.value).Some?
    ensures editing.None? ==> r.1 == Insert(s, created).0 && r.0 == [Insert(s, created).1] + l
    ensures editing.Some? ==>
              var (t, row) := Update(s, editing.value, merge);
              r.1 == t && r.0 == ReplaceById(l, editing.value, row.value)
  {
    match editing
    case None =>
      var (t, row) := Insert(s, created);
      ([row] + l, t)
    case Some(id) =>
      var (t, row) := Update(s, id, merge);
      (ReplaceById(l, id, row.value), t)
  }

  /** Saving keeps the list a copy of the table and the ids distinct. */
  lemma SaveMirrors<F>(l: seq<Row<F>>, s: seq<Row<F>>, editing: Option<int>, merge: F -> F, created: F)
    requires editing.Some? ==> IndexOf(s, editing.value).Some?
    requires Mirrors(l, s) && UniqueIds(s)
    ensures Mirrors(Save(l, s, editing, merge, created).0, Save(l, s, editing, merge, created).1)
    ensures UniqueIds(Save(l, s, editing, merge, created).1)
  {
    match editing
    case None =>
      PrependMirrorsCreate(l, s, created);
      InsertKeepsUnique(s, created);
    case Some(id) =>
      ReplaceMirrorsUpdate(l, s, id, merge);
      UpdateKeepsIds(s, id, merge);
  }

  /** A page's delete: `delete` on the table, filter on the list. The
      list then holds no record with the id, and neither does the table
      when its ids were distinct. */
  function Remove<F>(l: seq<Row<F>>, s: seq<Row<F>>, id: int): (r: (seq<Row<F>>, seq<Row<F>>))
    ensures r.0 == RemoveById(l, id) && r.1 == Delete(s, id).0
    ensures forall i :: 0 <= i < |r.0| ==> r.0[i].Id != id
    ensures UniqueIds(s) ==> forall i :: 0 <= i < |r.1| ==> r.1[i].Id != id
    ensures UniqueIds(s) ==> Mirrors(l, s) ==> Mirrors(r.0, r.1)
  {
    assert UniqueIds(s) ==> forall i :: 0 <= i < |Delete(s, id).0| ==> Delete(s, id).0[i].Id != id by {
      if UniqueIds(s) {
        DeleteThenGet(s, id);
      }
    }
    assert UniqueIds(s) ==> Mirrors(l, s) ==> Mirrors(RemoveById(l, id), Delete(s, id).0) by {
      if UniqueIds(s) && Mirrors(l, s) {
        RemoveMirrorsDelete(l, s, id);
      }
    }
    (RemoveById(l, id), Delete(s, id).0)
  }
}

=== FILE: parent_contact_modal.dfy ===
/** The parent-contact dialog: the phone formatter applied while typing,
    the phone and email format checks, the two validators, and the local
    communication list it keeps next to the service's log. */
module ParentContactModal {
  import opened Wrappers
  import Seqs
  import Text
  import Forms
  import opened Store
  import LocalList
  import ParentContactService

  /** The regular expression `^\(\d{3}\) \d{3}-\d{4}$` as a mask: `#` stands
      for one digit, every other character for itself. */
  const PhoneMask := "(###) ###-####"

  predicate IsPhoneFormat(s: string)
  {
    && |s| == |PhoneMask|
    && forall i :: 0 <= i < |s| ==>
         if PhoneMask[i] == '#' then Text.IsDigit(s[i]) else s[i] == PhoneMask[i]
  }

  /** Ten digits laid out as `(ddd) ddd-dddd`. */
  function Layout(d: string): (r: string)
    requires |d| == 10
    ensures |r| == |PhoneMask|
    ensures r[1..4] == d[..3] && r[6..9] == d[3..6] && r[10..] == d[6..]
  {
    "(" + d[..3] + ") " + d[3..6] + "-" + d[6..]
  }

  /** A string without digits has no digits to keep. */
  lemma {:induction false} NoDigits(s: string)
    requires forall i :: 0 <= i < |s| ==> !Text.IsDigit(s[i])
    ensures Text.Digits(s) == []
  {
    if |s| > 0 {
      NoDigits(s[..|s| - 1]);
    }
  }

  /** Ten digits laid out match the phone pattern. */
  lemma LayoutIsPhoneFormat(d: string)
    requires |d| == 10
    requires forall i :: 0 <= i < |d| ==> Text.IsDigit(d[i])
    ensures IsPhoneFormat(Layout(d))
  {
    var r := Layout(d);
    forall i | 0 <= i < |r|
      ensures if PhoneMask[i] == '#' then Text.IsDigit(r[i]) else r[i] == PhoneMask[i]
    {
      if 1 <= i < 4 { assert r[i] == r[1..4][i - 1] == d[i - 1]; }
      else if 6 <= i < 9 { assert r[i] == r[6..9][i - 6] == d[i - 3]; }
      else if 10 <= i { assert r[i] == r[10..][i - 10] == d[i - 4]; }
    }
  }

  /** Separators without digits drop out of the digits of a text. */
  lemma DigitsAroundSeparator(x: string, sep: string, y: string)
    requires forall i :: 0 <= i < |sep| ==> !Text.IsDigit(sep[i])
    ensures Text.Digits(x + sep + y) == Text.Digits(x) + Text.Digits(y)
  {
    NoDigits(sep);
    Text.DigitsAppend(x, sep);
    Text.DigitsAppend(x + sep, y);
    assert Text.Digits(x) + [] == Text.Digits(x);
  }

  /** Stripping the punctuation of `(a) b-c` leaves `a`, `b` and `c`. */
  lemma DigitsOfParts(a: string, b: string, c: string)
    requires Text.Digits(a) == a && Text.Digits(b) == b && Text.Digits(c) == c
    ensures Text.Digits("(" + a + ") " + b + "-" + c) == a + b + c
  {
    var open, close, dash := "(", ") ", "-";
    NoDigits(open);
    Text.DigitsAppend(open, a);
    var p1 := open + a;
    assert Text.Digits(p1) == a;
    DigitsAroundSeparator(p1, close, b);
    var p3 := p1 + close + b;
    assert Text.Digits(p3) == a + b;
    DigitsAroundSeparator(p3, dash, c);
  }

  /** The digits of a laid-out number are the ten it was laid out from. */
  lemma LayoutDigits(d: string)
    requires |d| == 10
    requires forall i :: 0 <= i < |d| ==> Text.IsDigit(d[i])
    ensures Text.Digits(Layout(d)) == d
  {
    var a, b, c := d[..3], d[3..6], d[6..];
    Text.DigitsOfDigits(a);
    Text.DigitsOfDigits(b);
    Text.DigitsOfDigits(c);
    DigitsOfParts(a, b, c);
    assert d == a + b + c;
  }

  /** `formatPhoneNumber`: strip the non-digits; exactly ten digits are laid
      out as `(ddd) ddd-dddd`, anything else is returned as typed. */
  function FormatPhone(value: string): (r: string)
    ensures |Text.Digits(value)| == 10 ==> IsPhoneFormat(r) && Text.Digits(r) == Text.Digits(value)
    ensures |Text.Digits(value)| != 10 ==> r == value
  {
    var d := Text.Digits(value);
    if |d| == 10 then LayoutIsPhoneFormat(d); LayoutDigits(d); Layout(d) else value
  }

  /** Formatting a formatted value changes nothing. */
  lemma FormatPhoneIdempotent(value: string)
    ensures FormatPhone(FormatPhone(value)) == FormatPhone(value)
  {
  }

  /** A value already in the phone format is left exactly as it is. */
  lemma {:induction false} PhoneFormatIsFixed(s: string)
    requires IsPhoneFormat(s)
    ensures FormatPhone(s) == s
  {
    var a, b, c := s[1..4], s[6..9], s[10..];
    assert s == s[..1] + a + s[4..6] + b + s[9..10] + c;
    assert s[..1] == "(" && s[4..6] == ") " && s[9..10] == "-";
    assert forall i :: 0 <= i < |a| ==> Text.IsDigit(a[i]) by {
      forall i | 0 <= i < |a| ensures Text.IsDigit(a[i]) { assert a[i] == s[1 + i] && PhoneMask[1 + i] == '#'; }
    }
    assert forall i :: 0 <= i < |b| ==> Text.IsDigit(b[i]) by {
      forall i | 0 <= i < |b| ensures Text.IsDigit(b[i]) { assert b[i] == s[6 + i] && PhoneMask[6 + i] == '#'; }
    }
    assert forall i :: 0 <= i < |c| ==> Text.IsDigit(c[i]) by {
      forall i | 0 <= i < |c| ensures Text.IsDigit(c[i]) { assert c[i] == s[10 + i] && PhoneMask[10 + i] == '#'; }
    }
    var d := a + b + c;
    assert s == Layout(d) by {
      assert d[..3] == a && d[3..6] == b && d[6..] == c;
    }
    assert forall i :: 0 <= i < |d| ==> Text.IsDigit(d[i]);
    LayoutDigits(d);
  }

  /** The regular-expression class `[^\s@]`. */
  predicate Plain(c: char)
  {
    !Text.IsWhitespace(c) && c != '@'
  }

  predicate AllPlain(s: string)
  {
    forall i :: 0 <= i < |s| ==> Plain(s[i])
  }

  /** `^[^\s@]+@[^\s@]+\.[^\s@]+$` matched with the `@` at `i` and the
      separating `.` at `j`. */
  predicate EmailSplitAt(e: string, i: int, j: int)
  {
    && 0 < i && i + 1 < j && j + 1 < |e|
    && e[i] == '@' && e[j] == '.'
    && AllPlain(e[..i]) && AllPlain(e[i + 1..j]) && AllPlain(e[j + 1..])
  }

  /** The reference meaning of the email pattern: some split matches. */
  ghost predicate MatchesEmailPattern(e: string)
  {
    exists i, j :: EmailSplitAt(e, i, j)
  }

  /** The domain part has a dot with something on both sides of it. */
  predicate InnerDot(d: string)
  {
    exists j :: 0 < j < |d| - 1 && d[j] == '.'
  }

  /** The email check as a scan: the first `@` has a non-empty, plain
      local part before it; the rest is plain and has an inner dot. */
  predicate IsEmailFormat(e: string)
  {
    match Seqs.FirstIndex(e, (c: char) => c == '@')
    case None => false
    case Some(i) => 0 < i && AllPlain(e[..i]) && AllPlain(e[i + 1..]) && InnerDot(e[i + 1..])
  }

  /** The scan accepts exactly the strings the pattern matches: one `@`
      between non-empty parts without whitespace or `@`, and a `.` inside
      the domain with something on both sides. */
  lemma EmailFormatIffPattern(e: string)
    ensures IsEmailFormat(e) <==> MatchesEmailPattern(e)
  {
    if IsEmailFormat(e) {
      EmailFormatMatches(e);
    }
    if MatchesEmailPattern(e) {
      var i, j :| EmailSplitAt(e, i, j);
      SplitPassesScan(e, i, j);
    }
  }

  lemma EmailFormatMatches(e: string)
    requires IsEmailFormat(e)
    ensures MatchesEmailPattern(e)
  {
    var i := Seqs.FirstIndex(e, (c: char) => c == '@').value;
    var d := e[i + 1..];
    var jj :| 0 < jj < |d| - 1 && d[jj] == '.';
    var j := i + 1 + jj;
    assert e[i + 1..j] == d[..jj];
    assert e[j + 1..] == d[jj + 1..];
    assert EmailSplitAt(e, i, j);
  }

  lemma SplitPassesScan(e: string, i: int, j: int)
    requires EmailSplitAt(e, i, j)
    ensures IsEmailFormat(e)
  {
    assert forall k :: 0 <= k < i ==> e[..i][k] == e[k];
    assert Seqs.FirstIndex(e, (c: char) => c == '@') == Some(i);
    var d := e[i + 1..];
    assert d == e[i + 1..j] + [e[j]] + e[j + 1..];
    assert d[j - i - 1] == '.';
  }

  /** The message `validateContactForm` leaves for each field: blank
      first, then the format. */
  function ContactMessage(phone: string, email: string, field: string): Option<string>
  {
    if field == "phone" then
      if Forms.Blank(phone) then Some("Phone number is required")
      else if !IsPhoneFormat(phone) then Some("Phone must be in format (555) 123-4567")
      else None
    else if field == "email" then
      if Forms.Blank(email) then Some("Email is required")
      else if !IsEmailFormat(email) then Some("Please enter a valid email address")
      else None
    else None
  }

  /** `validateContactForm`: phone and email are each required and must
      then pass their format check. */
  function ValidateContact(phone: string, email: string): (r: Forms.Errors)
    ensures r.Keys <= {"phone", "email"}
    ensures "phone" in r <==> !IsPhoneFormat(phone)
    ensures "email" in r <==> !IsEmailFormat(email)
  {
    BlankIsNotFormatted(phone, email);
    var r := Forms.Collect({"phone", "email"}, (k: string) => ContactMessage(phone, email, k));
    assert "phone" in {"phone", "email"} && "email" in {"phone", "email"};
    r
  }

  /** The contact form passes exactly when the phone has the display
      layout and the email matches the pattern `^[^\s@]+@[^\s@]+\.[^\s@]+$`. */
  lemma ValidateContactPasses(phone: string, email: string)
    ensures var r := ValidateContact(phone, email);
            && ("email" in r <==> !MatchesEmailPattern(email))
            && (Forms.NoErrors(r) <==> IsPhoneFormat(phone) && MatchesEmailPattern(email))
  {
    EmailFormatIffPattern(email);
    var r := ValidateContact(phone, email);
    assert Forms.NoErrors(r) <==> "phone" !in r && "email" !in r by {
      if !Forms.NoErrors(r) {
        var k :| k in r;
        assert k == "phone" || k == "email";
      }
    }
  }

  /** The message shown for a flagged phone: "required" when blank, the
      format message otherwise. */
  lemma ValidatePhoneMessage(phone: string, email: string)
    ensures var r := ValidateContact(phone, email);
            "phone" in r ==> r["phone"] == if Text.IsBlank(phone) then "Phone number is required"
                                           else "Phone must be in format (555) 123-4567"
  {
    Forms.BlankIffWhitespace(phone);
    var r := ValidateContact(phone, email);
    if "phone" in r {
      assert r["phone"] == ContactMessage(phone, email, "phone").value;
    }
  }

  /** The message shown for a flagged email: "required" when blank, the
      format message otherwise. */
  lemma ValidateEmailMessage(phone: string, email: string)
    ensures var r := ValidateContact(phone, email);
            "email" in r ==> r["email"] == if Text.IsBlank(email) then "Email is required"
                                           else "Please enter a valid email address"
  {
    Forms.BlankIffWhitespace(email);
    var r := ValidateContact(phone, email);
    if "email" in r {
      assert r["email"] == ContactMessage(phone, email, "email").value;
    }
  }

  /** A blank value never passes either format check. */
  lemma BlankIsNotFormatted(phone: string, email: string)
    ensures Forms.Blank(phone) ==> !IsPhoneFormat(phone)
    ensures Forms.Blank(email) ==> !IsEmailFormat(email)
  {
    Forms.BlankIffWhitespace(phone);
    Forms.BlankIffWhitespace(email);
  }

  /** The message `validateCommunicationForm` leaves for each field. */
  function CommunicationMessage(c: ParentContactService.CommunicationInput, field: string): Option<string>
  {
    if field == "subject" then Forms.Required(c.subject, "Subject is required")
    else if field == "notes" then Forms.Required(c.notes, "Notes are required")
    else None
  }

  /** `validateCommunicationForm`: subject and notes are required; the type
      and outcome are never checked. */
  function ValidateCommunication(c: ParentContactService.CommunicationInput): (r: Forms.Errors)
    ensures r.Keys <= {"subject", "notes"}
    ensures "subject" in r <==> Text.IsBlank(c.subject)
    ensures "subject" in r ==> r["subject"] == "Subject is required"
    ensures "notes" in r <==> Text.IsBlank(c.notes)
    ensures "notes" in r ==> r["notes"] == "Notes are required"
    ensures Forms.NoErrors(r) <==> !Text.IsBlank(c.subject) && !Text.IsBlank(c.notes)
  {
    var r := Forms.Collect({"subject", "notes"}, (k: string) => CommunicationMessage(c, k));
    assert "subject" in {"subject", "notes"} && "notes" in {"subject", "notes"};
    r
  }

  /** The dialog's list right after its first logged communication, as
      the code is written. For a student with a contact, the list the
      dialog loaded is the contact's own log array: the service copies the
      contact but not its log. The service's `unshift` has therefore put
      the entry into that list already when the dialog prepends it again.
      Without a contact the dialog starts from its own empty list. */
  function FirstAddShownAsWritten(s: seq<Row<ParentContactService.Contact>>, studentId: int,
                                  c: ParentContactService.CommunicationInput, now: string)
    : (shown: seq<Row<ParentContactService.Communication>>)
    ensures |shown| > 0 && shown[0] == ParentContactService.AddCommunication(s, studentId, c, now).1
    ensures ParentContactService.ContactIndex(s, studentId).Some? ==>
              |shown| == |ParentContactService.GetCommunications(s, studentId)| + 2
    ensures ParentContactService.ContactIndex(s, studentId).None? ==>
              shown == ParentContactService.GetCommunications(ParentContactService.AddCommunication(s, studentId, c, now).0, studentId)
  {
    var r := ParentContactService.AddCommunication(s, studentId, c, now);
    ParentContactService.AddCommunicationPrepends(s, studentId, c, now);
    var loaded := if ParentContactService.ContactIndex(s, studentId).Some?
                  then ParentContactService.GetCommunications(r.0, studentId)
                  else [];
    [r.1] + loaded
  }

  /** With a contact, the first logged communication shows twice: at the
      top and again just below, with the same id, so the dialog's list is
      one longer than the service's log and its ids are not distinct. */
  lemma FirstAddShowsEntryTwice(s: seq<Row<ParentContactService.Contact>>, studentId: int,
                                c: ParentContactService.CommunicationInput, now: string)
    requires ParentContactService.ContactIndex(s, studentId).Some?
    ensures var r := ParentContactService.AddCommunication(s, studentId, c, now);
            var shown := FirstAddShownAsWritten(s, studentId, c, now);
            && shown == [r.1] + ParentContactService.GetCommunications(r.0, studentId)
            && |shown| >= 2 && shown[0] == r.1 && shown[1] == r.1
            && shown != ParentContactService.GetCommunications(r.0, studentId)
            && !UniqueIds(shown)
  {
    var r := ParentContactService.AddCommunication(s, studentId, c, now);
    var shown := FirstAddShownAsWritten(s, studentId, c, now);
    ParentContactService.AddCommunicationPrepends(s, studentId, c, now);
    assert shown[0].Id == shown[1].Id;
  }

  /** The dialog's list after logging a communication when the dialog
      keeps its own copy of the log it loaded: the returned entry put
      first. Starting from the service's log, it stays equal to it. */
  lemma LocalAddTracksService(s: seq<Row<ParentContactService.Contact>>, studentId: int,
                              c: ParentContactService.CommunicationInput, now: string)
    ensures var r := ParentContactService.AddCommunication(s, studentId, c, now);
            [r.1] + ParentContactService.GetCommunications(s, studentId)
              == ParentContactService.GetCommunications(r.0, studentId)
  {
    ParentContactService.AddCommunicationPrepends(s, studentId, c, now);
  }

  /** The dialog's list after deleting a communication: filtered by id.
      Starting from a log with distinct ids, it stays equal to the
      service's log. */
  lemma LocalDeleteTracksService(s: seq<Row<ParentContactService.Contact>>, studentId: int,
                                 communicationId: int, now: string)
    requires UniqueIds(ParentContactService.GetCommunications(s, studentId))
    ensures var r := ParentContactService.DeleteCommunication(s, studentId, communicationId, now);
            LocalList.RemoveById(ParentContactService.GetCommunications(s, studentId), communicationId)
              == ParentContactService.GetCommunications(r.0, studentId)
  {
    ParentContactService.DeleteCommunicationIsDelete(s, studentId, communicationId, now);
    DeleteIsFilter(ParentContactService.GetCommunications(s, studentId), communicationId);
  }
}

=== FILE: parent_contact_service.dfy ===
/** The parent-contact table (`parentContactService`): one contact record
    per student with phone, email, notes and a log of communications, the
    newest first. Timestamps are opaque strings supplied by the caller. */
module ParentContactService {
  import opened Wrappers
  import Seqs
  import opened Store

  /** A logged communication; `kind` is the source's `type` field. */
  datatype Communication = Communication(
    kind: string,
    subject: string,
    notes: string,
    outcome: string,
    date: string,
    createdBy: string)

  /** What the contact form sends: `type`, `subject`, `notes`, `outcome`. */
  datatype CommunicationInput = CommunicationInput(
    kind: string,
    subject: string,
    notes: string,
    outcome: string)

  datatype Contact = Contact(
    studentId: int,
    phone: string,
    email: string,
    notes: string,
    communications: seq<Row<Communication>>,
    createdAt: string,
    updatedAt: string)

  /** What the contact form saves: phone, email and notes. */
  datatype ContactData = ContactData(phone: string, email: string, notes: string)

  /** The author recorded on every new communication. */
  const CurrentUser := "Current User"

  /** A communication as the service stores it: the form's fields, the
      current time and the fixed author. */
  function Logged(c: CommunicationInput, now: string): Communication
  {
    Communication(c.kind, c.subject, c.notes, c.outcome, now, CurrentUser)
  }

  /** At most one contact per student. */
  ghost predicate UniqueStudents(s: seq<Row<Contact>>)
  {
    forall i, j :: 0 <= i < j < |s| ==> s[i].data.studentId != s[j].data.studentId
  }

  /** The position of the student's first contact. */
  function ContactIndex(s: seq<Row<Contact>>, studentId: int): (r: Option<nat>)
    ensures r.Some? ==> r.value < |s| && s[r.value].data.studentId == studentId
    ensures r.Some? ==> forall j :: 0 <= j < r.value ==> s[j].data.studentId != studentId
    ensures r.None? <==> forall j :: 0 <= j < |s| ==> s[j].data.studentId != studentId
  {
    Seqs.FirstIndex(s, (c: Row<Contact>) => c.data.studentId == studentId)
  }

  /** Tables with the same students in the same places agree on where a
      student's contact is. */
  lemma ContactIndexAgrees(s: seq<Row<Contact>>, t: seq<Row<Contact>>, studentId: int)
    requires |s| == |t|
    requires forall i :: 0 <= i < |s| ==> s[i].data.studentId == t[i].data.studentId
    ensures ContactIndex(s, studentId) == ContactIndex(t, studentId)
  {
  }

  /** `getByStudentId`: the student's first contact, or none. */
  function GetByStudent(s: seq<Row<Contact>>, studentId: int): (r: Option<Row<Contact>>)
    ensures r.Some? ==> r.value in s && r.value.data.studentId == studentId
    ensures r.None? <==> forall j :: 0 <= j < |s| ==> s[j].data.studentId != studentId
  {
    match ContactIndex(s, studentId)
    case None => None
    case Some(k) => Some(s[k])
  }

  /** `updateContact`: when the student has a contact, its phone, email and
      notes are overwritten and `updatedAt` set, everything else kept;
      otherwise a new contact with a fresh id, no communications and both
      timestamps `now` is appended. Returns the stored contact. */
  function UpdateContact(s: seq<Row<Contact>>, studentId: int, d: ContactData, now: string)
    : (r: (seq<Row<Contact>>, Row<Contact>))
    ensures r.1.data.studentId == studentId
    ensures r.1.data.phone == d.phone && r.1.data.email == d.email && r.1.data.notes == d.notes
    ensures r.1.data.updatedAt == now
    ensures ContactIndex(s, studentId).Some? ==>
              var k := ContactIndex(s, studentId).value;
              && r.0 == s[k := r.1]
              && r.1.Id == s[k].Id
              && r.1.data.communications == s[k].data.communications
              && r.1.data.createdAt == s[k].data.createdAt
    ensures ContactIndex(s, studentId).None? ==>
              && r.0 == s + [r.1]
              && r.1.Id >= 1 && (forall i :: 0 <= i < |s| ==> s[i].Id < r.1.Id)
              && r.1.data.communications == []
              && r.1.data.createdAt == now
  {
    match ContactIndex(s, studentId)
    case Some(k) =>
      var row := Row(s[k].Id, s[k].data.(phone := d.phone, email := d.email, notes := d.notes, updatedAt := now));
      (s[k := row], row)
    case None =>
      Store.Insert(s, Contact(studentId, d.phone, d.email, d.notes, [], now, now))
  }

  /** Saving a contact never gives a student a second contact, and saving
      the same data twice at the same time is saving it once. */
  lemma UpdateContactLaws(s: seq<Row<Contact>>, studentId: int, d: ContactData, now: string)
    ensures UniqueStudents(s) ==> UniqueStudents(UpdateContact(s, studentId, d, now).0)
    ensures UniqueIds(s) ==> UniqueIds(UpdateContact(s, studentId, d, now).0)
    ensures var r := UpdateContact(s, studentId, d, now);
            UpdateContact(r.0, studentId, d, now) == r
  {
    var r := UpdateContact(s, studentId, d, now);
    match ContactIndex(s, studentId)
    case Some(k) =>
      ContactIndexAgrees(s, r.0, studentId);
      assert r.0[k := r.1] == r.0;
    case None =>
      var n := |s|;
      assert r.0[n] == r.1;
      assert ContactIndex(r.0, studentId) == Some(n);
      assert r.0[n := r.1] == r.0;
  }

  /** `getCommunications`: the student's log, or empty when the student has
      no contact. */
  function GetCommunications(s: seq<Row<Contact>>, studentId: int): (r: seq<Row<Communication>>)
    ensures ContactIndex(s, studentId).None? ==> r == []
    ensures ContactIndex(s, studentId).Some? ==> r == s[ContactIndex(s, studentId).value].data.communications
  {
    match GetByStudent(s, studentId)
    case None => []
    case Some(c) => c.data.communications
  }

  /** `addCommunication`. With a contact: the entry gets an id one above the
      log's largest (1 for an empty log), goes first, and the contact's
      `updatedAt` is set. Without one: a contact with blank phone, email and
      notes is appended whose only entry has id 1. Returns the entry. */
  function AddCommunication(s: seq<Row<Contact>>, studentId: int, c: CommunicationInput, now: string)
    : (r: (seq<Row<Contact>>, Row<Communication>))
    ensures r.1.data == Logged(c, now)
    ensures ContactIndex(s, studentId).Some? ==>
              var k := ContactIndex(s, studentId).value;
              var log := s[k].data.communications;
              && r.1.Id >= 1 && (forall i :: 0 <= i < |log| ==> log[i].Id < r.1.Id)
              && |r.0| == |s|
              && r.0[k] == Row(s[k].Id, s[k].data.(communications := [r.1] + log, updatedAt := now))
              && forall j :: 0 <= j < |s| && j != k ==> r.0[j] == s[j]
    ensures ContactIndex(s, studentId).None? ==>
              && r.1.Id == 1
              && |r.0| == |s| + 1 && r.0[..|s|] == s
              && r.0[|s|].data == Contact(studentId, "", "", "", [r.1], now, now)
              && r.0[|s|].Id >= 1 && (forall i :: 0 <= i < |s| ==> s[i].Id < r.0[|s|].Id)
  {
    match ContactIndex(s, studentId)
    case Some(k) =>
      var log := s[k].data.communications;
      var entry := Row(NextId(log), Logged(c, now));
      (s[k := Row(s[k].Id, s[k].data.(communications := [entry] + log, updatedAt := now))], entry)
    case None =>
      var entry := Row(1, Logged(c, now));
      var t := Store.Insert(s, Contact(studentId, "", "", "", [entry], now, now)).0;
      assert t[..|s|] == s;
      (t, entry)
  }

  /** Whatever the case, the student's log afterwards is the new entry
      followed by the old log, and entry ids in it stay distinct. */
  lemma AddCommunicationPrepends(s: seq<Row<Contact>>, studentId: int, c: CommunicationInput, now: string)
    ensures var r := AddCommunication(s, studentId, c, now);
            GetCommunications(r.0, studentId) == [r.1] + GetCommunications(s, studentId)
    ensures var r := AddCommunication(s, studentId, c, now);
            UniqueIds(GetCommunications(s, studentId)) ==> UniqueIds(GetCommunications(r.0, studentId))
  {
    var r := AddCommunication(s, studentId, c, now);
    match ContactIndex(s, studentId)
    case Some(k) =>
      ContactIndexAgrees(s, r.0, studentId);
    case None =>
      var n := |s|;
      assert r.0[n].data.studentId == studentId;
      assert ContactIndex(r.0, studentId) == Some(n);
  }

  /** `deleteCommunication`: when the student has a contact whose log holds
      the id, the first such entry is spliced out, `updatedAt` is set and
      the entry returned; otherwise none and no change. */
  function DeleteCommunication(s: seq<Row<Contact>>, studentId: int, communicationId: int, now: string)
    : (r: (seq<Row<Contact>>, Option<Row<Communication>>))
    ensures |r.0| == |s|
    ensures r.1.None? ==> r.0 == s
    ensures r.1.None? <==> ContactIndex(s, studentId).None?
                           || IndexOf(s[ContactIndex(s, studentId).value].data.communications, communicationId).None?
    ensures r.1.Some? ==>
              var k := ContactIndex(s, studentId).value;
              var log := s[k].data.communications;
              var m := IndexOf(log, communicationId).value;
              && r.1 == Some(log[m])
              && r.0[k] == Row(s[k].Id, s[k].data.(communications := log[..m] + log[m + 1..], updatedAt := now))
              && forall j :: 0 <= j < |s| && j != k ==> r.0[j] == s[j]
  {
    match ContactIndex(s, studentId)
    case None => (s, None)
    case Some(k) =>
      var log := s[k].data.communications;
      match IndexOf(log, communicationId)
      case None => (s, None)
      case Some(m) =>
        (s[k := Row(s[k].Id, s[k].data.(communications := log[..m] + log[m + 1..], updatedAt := now))], Some(log[m]))
  }

  /** Deleting from the log is the table-level delete on the student's log;
      with distinct entry ids the entry is gone afterwards. */
  lemma DeleteCommunicationIsDelete(s: seq<Row<Contact>>, studentId: int, communicationId: int, now: string)
    ensures var r := DeleteCommunication(s, studentId, communicationId, now);
            && GetCommunications(r.0, studentId) == Store.Delete(GetCommunications(s, studentId), communicationId).0
            && r.1 == Store.Delete(GetCommunications(s, studentId), communicationId).1
    ensures var r := DeleteCommunication(s, studentId, communicationId, now);
            UniqueIds(GetCommunications(s, studentId)) ==>
              Store.Get(GetCommunications(r.0, studentId), communicationId).None?
  {
    var r := DeleteCommunication(s, studentId, communicationId, now);
    ContactIndexAgrees(s, r.0, studentId);
    if UniqueIds(GetCommunications(s, studentId)) {
      Store.DeleteThenGet(GetCommunications(s, studentId), communicationId);
    }
  }

  /** Deleting the entry just added gives back the log as it was. */
  lemma AddThenDeleteCommunication(s: seq<Row<Contact>>, studentId: int, c: CommunicationInput, now: string, later: string)
    ensures var r := AddCommunication(s, studentId, c, now);
            var t := DeleteCommunication(r.0, studentId, r.1.Id, later);
            t.1 == Some(r.1) && GetCommunications(t.0, studentId) == GetCommunications(s, studentId)
  {
    var r := AddCommunication(s, studentId, c, now);
    AddCommunicationPrepends(s, studentId, c, now);
    DeleteCommunicationIsDelete(r.0, studentId, r.1.Id, later);
    var log := GetCommunications(r.0, studentId);
    assert IndexOf(log, r.1.Id) == Some(0);
    assert log[1..] == GetCommunications(s, studentId);
    assert log[..0] + log[1..] == log[1..];
    assert Store.Delete(log, r.1.Id) == (log[1..], Some(r.1));
  }
}

=== FILE: seqs.dfy ===
/** Sequence operations that mirror the JavaScript array methods the
    application is built from: `filter`, `find` / `findIndex`, `slice` and
    the `reduce`-based sum and mean. */
module Seqs {
  import opened Wrappers

  /** `s.filter(p)`: the elements satisfying `p`, in their original order.
      Defined from the back so that appending to `s` unfolds in one step. */
  function Filter<T>(s: seq<T>, p: T -> bool): (r: seq<T>)
    ensures |r| <= |s|
    ensures forall i :: 0 <= i < |r| ==> r[i] in s && p(r[i])
    ensures forall i :: 0 <= i < |s| && p(s[i]) ==> s[i] in r
  {
    if |s| == 0 then []
    else
      assert s == s[..|s| - 1] + [s[|s| - 1]];
      Filter(s[..|s| - 1], p) + (if p(s[|s| - 1]) then [s[|s| - 1]] else [])
  }

  /** The positions of `s` at which `p` holds, in increasing order: the
      reference description of what `Filter` selects. */
  function SelectedIndices<T>(s: seq<T>, p: T -> bool): (r: seq<nat>)
    ensures forall k :: 0 <= k < |r| ==> r[k] < |s| && p(s[r[k]])
    ensures forall i :: 0 <= i < |s| && p(s[i]) ==> i in r
    ensures forall k, l :: 0 <= k < l < |r| ==> r[k] < r[l]
  {
    if |s| == 0 then []
    else
      var r := SelectedIndices(s[..|s| - 1], p);
      r + (if p(s[|s| - 1]) then [|s| - 1] else [])
  }

  /** `Filter` keeps exactly the elements at the selected positions, in
      increasing position order: it is an order-preserving subsequence that
      misses no element satisfying `p`. */
  lemma {:induction false} FilterIsSelection<T>(s: seq<T>, p: T -> bool)
    ensures |Filter(s, p)| == |SelectedIndices(s, p)|
    ensures forall k :: 0 <= k < |Filter(s, p)| ==>
              Filter(s, p)[k] == s[SelectedIndices(s, p)[k]]
  {
    if |s| > 0 {
      var init, last := s[..|s| - 1], s[|s| - 1];
      FilterIsSelection(init, p);
      var f, si := Filter(init, p), SelectedIndices(init, p);
      var tail := if p(last) then [last] else [];
      var tailIdx: seq<nat> := if p(last) then [|s| - 1] else [];
      assert Filter(s, p) == f + tail;
      assert SelectedIndices(s, p) == si + tailIdx;
      assert |tail| == |tailIdx|;
      forall k | 0 <= k < |Filter(s, p)|
        ensures Filter(s, p)[k] == s[SelectedIndices(s, p)[k]]
      {
        if k < |f| {
          assert Filter(s, p)[k] == f[k] == init[si[k]];
          assert SelectedIndices(s, p)[k] == si[k];
        } else {
          assert p(last) && k == |f|;
          assert Filter(s, p)[k] == last;
          assert SelectedIndices(s, p)[k] == |s| - 1;
        }
      }
    }
  }

  /** Filtering distributes over concatenation. */
  lemma {:induction false} FilterAppend<T>(a: seq<T>, b: seq<T>, p: T -> bool)
    ensures Filter(a + b, p) == Filter(a, p) + Filter(b, p)
  {
    if |b| == 0 {
      assert a + b == a;
    } else {
      var b' := b[..|b| - 1];
      FilterAppend(a, b', p);
      assert (a + b)[..|a + b| - 1] == a + b';
      assert (a + b)[|a + b| - 1] == b[|b| - 1];
    }
  }

  /** A filter loses nothing exactly when every element satisfies the test. */
  lemma {:induction false} FilterFullIff<T>(s: seq<T>, p: T -> bool)
    ensures |Filter(s, p)| == |s| <==> forall i :: 0 <= i < |s| ==> p(s[i])
    ensures (forall i :: 0 <= i < |s| ==> p(s[i])) ==> Filter(s, p) == s
  {
    if |s| > 0 {
      var init := s[..|s| - 1];
      FilterFullIff(init, p);
      assert s == init + [s[|s| - 1]];
      if !p(s[|s| - 1]) {
        assert |Filter(s, p)| < |s|;
      }
    }
  }

  /** Filtering out a single failing element between two runs of passing
      ones splices it out. */
  lemma FilterSkipOne<T>(a: seq<T>, x: T, b: seq<T>, p: T -> bool)
    requires forall j :: 0 <= j < |a| ==> p(a[j])
    requires forall j :: 0 <= j < |b| ==> p(b[j])
    requires !p(x)
    ensures Filter(a + [x] + b, p) == a + b
  {
    FilterFullIff(a, p);
    FilterFullIff(b, p);
    FilterAppend(a + [x], b, p);
    FilterAppend(a, [x], p);
    assert Filter([x], p) == [] by {
      assert [x][..0] == [];
    }
    calc {
      Filter(a + [x] + b, p);
      Filter(a + [x], p) + Filter(b, p);
      Filter(a, p) + Filter([x], p) + Filter(b, p);
      { assert Filter(a, p) + Filter([x], p) == a; }
      a + b;
    }
  }

  /** Filtering twice is filtering once by both tests; in particular two
      tests that agree everywhere filter alike. */
  lemma {:induction false} FilterCompose<T>(s: seq<T>, p: T -> bool, q: T -> bool, pq: T -> bool)
    requires forall x :: pq(x) == (p(x) && q(x))
    ensures Filter(Filter(s, p), q) == Filter(s, pq)
  {
    if |s| > 0 {
      var init, last := s[..|s| - 1], s[|s| - 1];
      FilterCompose(init, p, q, pq);
      var tail := if p(last) then [last] else [];
      assert Filter(s, p) == Filter(init, p) + tail;
      FilterAppend(Filter(init, p), tail, q);
      if p(last) {
        assert Filter(tail, q) == Filter([], q) + (if q(last) then [last] else []) by {
          assert tail[..0] == [];
        }
      }
    }
  }

  /** Filters by two tests that never hold together keep, between them,
      as many elements as the filter by their disjunction. */
  lemma {:induction false} FilterDisjointCount<T>(s: seq<T>, p: T -> bool, q: T -> bool, pq: T -> bool)
    requires forall x :: !(p(x) && q(x))
    requires forall x :: pq(x) == (p(x) || q(x))
    ensures |Filter(s, p)| + |Filter(s, q)| == |Filter(s, pq)|
  {
    if |s| > 0 {
      FilterDisjointCount(s[..|s| - 1], p, q, pq);
    }
  }

  /** Filtering keeps every copy of an element that passes and none of one
      that fails. */
  lemma {:induction false} FilterMultiset<T>(s: seq<T>, p: T -> bool)
    ensures forall x :: multiset(Filter(s, p))[x] == if p(x) then multiset(s)[x] else 0
  {
    if |s| > 0 {
      var init, last := s[..|s| - 1], s[|s| - 1];
      FilterMultiset(init, p);
      assert s == init + [last];
      assert multiset(s) == multiset(init) + multiset{last};
    }
  }

  /** Two positions holding the same value make it occur at least twice. */
  lemma TwoCopies<T>(s: seq<T>, i: nat, j: nat)
    requires i < j < |s| && s[i] == s[j]
    ensures multiset(s)[s[i]] >= 2
  {
    assert s == s[..i] + [s[i]] + s[i + 1..j] + [s[j]] + s[j + 1..];
  }

  /** `s.findIndex(p)`: the first position satisfying `p`, or none. */
  function FirstIndex<T>(s: seq<T>, p: T -> bool): (r: Option<nat>)
    ensures r.Some? ==> r.value < |s| && p(s[r.value])
    ensures r.Some? ==> forall j :: 0 <= j < r.value ==> !p(s[j])
    ensures r.None? <==> forall j :: 0 <= j < |s| ==> !p(s[j])
  {
    if |s| == 0 then None
    else if p(s[0]) then Some(0)
    else
      match FirstIndex(s[1..], p)
      case None => None
      case Some(k) => Some(k + 1)
  }

  /** `s.find(p)`: the first element satisfying `p`, or none. */
  function Find<T>(s: seq<T>, p: T -> bool): (r: Option<T>)
    ensures r.Some? ==> r.value in s && p(r.value)
    ensures r.None? <==> forall j :: 0 <= j < |s| ==> !p(s[j])
  {
    match FirstIndex(s, p)
    case None => None
    case Some(k) => Some(s[k])
  }

  /** Two searches whose tests agree position by position find the same
      position. */
  lemma FirstIndexAgrees<T, U>(s: seq<T>, p: T -> bool, t: seq<U>, q: U -> bool)
    requires |s| == |t|
    requires forall i :: 0 <= i < |s| ==> (p(s[i]) <==> q(t[i]))
    ensures FirstIndex(s, p) == FirstIndex(t, q)
  {
  }

  /** `s.slice(0, n)`. */
  function Take<T>(s: seq<T>, n: nat): (r: seq<T>)
    ensures |r| <= n && |r| <= |s|
    ensures |r| == if n <= |s| then n else |s|
    ensures forall i :: 0 <= i < |r| ==> r[i] == s[i]
  {
    if n <= |s| then s[..n] else s
  }

  /** `xs.reduce((sum, x) => sum + x, 0)`. */
  function Sum(xs: seq<real>): real
  {
    if |xs| == 0 then 0.0 else Sum(xs[..|xs| - 1]) + xs[|xs| - 1]
  }

  /** `r` times the number of elements is their sum: the mean of a
      non-empty sequence. */
  predicate Averages(r: real, xs: seq<real>)
  {
    r * (|xs| as real) == Sum(xs)
  }

  /** The arithmetic mean, taken as 0 for an empty sequence (the convention
      shared by the GPA and the dashboard average). */
  function Mean(xs: seq<real>): (r: real)
    ensures |xs| == 0 ==> r == 0.0
    ensures |xs| > 0 ==> Averages(r, xs)
  {
    if |xs| == 0 then 0.0 else Sum(xs) / (|xs| as real)
  }

  lemma {:induction false} SumBounds(xs: seq<real>, lo: real, hi: real)
    requires forall i :: 0 <= i < |xs| ==> lo <= xs[i] <= hi
    ensures (|xs| as real) * lo <= Sum(xs) <= (|xs| as real) * hi
  {
    if |xs| > 0 {
      SumBounds(xs[..|xs| - 1], lo, hi);
    }
  }

  /** A mean lies within any bounds that every element respects; an empty
      sequence has mean 0, so it needs the bounds to contain 0. */
  lemma MeanBounds(xs: seq<real>, lo: real, hi: real)
    requires forall i :: 0 <= i < |xs| ==> lo <= xs[i] <= hi
    requires |xs| == 0 ==> lo <= 0.0 <= hi
    ensures lo <= Mean(xs) <= hi
  {
    if |xs| > 0 {
      SumBounds(xs, lo, hi);
      var n := |xs| as real;
      assert Sum(xs) / n <= hi by {
        assert Sum(xs) <= n * hi;
      }
      assert lo <= Sum(xs) / n by {
        assert n * lo <= Sum(xs);
      }
    }
  }
}

=== FILE: sorting.dfy ===
/** A stable insertion sort on sequences, ordered by a "may come before"
    relation `le`. The table views sort copies of their lists with
    `Array.prototype.sort`; this is the order they are modelled with. */
module Sorting {

  /** Any two elements can be put in some order. */
  ghost predicate Total<T(!new)>(le: (T, T) -> bool)
  {
    forall a, b :: le(a, b) || le(b, a)
  }

  ghost predicate Transitive<T(!new)>(le: (T, T) -> bool)
  {
    forall a, b, c :: le(a, b) && le(b, c) ==> le(a, c)
  }

  /** Every element may come before every later one. */
  ghost predicate Sorted<T>(s: seq<T>, le: (T, T) -> bool)
  {
    forall i, j :: 0 <= i < j < |s| ==> le(s[i], s[j])
  }

  /** `x` placed after the last element that may come before it, and
      before the run of elements that must come after it. */
  function InsertSorted<T(!new)>(s: seq<T>, x: T, le: (T, T) -> bool): (r: seq<T>)
    ensures |r| == |s| + 1
    ensures multiset(r) == multiset(s) + multiset{x}
  {
    if |s| == 0 then [x]
    else
      var init, last := s[..|s| - 1], s[|s| - 1];
      assert s == init + [last];
      if le(last, x) then s + [x]
      else InsertSorted(init, x, le) + [last]
  }

  /** Inserting into a sorted sequence keeps it sorted. */
  lemma {:induction false} InsertKeepsSorted<T(!new)>(s: seq<T>, x: T, le: (T, T) -> bool)
    requires Total(le) && Transitive(le) && Sorted(s, le)
    ensures Sorted(InsertSorted(s, x, le), le)
  {
    if |s| > 0 {
      var init, last := s[..|s| - 1], s[|s| - 1];
      assert s == init + [last];
      if le(last, x) {
        AppendKeepsSorted(s, x, le);
      } else {
        assert Sorted(init, le);
        InsertKeepsSorted(init, x, le);
        BoundedAppendSorted(InsertSorted(init, x, le), init, x, last, le);
      }
    }
  }

  /** An element that may follow the last one can be appended. */
  lemma AppendKeepsSorted<T(!new)>(s: seq<T>, x: T, le: (T, T) -> bool)
    requires Transitive(le) && Sorted(s, le) && |s| > 0 && le(s[|s| - 1], x)
    ensures Sorted(s + [x], le)
  {
    var r := s + [x];
    forall i, j | 0 <= i < j < |r| ensures le(r[i], r[j]) {
      if j == |s| && i < |s| - 1 {
        assert le(s[i], s[|s| - 1]);
      }
    }
  }

  /** A sorted `front` holding the elements of `init` and `x`, all of
      which may come before `last`, can have `last` appended. */
  lemma BoundedAppendSorted<T(!new)>(front: seq<T>, init: seq<T>, x: T, last: T, le: (T, T) -> bool)
    requires Total(le) && Sorted(front, le) && Sorted(init + [last], le)
    requires multiset(front) == multiset(init) + multiset{x}
    requires !le(last, x)
    ensures Sorted(front + [last], le)
  {
    var s := init + [last];
    assert le(x, last);
    forall i | 0 <= i < |front| ensures le(front[i], last) {
      assert front[i] in multiset(init) + multiset{x};
      if front[i] != x {
        assert front[i] in init;
        var k :| 0 <= k < |init| && init[k] == front[i];
        assert s[k] == front[i] && s[|init|] == last;
      }
    }
    var r := front + [last];
    forall i, j | 0 <= i < j < |r| ensures le(r[i], r[j]) {
      if j < |front| {
        assert r[i] == front[i] && r[j] == front[j];
      } else {
        assert r[i] == front[i] && r[j] == last;
      }
    }
  }

  /** Insertion sort: each element in turn inserted into the sorted
      prefix. Elements that may come before each other keep their order. */
  function Sort<T(!new)>(s: seq<T>, le: (T, T) -> bool): (r: seq<T>)
    ensures |r| == |s|
    ensures multiset(r) == multiset(s)
    ensures Total(le) && Transitive(le) ==> Sorted(r, le)
  {
    if |s| == 0 then []
    else
      assert s == s[..|s| - 1] + [s[|s| - 1]];
      var front := Sort(s[..|s| - 1], le);
      assert Total(le) && Transitive(le) ==> Sorted(InsertSorted(front, s[|s| - 1], le), le) by {
        if Total(le) && Transitive(le) {
          InsertKeepsSorted(front, s[|s| - 1], le);
        }
      }
      InsertSorted(front, s[|s| - 1], le)
  }

  /** A list that is already in order is left exactly as it is; so sorting
      twice is sorting once. */
  lemma {:induction false} SortKeepsSorted<T(!new)>(s: seq<T>, le: (T, T) -> bool)
    requires Sorted(s, le)
    ensures Sort(s, le) == s
  {
    if |s| > 0 {
      var init := s[..|s| - 1];
      assert Sorted(init, le);
      SortKeepsSorted(init, le);
      if |init| > 0 {
        assert init[|init| - 1] == s[|s| - 2];
        assert le(init[|init| - 1], s[|s| - 1]);
      }
      assert init + [s[|s| - 1]] == s;
    }
  }

  lemma SortIdempotent<T(!new)>(s: seq<T>, le: (T, T) -> bool)
    requires Total(le) && Transitive(le)
    ensures Sort(Sort(s, le), le) == Sort(s, le)
  {
    SortKeepsSorted(Sort(s, le), le);
  }
}

=== FILE: store.dfy ===
/** The shape shared by the six entity services: a module-level array of
    records, each carrying an integer `Id`, with `getById`, `create`,
    `update` and `delete` implemented by linear scans. Every operation is
    modelled as a pure function from the table before the call to the table
    after it and the returned copy (`None` for JavaScript's `null`). */
module Store {
  import opened Wrappers
  import Seqs

  /** A stored record: its `Id` and the entity's remaining fields. */
  datatype Row<F> = Row(Id: int, data: F)

  /** Distinct ids, the invariant that the id assignment is meant to keep. */
  ghost predicate UniqueIds<F>(s: seq<Row<F>>)
  {
    forall i, j :: 0 <= i < j < |s| ==> s[i].Id != s[j].Id
  }

  /** `Math.max(...s.map(r => r.Id), 0) + 1`. */
  function NextId<F>(s: seq<Row<F>>): (r: int)
    ensures r >= 1
    ensures forall i :: 0 <= i < |s| ==> s[i].Id < r
    ensures r == 1 || exists i :: 0 <= i < |s| && s[i].Id == r - 1
  {
    if |s| == 0 then 1
    else
      var m := NextId(s[..|s| - 1]);
      if s[|s| - 1].Id + 1 > m then s[|s| - 1].Id + 1 else m
  }

  /** `s.findIndex(r => r.Id === id)`. */
  function IndexOf<F>(s: seq<Row<F>>, id: int): (r: Option<nat>)
    ensures r.Some? ==> r.value < |s| && s[r.value].Id == id
    ensures r.Some? ==> forall j :: 0 <= j < r.value ==> s[j].Id != id
    ensures r.None? <==> forall j :: 0 <= j < |s| ==> s[j].Id != id
  {
    Seqs.FirstIndex(s, (x: Row<F>) => x.Id == id)
  }

  /** Tables with the same ids in the same places agree on where an id is. */
  lemma IndexOfAgrees<F>(s: seq<Row<F>>, t: seq<Row<F>>, id: int)
    requires |s| == |t|
    requires forall i :: 0 <= i < |s| ==> s[i].Id == t[i].Id
    ensures IndexOf(s, id) == IndexOf(t, id)
  {
  }

  /** `getById`: the first record with this id, or none. */
  function Get<F>(s: seq<Row<F>>, id: int): (r: Option<Row<F>>)
    ensures r.Some? ==> r.value.Id == id && r.value in s
    ensures r.None? <==> forall j :: 0 <= j < |s| ==> s[j].Id != id
  {
    match IndexOf(s, id)
    case None => None
    case Some(k) => Some(s[k])
  }

  /** With distinct ids, `Get` returns exactly the record holding the id. */
  lemma GetUnique<F>(s: seq<Row<F>>, k: nat)
    requires UniqueIds(s)
    requires k < |s|
    ensures Get(s, s[k].Id) == Some(s[k])
  {
    var i := IndexOf(s, s[k].Id);
    assert i.Some?;
    assert i.value == k;
  }

  /** `create`: the record gets an id above every existing one (1 in an
      empty table) and is appended; the existing records keep their order. */
  function Insert<F>(s: seq<Row<F>>, data: F): (r: (seq<Row<F>>, Row<F>))
    ensures r.1.data == data
    ensures r.1.Id >= 1
    ensures forall i :: 0 <= i < |s| ==> s[i].Id < r.1.Id
    ensures r.0 == s + [r.1]
  {
    var row := Row(NextId(s), data);
    (s + [row], row)
  }

  /** Creating keeps the ids distinct. */
  lemma InsertKeepsUnique<F>(s: seq<Row<F>>, data: F)
    requires UniqueIds(s)
    ensures UniqueIds(Insert(s, data).0)
  {
  }

  /** A record just created is what `getById` returns for its id. */
  lemma {:induction false} InsertThenGet<F>(s: seq<Row<F>>, data: F)
    ensures Get(Insert(s, data).0, Insert(s, data).1.Id) == Some(Insert(s, data).1)
  {
    var (t, row) := Insert(s, data);
    var i := IndexOf(t, row.Id);
    assert t[|s|].Id == row.Id;
    assert i.Some?;
    assert i.value == |s|;
  }

  /** `update`: a miss returns none and changes nothing; a hit replaces the
      first record with this id by its merged copy, keeping the id, the
      length and every other record. */
  function Update<F>(s: seq<Row<F>>, id: int, merge: F -> F): (r: (seq<Row<F>>, Option<Row<F>>))
    ensures |r.0| == |s|
    ensures IndexOf(s, id).None? ==> r.0 == s && r.1 == None
    ensures IndexOf(s, id).Some? ==>
              var k := IndexOf(s, id).value;
              && r.0[k] == Row(id, merge(s[k].data))
              && r.1 == Some(r.0[k])
              && forall j :: 0 <= j < |s| && j != k ==> r.0[j] == s[j]
  {
    match IndexOf(s, id)
    case None => (s, None)
    case Some(k) =>
      var row := Row(id, merge(s[k].data));
      (s[k := row], Some(row))
  }

  /** Updating keeps the ids, so it keeps them distinct. */
  lemma UpdateKeepsIds<F>(s: seq<Row<F>>, id: int, merge: F -> F)
    ensures forall j :: 0 <= j < |s| ==> Update(s, id, merge).0[j].Id == s[j].Id
    ensures UniqueIds(s) ==> UniqueIds(Update(s, id, merge).0)
  {
  }

  /** `delete`: a miss returns none and changes nothing; a hit splices out
      the first record with this id and returns it. */
  function Delete<F>(s: seq<Row<F>>, id: int): (r: (seq<Row<F>>, Option<Row<F>>))
    ensures IndexOf(s, id).None? ==> r.0 == s && r.1 == None
    ensures IndexOf(s, id).Some? ==>
              var k := IndexOf(s, id).value;
              && r.0 == s[..k] + s[k + 1..]
              && r.1 == Some(s[k])
  {
    match IndexOf(s, id)
    case None => (s, None)
    case Some(k) => (s[..k] + s[k + 1..], Some(s[k]))
  }

  /** With distinct ids, deleting is the same as filtering the id out: the
      other records stay, in order, and the id is gone. */
  lemma {:induction false} DeleteIsFilter<F>(s: seq<Row<F>>, id: int)
    requires UniqueIds(s)
    ensures Delete(s, id).0 == Seqs.Filter(s, (x: Row<F>) => x.Id != id)
  {
    var p := (x: Row<F>) => x.Id != id;
    match IndexOf(s, id)
    case None =>
      Seqs.FilterFullIff(s, p);
    case Some(k) =>
      var a, b := s[..k], s[k + 1..];
      assert s == a + [s[k]] + b;
      assert forall j :: 0 <= j < |b| ==> p(b[j]) by {
        forall j | 0 <= j < |b| ensures p(b[j]) {
          assert b[j] == s[k + 1 + j];
        }
      }
      Seqs.FilterSkipOne(a, s[k], b, p);
  }

  /** After deleting an id from a table with distinct ids, `getById` misses
      it, and the remaining ids are still distinct. */
  lemma DeleteThenGet<F>(s: seq<Row<F>>, id: int)
    requires UniqueIds(s)
    ensures Get(Delete(s, id).0, id).None?
    ensures UniqueIds(Delete(s, id).0)
  {
    var t := Delete(s, id).0;
    match IndexOf(s, id)
    case None =>
    case Some(k) =>
      forall j | 0 <= j < |t| ensures t[j].Id != id {
        if j < k { assert t[j] == s[j]; } else { assert t[j] == s[j + 1]; }
      }
      forall i, j | 0 <= i < j < |t| ensures t[i].Id != t[j].Id {
        var i' := if i < k then i else i + 1;
        var j' := if j < k then j else j + 1;
        assert t[i] == s[i'] && t[j] == s[j'];
      }
  }

  /** With distinct ids every record occurs exactly once. */
  lemma OneCopy<F>(s: seq<Row<F>>, k: nat)
    requires UniqueIds(s)
    requires k < |s|
    ensures multiset(s)[s[k]] == 1
  {
    var a, b := s[..k], s[k + 1..];
    assert s == a + [s[k]] + b;
    assert s[k] !in a by {
      forall j | 0 <= j < |a| ensures a[j] != s[k] { assert a[j].Id == s[j].Id; }
    }
    assert s[k] !in b by {
      forall j | 0 <= j < |b| ensures b[j] != s[k] { assert b[j].Id == s[k + 1 + j].Id; }
    }
  }
}

=== FILE: student_form.dfy ===
/** The student form: defaults, the state filled in from a student being
    edited, the validator with its loose email test, and the change
    handler. */
module StudentForm {
  import opened Wrappers
  import Text
  import opened Forms
  import StudentService
  import ParentContactModal
  import Store
  import Seqs

  datatype StudentFormData = StudentFormData(
    firstName: string,
    lastName: string,
    gradeLevel: int,
    email: string,
    phone: string,
    status: string)

  /** A new student's form: grade 9, status "Active", the rest empty. */
  const Initial := StudentFormData("", "", 9, "", "", "Active")

  /** The form for a student being edited; `x || default` turns grade 0
      into 9 and an empty status into "Active". */
  function FromStudent(st: StudentService.Student): (r: StudentFormData)
    ensures r.firstName == st.firstName && r.lastName == st.lastName
    ensures r.email == st.email && r.phone == st.phone
    ensures r.gradeLevel == if st.gradeLevel == 0 then 9 else st.gradeLevel
    ensures r.status == if st.status == "" then "Active" else st.status
  {
    StudentFormData(st.firstName, st.lastName,
                    if st.gradeLevel == 0 then 9 else st.gradeLevel,
                    st.email, st.phone,
                    if st.status == "" then "Active" else st.status)
  }

  /** The regular-expression class `\S`. */
  predicate Solid(c: char)
  {
    !Text.IsWhitespace(c)
  }

  predicate AllSolid(s: string)
  {
    forall i :: 0 <= i < |s| ==> Solid(s[i])
  }

  /** `^\S+@\S+\.\S+$` matching the whole of `w`, with the `@` at `a` and
      the `.` at `d`. */
  predicate WholeSplitAt(w: string, a: int, d: int)
  {
    && 0 < a && a + 1 < d && d + 1 < |w|
    && w[a] == '@' && w[d] == '.'
    && AllSolid(w[..a]) && AllSolid(w[a + 1..d]) && AllSolid(w[d + 1..])
  }

  ghost predicate WholeMatch(w: string)
  {
    exists a, d :: WholeSplitAt(w, a, d)
  }

  /** The reference meaning of `/\S+@\S+\.\S+/.test(email)`: the pattern
      has no anchors, so it is enough that some piece of the text matches
      it. */
  ghost predicate MatchesLoosePattern(e: string)
  {
    exists p, q {:trigger WholeMatch(e[p..q])} :: 0 <= p <= q <= |e| && WholeMatch(e[p..q])
  }

  /** The test as a check on the text itself: an `@` with a non-space
      character before it, then non-space characters up to a `.` that has
      a non-space character after it. */
  predicate LooseAt(e: string, i: int, d: int)
  {
    && 0 < i && i + 1 < d && d + 1 < |e|
    && e[i] == '@' && e[d] == '.'
    && Solid(e[i - 1]) && AllSolid(e[i + 1..d]) && Solid(e[d + 1])
  }

  predicate IsLooseEmail(e: string)
  {
    exists i, d | 0 < i < |e| && 0 < d < |e| :: LooseAt(e, i, d)
  }

  /** The check accepts exactly the texts some piece of which matches the
      pattern. */
  lemma LooseEmailIffPattern(e: string)
    ensures IsLooseEmail(e) <==> MatchesLoosePattern(e)
  {
    if IsLooseEmail(e) {
      var i, d :| 0 < i < |e| && 0 < d < |e| && LooseAt(e, i, d);
      var w := e[i - 1..d + 2];
      assert w[..1] == [e[i - 1]];
      var x, y := w[2..d - i + 1], e[i + 1..d];
      assert |x| == |y|;
      forall k | 0 <= k < |x| ensures x[k] == y[k] {
        assert x[k] == w[k + 2] == e[i + 1 + k];
      }
      assert x == y;
      assert w[d - i + 2..] == [e[d + 1]];
      assert WholeSplitAt(w, 1, d - i + 1);
      assert 0 <= i - 1 <= d + 2 <= |e| && WholeMatch(e[i - 1..d + 2]);
    }
    if MatchesLoosePattern(e) {
      var p, q :| 0 <= p <= q <= |e| && WholeMatch(e[p..q]);
      var w := e[p..q];
      var a, d :| WholeSplitAt(w, a, d);
      assert w[..a][a - 1] == e[p + a - 1];
      assert w[d + 1..][0] == e[p + d + 1];
      var x, y := w[a + 1..d], e[p + a + 1..p + d];
      assert |x| == |y|;
      forall k | 0 <= k < |x| ensures x[k] == y[k] {
        assert x[k] == w[a + 1 + k] == e[p + a + 1 + k];
      }
      assert x == y;
      assert LooseAt(e, p + a, p + d);
    }
  }

  /** The loose test lets through a doubled `@`, which the parent
      contact form rejects. */
  lemma DoubledAtPassesLoose()
    ensures IsLooseEmail("a@@b.c") && !ParentContactModal.IsEmailFormat("a@@b.c")
  {
    var e := "a@@b.c";
    assert e[2..4] == ['@', 'b'];
    assert LooseAt(e, 1, 4);
    assert Seqs.FirstIndex(e, (c: char) => c == '@') == Some(1) by {
      assert e[0] != '@' && e[1] == '@';
    }
    assert e[2..][0] == '@';
  }

  /** The loose test lets through an address with text around it, which
      the parent contact form rejects. */
  lemma SurroundedPassesLoose()
    ensures IsLooseEmail("x a@b.c") && !ParentContactModal.IsEmailFormat("x a@b.c")
  {
    var m := "x a@b.c";
    assert m[4..5] == ['b'];
    assert LooseAt(m, 3, 5);
    assert Seqs.FirstIndex(m, (c: char) => c == '@') == Some(3) by {
      assert m[0] != '@' && m[1] != '@' && m[2] != '@' && m[3] == '@';
    }
    assert m[..3][1] == ' ';
  }

  const Checked := {"firstName", "lastName", "email", "phone"}

  /** The message `validateForm` leaves for each field. */
  function Message(f: StudentFormData, field: string): Option<string>
  {
    if field == "firstName" then Required(f.firstName, "First name is required")
    else if field == "lastName" then Required(f.lastName, "Last name is required")
    else if field == "email" then EmailCheck(f.email)
    else if field == "phone" then Required(f.phone, "Phone number is required")
    else None
  }

  /** `validateForm`: first and last name and phone must be non-blank, the
      email non-blank and passing the loose test. Grade and status are not
      checked. */
  function Validate(f: StudentFormData): (r: Errors)
    ensures r.Keys <= Checked
    ensures "firstName" in r <==> Text.IsBlank(f.firstName)
    ensures "firstName" in r ==> r["firstName"] == "First name is required"
    ensures "lastName" in r <==> Text.IsBlank(f.lastName)
    ensures "lastName" in r ==> r["lastName"] == "Last name is required"
    ensures "email" in r <==> !MatchesLoosePattern(f.email)
    ensures "email" in r ==> r["email"] == if Text.IsBlank(f.email) then "Email is required"
                                          else "Email is invalid"
    ensures "phone" in r <==> Text.IsBlank(f.phone)
    ensures "phone" in r ==> r["phone"] == "Phone number is required"
    ensures NoErrors(r) <==>
              && !Text.IsBlank(f.firstName) && !Text.IsBlank(f.lastName)
              && !Text.IsBlank(f.phone) && MatchesLoosePattern(f.email)
  {
    var r := Collect(Checked, (k: string) => Message(f, k));
    assert "firstName" in Checked && "lastName" in Checked;
    assert "email" in Checked && "phone" in Checked;
    assert !NoErrors(r) ==> "firstName" in r || "lastName" in r || "email" in r || "phone" in r by {
      if !NoErrors(r) {
        var k :| k in r;
      }
    }
    r
  }

  /** The email check: missing when blank, otherwise invalid unless the
      pattern matches somewhere. */
  function EmailCheck(email: string): (r: Option<string>)
    ensures r.Some? <==> !MatchesLoosePattern(email)
    ensures r.Some? ==> r.value == if Text.IsBlank(email) then "Email is required" else "Email is invalid"
  {
    LooseEmailIffPattern(email);
    BlankFailsLoose(email);
    if Required(email, "").Some? then Some("Email is required")
    else if !IsLooseEmail(email) then Some("Email is invalid")
    else None
  }

  /** A blank text has no non-space character, so it never passes the
      loose test. */
  lemma BlankFailsLoose(e: string)
    ensures Text.IsBlank(e) ==> !IsLooseEmail(e)
  {
  }

  /** Grade level and status never affect validation: the same fields
      are flagged, with the same messages. */
  lemma UncheckedFields(f: StudentFormData, grade: int, status: string)
    ensures var g := f.(gradeLevel := grade, status := status);
            && Validate(g).Keys == Validate(f).Keys
            && forall k :: k in Validate(f) ==> Validate(g)[k] == Validate(f)[k]
  {
    var g := f.(gradeLevel := grade, status := status);
    forall k ensures k in Validate(g) <==> k in Validate(f) {
      SameKey(f, g, k);
    }
    forall k | k in Validate(f) ensures Validate(g)[k] == Validate(f)[k] {
      SameKey(f, g, k);
    }
  }

  lemma SameKey(f: StudentFormData, g: StudentFormData, k: string)
    requires g == f.(gradeLevel := g.gradeLevel, status := g.status)
    ensures k in Validate(g) <==> k in Validate(f)
    ensures k in Validate(f) ==> Validate(g)[k] == Validate(f)[k]
  {
    if k == "firstName" {
    } else if k == "lastName" {
    } else if k == "email" {
    } else if k == "phone" {
    } else {
      assert k !in Checked;
    }
  }

  /** `handleSubmit`: the form's fields when it validates, otherwise
      nothing. */
  function Submit(f: StudentFormData): (r: Option<StudentService.StudentInput>)
    ensures r.Some? <==> NoErrors(Validate(f))
    ensures r.Some? ==> r.value == StudentService.StudentInput(f.firstName, f.lastName, f.gradeLevel,
                                                               f.email, f.phone, f.status)
  {
    if NoErrors(Validate(f)) then
      Some(StudentService.StudentInput(f.firstName, f.lastName, f.gradeLevel, f.email, f.phone, f.status))
    else None
  }

  /** Opening a valid student with a grade and a status and saving it
      unchanged leaves the stored student as it was. */
  lemma EditRoundTrip(st: StudentService.Student)
    requires !Text.IsBlank(st.firstName) && !Text.IsBlank(st.lastName) && !Text.IsBlank(st.phone)
    requires MatchesLoosePattern(st.email)
    requires st.gradeLevel != 0 && st.status != ""
    ensures Submit(FromStudent(st)).Some?
    ensures StudentService.Merge(st, StudentService.PatchOf(Submit(FromStudent(st)).value)) == st
  {
  }

  /** A new student is always stored as "Active", whatever status the
      form held. */
  lemma CreateDropsStatus(s: seq<Store.Row<StudentService.Student>>, f: StudentFormData, today: string)
    requires NoErrors(Validate(f))
    ensures StudentService.Create(s, Submit(f).value, today).1.data.status == "Active"
    ensures StudentService.Create(s, Submit(f).value, today).1.data.email == f.email
  {
  }

  /** A field the form can be edited through; the grade select's value is
      parsed to an integer. */
  datatype Edit =
    | SetFirstName(firstName: string)
    | SetLastName(lastName: string)
    | SetGradeLevel(gradeLevel: int)
    | SetEmail(email: string)
    | SetPhone(phone: string)
    | SetStatus(status: string)

  function FieldOf(e: Edit): string
  {
    match e
    case SetFirstName(_) => "firstName"
    case SetLastName(_) => "lastName"
    case SetGradeLevel(_) => "gradeLevel"
    case SetEmail(_) => "email"
    case SetPhone(_) => "phone"
    case SetStatus(_) => "status"
  }

  function Apply(f: StudentFormData, e: Edit): StudentFormData
  {
    match e
    case SetFirstName(v) => f.(firstName := v)
    case SetLastName(v) => f.(lastName := v)
    case SetGradeLevel(v) => f.(gradeLevel := v)
    case SetEmail(v) => f.(email := v)
    case SetPhone(v) => f.(phone := v)
    case SetStatus(v) => f.(status := v)
  }

  /** `handleChange`: the edited field takes the new value, its error is
      cleared, and no other error changes. */
  function HandleChange(f: StudentFormData, errors: Errors, e: Edit): (r: (StudentFormData, Errors))
    ensures r.1.Keys == errors.Keys
    ensures FieldOf(e) in r.1 ==> r.1[FieldOf(e)] == ""
    ensures forall k :: k in errors && k != FieldOf(e) ==> r.1[k] == errors[k]
    ensures e.SetFirstName? ==> r.0 == f.(firstName := e.firstName)
    ensures e.SetLastName? ==> r.0 == f.(lastName := e.lastName)
    ensures e.SetGradeLevel? ==> r.0 == f.(gradeLevel := e.gradeLevel)
    ensures e.SetEmail? ==> r.0 == f.(email := e.email)
    ensures e.SetPhone? ==> r.0 == f.(phone := e.phone)
    ensures e.SetStatus? ==> r.0 == f.(status := e.status)
  {
    Forms.HandleChange(f, errors, FieldOf(e), (g: StudentFormData) => Apply(g, e))
  }
}

=== FILE: student_service.dfy ===
/** The student table (`studentService`): lookup, create, update, delete
    and the case-insensitive search. */
module StudentService {
  import opened Wrappers
  import Seqs
  import Text
  import opened Store

  datatype Student = Student(
    firstName: string,
    lastName: string,
    gradeLevel: int,
    email: string,
    phone: string,
    status: string,
    enrollmentDate: string)

  /** What a caller hands to `create`: the student form's fields. */
  datatype StudentInput = StudentInput(
    firstName: string,
    lastName: string,
    gradeLevel: int,
    email: string,
    phone: string,
    status: string)

  /** A partial record for `update`: `None` leaves a field as it is. */
  datatype StudentPatch = StudentPatch(
    firstName: Option<string>,
    lastName: Option<string>,
    gradeLevel: Option<int>,
    email: Option<string>,
    phone: Option<string>,
    status: Option<string>,
    enrollmentDate: Option<string>)

  /** `{ ...st, ...p }`. */
  function Merge(st: Student, p: StudentPatch): Student
  {
    Student(
      p.firstName.GetOr(st.firstName),
      p.lastName.GetOr(st.lastName),
      p.gradeLevel.GetOr(st.gradeLevel),
      p.email.GetOr(st.email),
      p.phone.GetOr(st.phone),
      p.status.GetOr(st.status),
      p.enrollmentDate.GetOr(st.enrollmentDate))
  }

  /** The patch that supplies every field of `input`, which is what the
      student form sends when it edits a student. */
  function PatchOf(input: StudentInput): StudentPatch
  {
    StudentPatch(Some(input.firstName), Some(input.lastName), Some(input.gradeLevel),
                 Some(input.email), Some(input.phone), Some(input.status), None)
  }

  /** Merging is a right-biased overwrite: applying the same patch twice is
      applying it once, and a full form patch leaves only the enrollment
      date of the old record. */
  lemma MergeLaws(st: Student, p: StudentPatch, input: StudentInput)
    ensures Merge(Merge(st, p), p) == Merge(st, p)
    ensures Merge(st, PatchOf(input)).enrollmentDate == st.enrollmentDate
    ensures Merge(st, PatchOf(input)).status == input.status
    ensures Merge(st, StudentPatch(None, None, None, None, None, None, None)) == st
  {
  }

  /** `getById`: the student with this id, or none when there is none. */
  function GetById(s: seq<Row<Student>>, id: int): (r: Option<Row<Student>>)
    ensures r.Some? ==> r.value in s && r.value.Id == id
    ensures r.None? <==> forall i :: 0 <= i < |s| ==> s[i].Id != id
  {
    Store.Get(s, id)
  }

  /** `create`: a fresh id, the caller's fields, today's enrollment date and
      status "Active" whatever status the caller passed; appended at the
      end. */
  function Create(s: seq<Row<Student>>, input: StudentInput, today: string): (r: (seq<Row<Student>>, Row<Student>))
    ensures r.0 == s + [r.1]
    ensures r.1.Id >= 1 && forall i :: 0 <= i < |s| ==> s[i].Id < r.1.Id
    ensures r.1.data.status == "Active" && r.1.data.enrollmentDate == today
    ensures && r.1.data.firstName == input.firstName && r.1.data.lastName == input.lastName
            && r.1.data.gradeLevel == input.gradeLevel && r.1.data.email == input.email
            && r.1.data.phone == input.phone
  {
    Store.Insert(s, Student(input.firstName, input.lastName, input.gradeLevel,
                            input.email, input.phone, "Active", today))
  }

  /** Creating then looking up the new id returns the new student, and the
      ids stay distinct. */
  lemma CreateThenGet(s: seq<Row<Student>>, input: StudentInput, today: string)
    ensures var (t, row) := Create(s, input, today); GetById(t, row.Id) == Some(row)
    ensures UniqueIds(s) ==> UniqueIds(Create(s, input, today).0)
  {
    Store.InsertThenGet(s, Student(input.firstName, input.lastName, input.gradeLevel,
                                   input.email, input.phone, "Active", today));
  }

  /** `update`: on a miss, none and no change; on a hit, the first student
      with this id gets the patch merged in and everything else stays. */
  function Update(s: seq<Row<Student>>, id: int, p: StudentPatch): (r: (seq<Row<Student>>, Option<Row<Student>>))
    ensures IndexOf(s, id).None? ==> r.0 == s && r.1 == None
    ensures IndexOf(s, id).Some? ==>
              var k := IndexOf(s, id).value;
              && r.0 == s[k := Row(id, Merge(s[k].data, p))]
              && r.1 == Some(r.0[k])
  {
    Store.Update(s, id, (st: Student) => Merge(st, p))
  }

  /** `delete`: on a miss, none and no change; on a hit, exactly that
      student is spliced out and returned. */
  function Delete(s: seq<Row<Student>>, id: int): (r: (seq<Row<Student>>, Option<Row<Student>>))
    ensures IndexOf(s, id).None? ==> r.0 == s && r.1 == None
    ensures IndexOf(s, id).Some? ==>
              var k := IndexOf(s, id).value;
              r.0 == s[..k] + s[k + 1..] && r.1 == Some(s[k])
  {
    Store.Delete(s, id)
  }

  /** In a table with distinct ids, a deleted id can no longer be found and
      the other students remain in order. */
  lemma DeleteThenGet(s: seq<Row<Student>>, id: int)
    requires UniqueIds(s)
    ensures GetById(Delete(s, id).0, id).None?
    ensures Delete(s, id).0 == Seqs.Filter(s, (x: Row<Student>) => x.Id != id)
  {
    Store.DeleteThenGet(s, id);
    Store.DeleteIsFilter(s, id);
  }

  /** The search test as the code runs it. */
  predicate SearchHit(st: Student, query: string)
  {
    var q := Text.ToLower(query);
    || Text.Includes(Text.ToLower(st.firstName), q)
    || Text.Includes(Text.ToLower(st.lastName), q)
    || Text.Includes(Text.ToLower(st.email), q)
  }

  /** What the search promises: the lower-cased query occurs in the
      lower-cased first name, last name or email. */
  ghost predicate MatchesQuery(st: Student, query: string)
  {
    var q := Text.ToLower(query);
    || Text.OccursIn(q, Text.ToLower(st.firstName))
    || Text.OccursIn(q, Text.ToLower(st.lastName))
    || Text.OccursIn(q, Text.ToLower(st.email))
  }

  /** `search`: the students the test accepts, in table order; an empty
      query returns the whole table. */
  function Search(s: seq<Row<Student>>, query: string): (r: seq<Row<Student>>)
    ensures forall i :: 0 <= i < |r| ==> r[i] in s && SearchHit(r[i].data, query)
    ensures forall i :: 0 <= i < |s| && SearchHit(s[i].data, query) ==> s[i] in r
    ensures query == "" ==> r == s
  {
    var p := (x: Row<Student>) => SearchHit(x.data, query);
    if query == "" then Seqs.FilterFullIff(s, p); Seqs.Filter(s, p)
    else Seqs.Filter(s, p)
  }

  /** The test the code runs is exactly the promised substring match. */
  lemma SearchHitIffMatches(st: Student, query: string)
    ensures SearchHit(st, query) <==> MatchesQuery(st, query)
  {
    var q := Text.ToLower(query);
    Text.IncludesIffOccurs(Text.ToLower(st.firstName), q);
    Text.IncludesIffOccurs(Text.ToLower(st.lastName), q);
    Text.IncludesIffOccurs(Text.ToLower(st.email), q);
  }
}

=== FILE: student_table.dfy ===
/** The student table: the search box over the student list, the sortable
    last-name and grade-level columns, and the header clicks that choose
    the sort. */
module StudentTable {
  import Seqs
  import Text
  import Sorting
  import opened Store
  import StudentService

  type StudentRow = Row<StudentService.Student>

  /** The table's search test: the lower-cased query occurs in the
      lower-cased "first last" name, or in the lower-cased email. */
  predicate TableHit(st: StudentService.Student, query: string)
  {
    var q := Text.ToLower(query);
    || Text.Includes(Text.ToLower(st.firstName + " " + st.lastName), q)
    || Text.Includes(Text.ToLower(st.email), q)
  }

  /** `filteredStudents`: the students the search test accepts, in list
      order; an empty query shows everyone. */
  function Filtered(students: seq<StudentRow>, query: string): (r: seq<StudentRow>)
    ensures forall i :: 0 <= i < |r| ==> r[i] in students && TableHit(r[i].data, query)
    ensures forall i :: 0 <= i < |students| && TableHit(students[i].data, query) ==> students[i] in r
    ensures query == "" ==> r == students
  {
    var p := (x: StudentRow) => TableHit(x.data, query);
    Seqs.FilterFullIff(students, p);
    Seqs.Filter(students, p)
  }

  /** Every student the student service's search finds is also shown by
      the table's search box: a match in the first name, the last name or
      the email is a match in the full name or the email. */
  lemma ServiceHitShows(st: StudentService.Student, query: string)
    ensures StudentService.SearchHit(st, query) ==> TableHit(st, query)
  {
    var q := Text.ToLower(query);
    StudentService.SearchHitIffMatches(st, query);
    Text.ToLowerAppend(st.firstName, " " + st.lastName);
    Text.ToLowerAppend(" ", st.lastName);
    assert Text.ToLower(st.firstName + " " + st.lastName)
        == Text.ToLower(st.firstName) + (Text.ToLower(" ") + Text.ToLower(st.lastName));
    Text.OccursInAppend(q, Text.ToLower(st.firstName), Text.ToLower(" ") + Text.ToLower(st.lastName));
    Text.OccursInAppend(q, Text.ToLower(" "), Text.ToLower(st.lastName));
    Text.IncludesIffOccurs(Text.ToLower(st.firstName + " " + st.lastName), q);
    Text.IncludesIffOccurs(Text.ToLower(st.email), q);
  }

  /** The converse fails: a query running across the space between the
      names is found by the table but not by the service's search. */
  lemma QueryAcrossNames()
    ensures var st := StudentService.Student("Ann", "Lee", 9, "al@x.org", "555", "Active", "2024-09-01");
            TableHit(st, "n L") && !StudentService.SearchHit(st, "n L")
  {
    ExampleLowered();
    ExampleMatches();
  }

  lemma ExampleLowered()
    ensures Text.ToLower("n L") == "n l"
    ensures Text.ToLower("Ann" + " " + "Lee") == "ann lee"
    ensures Text.ToLower("Ann") == "ann" && Text.ToLower("Lee") == "lee"
    ensures Text.ToLower("al@x.org") == "al@x.org"
  {
    assert "Ann" + " " + "Lee" == "Ann Lee";
  }

  lemma ExampleMatches()
    ensures Text.Includes("ann lee", "n l")
    ensures !Text.Includes("ann", "n l") && !Text.Includes("lee", "n l")
    ensures !Text.Includes("al@x.org", "n l")
  {
    assert "ann lee"[1..] == "nn lee" && "nn lee"[1..] == "n lee";
    assert Text.StartsWith("n lee", "n l");
    assert "ann"[..3][0] != "n l"[0] && "ann"[1..] == "nn";
    assert "lee"[..3][0] != "n l"[0] && "lee"[1..] == "ee";
    NoSpaceNoMatch("al@x.org", "n l");
  }

  /** A needle with a space does not occur in a haystack without one. */
  lemma {:induction false} NoSpaceNoMatch(hay: string, needle: string)
    requires ' ' in needle && ' ' !in hay
    ensures !Text.Includes(hay, needle)
  {
    if |hay| > 0 {
      assert forall c :: c in hay[1..] ==> c in hay;
      NoSpaceNoMatch(hay[1..], needle);
    }
  }

  /** The two sortable columns. */
  datatype SortField = LastName | GradeLevel

  datatype Direction = Asc | Desc

  /** Which column the table is sorted by, and which way. */
  datatype SortState = SortState(field: SortField, direction: Direction)

  /** The table starts sorted by last name, ascending. */
  const InitialSort := SortState(LastName, Asc)

  /** `a[sortField] > b[sortField]`: string order on last names, number
      order on grade levels. */
  predicate Greater(field: SortField, a: StudentService.Student, b: StudentService.Student)
  {
    match field
    case LastName => Text.Less(b.lastName, a.lastName)
    case GradeLevel => a.gradeLevel > b.gradeLevel
  }

  /** Whether the comparator lets `a` stay before `b`. Ascending, it puts
      `a` first unless `a`'s key is greater; descending, unless `a`'s key
      is smaller. */
  function Before(sort: SortState): (StudentRow, StudentRow) -> bool
  {
    match sort.direction
    case Asc => (a: StudentRow, b: StudentRow) => !Greater(sort.field, a.data, b.data)
    case Desc => (a: StudentRow, b: StudentRow) => !Greater(sort.field, b.data, a.data)
  }

  /** "Greater" is a strict order on each column: never both ways round,
      and whenever `a > c`, any `b` lies above `c` or below `a`. */
  lemma GreaterIsStrictWeakOrder(field: SortField, a: StudentService.Student, b: StudentService.Student,
                                 c: StudentService.Student)
    ensures Greater(field, a, b) ==> !Greater(field, b, a)
    ensures Greater(field, a, c) ==> Greater(field, a, b) || Greater(field, b, c)
  {
    if field == LastName {
      Text.LessAsymmetric(b.lastName, a.lastName);
      if Text.Less(c.lastName, a.lastName) && b.lastName != c.lastName {
        Text.LessTotal(c.lastName, b.lastName);
        if Text.Less(b.lastName, c.lastName) {
          Text.LessTransitive(b.lastName, c.lastName, a.lastName);
        }
      }
    }
  }

  /** Each of the four orders the table can be in is total and transitive,
      so sorting by it yields a list in that order. */
  lemma BeforeIsOrder(sort: SortState)
    ensures Sorting.Total(Before(sort))
    ensures Sorting.Transitive(Before(sort))
  {
    var le := Before(sort);
    forall a: StudentRow, b: StudentRow ensures le(a, b) || le(b, a) {
      GreaterIsStrictWeakOrder(sort.field, a.data, b.data, a.data);
    }
    forall a: StudentRow, b: StudentRow, c: StudentRow | le(a, b) && le(b, c) ensures le(a, c) {
      if sort.direction == Asc {
        GreaterIsStrictWeakOrder(sort.field, a.data, b.data, c.data);
      } else {
        GreaterIsStrictWeakOrder(sort.field, c.data, b.data, a.data);
      }
    }
  }

  /** `sortedStudents`: the students the search shows, each exactly once,
      ordered by the chosen column in the chosen direction. */
  function View(students: seq<StudentRow>, query: string, sort: SortState): (r: seq<StudentRow>)
    ensures multiset(r) == multiset(Filtered(students, query))
    ensures forall i :: 0 <= i < |r| ==> r[i] in students && TableHit(r[i].data, query)
    ensures forall i :: 0 <= i < |students| && TableHit(students[i].data, query) ==> students[i] in r
    ensures sort.direction == Asc ==>
              forall i, j :: 0 <= i < j < |r| ==> !Greater(sort.field, r[i].data, r[j].data)
    ensures sort.direction == Desc ==>
              forall i, j :: 0 <= i < j < |r| ==> !Greater(sort.field, r[j].data, r[i].data)
  {
    var shown := Filtered(students, query);
    BeforeIsOrder(sort);
    var r := Sorting.Sort(shown, Before(sort));
    forall i | 0 <= i < |r| ensures r[i] in shown {
      assert r[i] in multiset(shown);
    }
    forall x | x in shown ensures x in r {
      assert x in multiset(r);
    }
    r
  }

  /** Sorting a view that is already sorted changes nothing. */
  lemma ViewStable(students: seq<StudentRow>, query: string, sort: SortState)
    ensures Sorting.Sort(View(students, query, sort), Before(sort)) == View(students, query, sort)
  {
    BeforeIsOrder(sort);
    Sorting.SortIdempotent(Filtered(students, query), Before(sort));
  }

  /** `handleSort`: clicking the sorted column flips the direction;
      clicking the other column sorts by it, ascending. */
  function HandleSort(sort: SortState, field: SortField): (r: SortState)
    ensures r.field == field
    ensures r.direction == Asc <==> field != sort.field || sort.direction == Desc
  {
    if sort.field == field then
      SortState(field, if sort.direction == Asc then Desc else Asc)
    else
      SortState(field, Asc)
  }

  /** Clicking the sorted column twice restores the sort; clicking another
      column and back gives that column ascending. */
  lemma HandleSortTwice(sort: SortState, field: SortField)
    ensures sort.field == field ==> HandleSort(HandleSort(sort, field), field) == sort
    ensures sort.field != field ==> HandleSort(HandleSort(sort, field), sort.field) == SortState(sort.field, Asc)
  {
  }
}

=== FILE: text.dfy ===
/** The string primitives the validators and filters rely on: `trim()`,
    the regular-expression classes `\s` and `\d`, `toLowerCase()`,
    `includes()` and the `<` / `>` ordering of strings. */
module Text {
  import Seqs

  /** ECMAScript WhiteSpace and LineTerminator code points: the set that
      both `String.prototype.trim` and the regular-expression class `\s`
      use. */
  predicate IsWhitespace(c: char)
  {
    var n := c as int;
    || 0x09 <= n <= 0x0D          // tab, line feed, vertical tab, form feed, carriage return
    || n == 0x20 || n == 0xA0     // space, no-break space
    || n == 0x1680
    || 0x2000 <= n <= 0x200A      // en quad .. hair space
    || n == 0x2028 || n == 0x2029 // line and paragraph separators
    || n == 0x202F || n == 0x205F || n == 0x3000
    || n == 0xFEFF                // byte order mark
  }

  /** Only whitespace (or nothing at all). */
  predicate IsBlank(s: string)
  {
    forall i :: 0 <= i < |s| ==> IsWhitespace(s[i])
  }

  /** Leading whitespace removed: a suffix of `s` that starts with a
      non-whitespace character or is empty, and the part dropped is blank. */
  function TrimStart(s: string): (r: string)
    ensures |r| <= |s| && r == s[|s| - |r|..]
    ensures IsBlank(s[..|s| - |r|])
    ensures |r| > 0 ==> !IsWhitespace(r[0])
  {
    if |s| > 0 && IsWhitespace(s[0]) then
      var r := TrimStart(s[1..]);
      var n := |s| - |r|;
      assert s[1..][n - 1..] == s[n..];
      forall i | 0 <= i < n ensures IsWhitespace(s[..n][i]) {
        if i > 0 {
          assert s[..n][i] == s[1..][..n - 1][i - 1];
        }
      }
      r
    else s
  }

  /** Trailing whitespace removed: a prefix of `s` that ends with a
      non-whitespace character or is empty, and the part dropped is blank. */
  function TrimEnd(s: string): (r: string)
    ensures |r| <= |s| && r == s[..|r|]
    ensures IsBlank(s[|r|..])
    ensures |r| > 0 ==> !IsWhitespace(r[|r| - 1])
  {
    if |s| > 0 && IsWhitespace(s[|s| - 1]) then
      var r := TrimEnd(s[..|s| - 1]);
      assert s[|r|..] == s[..|s| - 1][|r|..] + [s[|s| - 1]];
      r
    else s
  }

  /** `s.trim()`. */
  function Trim(s: string): string
  {
    TrimEnd(TrimStart(s))
  }

  /** `!s.trim()` holds exactly for blank strings. */
  lemma TrimEmptyIffBlank(s: string)
    ensures Trim(s) == "" <==> IsBlank(s)
  {
    var t := TrimStart(s);
    assert s == s[..|s| - |t|] + t;
    if |t| > 0 {
      assert !IsWhitespace(t[0]);
      assert |TrimEnd(t)| > 0;
      assert !IsWhitespace(s[|s| - |t|]);
    } else {
      assert s[..|s| - |t|] == s;
    }
  }

  /** The regular-expression class `\d`: ASCII digits only. */
  predicate IsDigit(c: char)
  {
    '0' <= c <= '9'
  }

  /** `s.replace(/\D/g, '')`: the digits of `s`, in order. */
  function Digits(s: string): (r: string)
    ensures |r| <= |s|
    ensures forall i :: 0 <= i < |r| ==> IsDigit(r[i])
  {
    Seqs.Filter(s, IsDigit)
  }

  /** A string of digits keeps all of its characters. */
  lemma DigitsOfDigits(s: string)
    requires forall i :: 0 <= i < |s| ==> IsDigit(s[i])
    ensures Digits(s) == s
  {
    Seqs.FilterFullIff(s, IsDigit);
  }

  /** Digits distribute over concatenation. */
  lemma DigitsAppend(a: string, b: string)
    ensures Digits(a + b) == Digits(a) + Digits(b)
  {
    Seqs.FilterAppend(a, b, IsDigit);
  }

  /** `toLowerCase()` on one character; only the ASCII letters are mapped. */
  function LowerChar(c: char): (r: char)
    ensures 'A' <= c <= 'Z' ==> 'a' <= r <= 'z'
    ensures !('A' <= c <= 'Z') ==> r == c
  {
    if 'A' <= c <= 'Z' then (c as int - 'A' as int + 'a' as int) as char else c
  }

  function ToLower(s: string): (r: string)
    ensures |r| == |s|
    ensures forall i :: 0 <= i < |s| ==> r[i] == LowerChar(s[i])
  {
    seq(|s|, i requires 0 <= i < |s| => LowerChar(s[i]))
  }

  /** Lower-casing works character by character, so it distributes over
      concatenation. */
  lemma ToLowerAppend(a: string, b: string)
    ensures ToLower(a + b) == ToLower(a) + ToLower(b)
  {
  }

  /** `needle` occurs in `hay` at some position: the reference meaning of
      `includes`. */
  ghost predicate OccursIn(needle: string, hay: string)
  {
    exists i :: OccursAt(needle, hay, i)
  }

  ghost predicate OccursAt(needle: string, hay: string, i: int)
  {
    0 <= i <= |hay| - |needle| && hay[i..i + |needle|] == needle
  }

  /** An occurrence in either part is an occurrence in the whole. */
  lemma OccursInAppend(needle: string, a: string, b: string)
    ensures OccursIn(needle, a) ==> OccursIn(needle, a + b)
    ensures OccursIn(needle, b) ==> OccursIn(needle, a + b)
  {
    if OccursIn(needle, a) {
      var i :| OccursAt(needle, a, i);
      assert (a + b)[i..i + |needle|] == a[i..i + |needle|];
      assert OccursAt(needle, a + b, i);
    }
    if OccursIn(needle, b) {
      var i :| OccursAt(needle, b, i);
      assert (a + b)[|a| + i..|a| + i + |needle|] == b[i..i + |needle|];
      assert OccursAt(needle, a + b, |a| + i);
    }
  }

  /** `hay.startsWith(needle)`. */
  predicate StartsWith(hay: string, needle: string)
  {
    |needle| <= |hay| && hay[..|needle|] == needle
  }

  /** `hay.includes(needle)`, by trying every starting position in turn. */
  function Includes(hay: string, needle: string): (r: bool)
    ensures |needle| == 0 ==> r
    ensures r ==> |needle| <= |hay|
  {
    if StartsWith(hay, needle) then true
    else if |hay| == 0 then false
    else Includes(hay[1..], needle)
  }

  /** The scan finds an occurrence exactly when there is one. */
  lemma {:induction false} IncludesIffOccurs(hay: string, needle: string)
    ensures Includes(hay, needle) <==> OccursIn(needle, hay)
  {
    if StartsWith(hay, needle) {
      assert OccursAt(needle, hay, 0);
    } else if |hay| > 0 {
      IncludesIffOccurs(hay[1..], needle);
      OccursShift(hay, needle);
    }
  }

  /** Past a first character that does not start the needle, the needle
      occurs in the text exactly when it occurs in the rest. */
  lemma OccursShift(hay: string, needle: string)
    requires |hay| > 0 && !StartsWith(hay, needle)
    ensures OccursIn(needle, hay) <==> OccursIn(needle, hay[1..])
  {
    if OccursIn(needle, hay[1..]) {
      var i :| OccursAt(needle, hay[1..], i);
      assert hay[i + 1..i + 1 + |needle|] == hay[1..][i..i + |needle|];
      assert OccursAt(needle, hay, i + 1);
    }
    if OccursIn(needle, hay) {
      var i :| OccursAt(needle, hay, i);
      assert i != 0;
      assert hay[1..][i - 1..i - 1 + |needle|] == hay[i..i + |needle|];
      assert OccursAt(needle, hay[1..], i - 1);
    }
  }

  /** JavaScript's `a < b` on strings: lexicographic order by character. */
  predicate Less(a: string, b: string)
  {
    if |a| == 0 then |b| > 0
    else if |b| == 0 then false
    else if a[0] != b[0] then a[0] < b[0]
    else Less(a[1..], b[1..])
  }

  /** The string order is strict: never both ways round, never reflexive. */
  lemma {:induction false} LessAsymmetric(a: string, b: string)
    ensures Less(a, b) ==> !Less(b, a)
    ensures !Less(a, a)
  {
    if |a| > 0 && |b| > 0 && a[0] == b[0] {
      LessAsymmetric(a[1..], b[1..]);
    }
    if |a| > 0 {
      LessAsymmetric(a[1..], a[1..]);
    }
  }

  /** ... and total on distinct strings. */
  lemma {:induction false} LessTotal(a: string, b: string)
    requires a != b
    ensures Less(a, b) || Less(b, a)
  {
    if |a| > 0 && |b| > 0 && a[0] == b[0] {
      assert a == [a[0]] + a[1..] && b == [b[0]] + b[1..];
      LessTotal(a[1..], b[1..]);
    }
  }

  /** ... and transitive. */
  lemma {:induction false} LessTransitive(a: string, b: string, c: string)
    requires Less(a, b) && Less(b, c)
    ensures Less(a, c)
  {
    if |a| > 0 && |b| > 0 && |c| > 0 && a[0] == b[0] && b[0] == c[0] {
      LessTransitive(a[1..], b[1..], c[1..]);
    }
  }
}

=== FILE: wrappers.dfy ===
/** The optional value that stands in for JavaScript's `null` / `undefined`
    results ("record not found", "no selection", "field not supplied"). */
module Wrappers {

  datatype Option<+T> = None | Some(value: T) {

    /** The value, or `default` when there is none (JavaScript's `x || default`
        for a value that is never falsy). */
    function GetOr(default: T): T {
      match this
      case Some(v) => v
      case None => default
    }
  }
}
